=== FILE: README.md ===
# fastmail-cli: email tracking keys, bulk moves and exit codes, in Dafny

This project models the core of `fastmail-cli`, a command-line client for
Fastmail's JMAP API. It covers two parts of the program.

The first part is the email tracking subsystem (`internal/tracking`):

- Tracking pixels carry a payload sealed with AES-GCM under a versioned key.
  The blob is `version ‖ nonce ‖ sealed`, written in unpadded base64url.
  Decryption falls back to the legacy, unversioned layout.
- The keys live in the system keyring:
  - one item per key version (`tracking_key_v<N>`);
  - a legacy item (`tracking_key`);
  - a pointer to the current version (`tracking_key_current_version`);
  - the admin key (`admin_key`).
- The tracking config file records which versions are active. When the keys
  are kept in the keyring, a load fills blank keys in from it.
- `fastmail email track rotate` picks the next version, generates a key for
  it, saves the retained keys and the new one, then saves the config.

The second part is the command layer (`internal/cmd`):

- Bulk ID input: arguments, an IDs file and standard input. The IDs are
  normalised, comment and blank lines are skipped, and duplicates are dropped
  in first-seen order.
- Batched JMAP calls whose results are merged.
- `email bulk-move`, including how a `--to` target is resolved to a mailbox.
- The process exit-code classifier.
- The `--light` output projections and the 80-rune truncation they use.
- The boolean environment-variable reader and the `--no-input` /
  `--non-interactive` aliases of `--yes`.

How the model is built:

- Every operation is a pure function of its inputs. Whatever the source reads
  from outside becomes a value passed in:
  - the config file is a `ConfigFile`;
  - the keyring is a `Ring` whose items can carry read and write faults;
  - the random nonce and the generated key are parameters;
  - the JMAP server is a function from a batch to its reply;
  - the confirmation prompt is its answer.
- The cryptographic primitives, base64 and JSON are fields of a `Primitives`
  record. The laws the framing relies on are stated once, as `Crypto.Lawful`.
- Go's `int` is unbounded here, except where overflow is the point.
  `Batching.Wrap64` models 64-bit wrap-around for the source's batch-count
  formula, `Batching.TotalBatchesAsWritten`, which only the Findings lemmas use.
  The bulk run itself counts batches with the corrected `Batching.TotalBatches`.

Modules:

| file | module | models |
|---|---|---|
| wrappers.dfy | Wrappers | `Option`, `Result`, `Outcome` |
| text.dfy | Text | `strings.TrimSpace`, `strings.Fields`, `strings.Contains`, ASCII `strings.ToLower` |
| decimal.dfy | Decimal | `strconv.Itoa` / `strconv.Atoi` on 64-bit integers |
| crypto.dfy | Crypto | internal/tracking/crypto.go |
| secrets.dfy | Secrets | internal/tracking/secrets.go |
| tracking_config.dfy | TrackingConfig | internal/tracking/config.go |
| rotate.dfy | Rotate | internal/cmd/email_track_rotate.go |
| bulk_input.dfy | BulkInput | ID collection in internal/cmd/bulk_input.go |
| batching.dfy | Batching | `runBulkInBatches` in internal/cmd/bulk_input.go |
| email_actions.dfy | EmailActions | bulk move and mailbox resolution in internal/cmd/email_actions.go |
| exit_codes.dfy | ExitCodes | internal/cmd/exit_codes.go |
| format_strings.dfy | FormatStrings | internal/format/strings.go |
| light.dfy | Light | internal/cmd/light.go |
| root_flags.dfy | RootFlags | `envBool` and the flag aliases in internal/cmd/root.go |

## Model

| member | source | states |
|---|---|---|
| Crypto.ValidateKeyVersion | internal/tracking/crypto.go:26-34 | A key version passes exactly when it lies in 1..255, the range of the one-byte wire field; otherwise the error names the version. |
| Crypto.EffectiveVersion | internal/tracking/crypto.go:41-44 | The version byte that is written is always a valid key version, and any non-zero byte is kept as it is. |
| Crypto.EncryptWithVersion | internal/tracking/crypto.go:41-78 | Encryption fails exactly when the key is not standard base64, the key is not 16, 24 or 32 bytes long, or the random source gives no nonce. The errors are "decode key", "new cipher" and "nonce", checked in that order. |
| Crypto.EncryptFraming | internal/tracking/crypto.go:41-78 | A successful encryption decodes to the effective version byte, then the 12-byte nonce, then the sealed JSON payload with its 16-byte tag. |
| Crypto.EncryptWritesVersionOne | internal/tracking/crypto.go:37-39 | Plain `Crypto.Encrypt` writes version byte 1. |
| Crypto.OpenBody | internal/tracking/crypto.go:120-149 | A wrong-sized key fails as "new cipher". A body shorter than the nonce fails as "ciphertext too short". Success means the tag checked and the plaintext parsed as a payload. |
| Crypto.DecryptWithVersion | internal/tracking/crypto.go:97-150 | An empty blob is too short. A first byte other than the expected version is a version mismatch. Success implies the blob is long enough and carries the expected version. |
| Crypto.DecryptLegacy | internal/tracking/crypto.go:152-191 | A legacy blob shorter than the nonce is rejected as too short. |
| Crypto.Decrypt | internal/tracking/crypto.go:81-95 | The versioned result wins when it succeeds. Otherwise the legacy path decides. A failure carries both causes. |
| Crypto.RoundTripWithVersion | internal/tracking/crypto.go:41-150 | Decrypting with the same key and version gives back the payload that was encrypted, under the stated primitive laws. |
| Crypto.RoundTrip | internal/tracking/crypto_test.go:8-39 | `Decrypt(Encrypt(p))` is `p` for every payload, valid key and nonce; `Encrypt` here is `Crypto.Encrypt`. |
| Crypto.DecryptRejectsInvalidBase64 | internal/tracking/crypto_test.go:54-61 | A blob that is not base64url never decrypts. With a valid key, both paths report "decode blob". |
| Crypto.DecryptRejectsWrongKey | internal/tracking/crypto_test.go:41-52 | A blob decrypted under a key whose authentication fails is rejected by both the versioned and the legacy path. |
| Crypto.VersionByteTamperDetected | internal/tracking/crypto.go:116-118 | Changing the version byte of a valid blob makes the versioned decryption report a version mismatch. |
| Crypto.LegacyBlobDecrypts | internal/tracking/crypto.go:81-95 | A legacy `nonce ‖ sealed` blob still decrypts, through the fallback, when its first byte is not the current version. |
| Crypto.DecryptFailureMentionsDecrypt | internal/tracking/crypto_test.go:94-111 | Every decryption error message contains "decrypt". |
| Secrets.NormalizeVersion | internal/tracking/secrets.go:234-239 | Versions below 1 mean version 1. Positive versions are kept. |
| Secrets.SortedVersions | internal/tracking/secrets.go:241-256 | The result holds exactly the positive versions given, strictly ascending, so it has no duplicates. |
| Secrets.AscendingUnique | internal/tracking/secrets.go:241-256 | Two strictly ascending lists with the same members are equal, so the sorted version list is unique. |
| Secrets.SortedVersionsFromMap | internal/tracking/secrets.go:258-267 | The result holds exactly the positive versions that have a key, strictly ascending. |
| Secrets.ContainsVersion | internal/tracking/secrets.go:269-276 | True exactly when the version is in the list. |
| Secrets.SlotNamesDiffer | internal/tracking/secrets.go:218-220 | Different versions are stored under different keyring item names. |
| Secrets.SlotNameIsNotFixed | internal/tracking/secrets.go:23-26 | No version item collides with the legacy, admin or pointer item. |
| Secrets.SaveTrackingKeys | internal/tracking/secrets.go:60-120 | An empty admin key, or a missing or blank current key, fails before the keyring is touched. Otherwise only the open and store errors remain. Success means the keyring was open. |
| Secrets.WriteVersionKeysStores | internal/tracking/secrets.go:85-96 | After a successful write pass, every listed version with a non-blank key holds that key. |
| Secrets.SaveStores | internal/tracking/secrets.go:60-120 | After a successful save: every non-blank key is in its version item; the legacy item holds the current key; the pointer holds the current version in decimal; the admin item holds the admin key. Nothing else was added, and every other item is unchanged. |
| Secrets.LoadSlot | internal/tracking/secrets.go:222-232 | A missing item reads as "" and a present one reads trimmed. Only a read fault fails. |
| Secrets.LoadVersionKeys | internal/tracking/secrets.go:165-173 | The load succeeds exactly when no listed version has a read fault. It then holds exactly the listed versions whose trimmed key is non-blank. |
| Secrets.LoadOrder | internal/tracking/secrets.go:155-162 | The versions tried are the current version plus every positive listed version. |
| Secrets.LoadLegacy | internal/tracking/secrets.go:175-184 | The legacy item adds no version other than version 1, and every key loaded before it is kept as it was. A failure means the legacy item could not be read. |
| Secrets.LoadPointed | internal/tracking/secrets.go:186-204 | The stored pointer adds only a positive version. The keys of the current and listed versions are kept as they were. A keyring without read faults never makes it fail. |
| Secrets.LoadTrackingKeys | internal/tracking/secrets.go:145-150 | A keyring that does not exist yields no keys and no admin key. One that fails to open is an error. |
| Secrets.LoadedShape | internal/tracking/secrets.go:145-216 | Every loaded version is positive, and the admin key is the trimmed admin item, or "" when there is none. |
| Secrets.CurrentKey | internal/tracking/secrets.go:129-140 | The current version's key when it was loaded. Otherwise the key of the newest version whose key is non-blank. |
| Secrets.HighestIsMaximal | internal/tracking/secrets.go:134-140 | The version the fallback picks has no newer version with a non-blank key. When it picks none, every key is blank. |
| Secrets.LoadSecrets | internal/tracking/secrets.go:123-142 | Succeeds exactly when the key load does. It returns the current key, chosen as above, and the admin key. |
| Secrets.LegacyLoadedWhenNeeded | internal/tracking/secrets.go:175-184 | When the current version is 1 and its version item holds no key, a keyring with a legacy item loads as version 1 the legacy text, trimmed, even if it is blank. |
| Secrets.LegacyIgnoredUnlessNeeded | internal/tracking/secrets.go:175-184 | The legacy item does not affect a load unless the current version is 1 and version 1 has no key of its own. |
| Secrets.PointerToCurrentIgnored | internal/tracking/secrets.go:186-204 | A pointer that names the current version adds nothing. |
| Secrets.SaveThenLoad | internal/tracking/secrets.go:60-216 | Saving to a fault-free keyring succeeds. Loading the saved versions then gives back every non-blank key, trimmed, and the admin key. Starting from an empty keyring, nothing else is loaded. |
| TrackingConfig.Normalize | internal/tracking/config.go:126-148 | The current version becomes positive. The version list becomes strictly ascending and holds exactly the current version and the positive listed versions. No other field changes. |
| TrackingConfig.NormalizeOfNormalized | internal/tracking/config.go:126-148 | A configuration that is already normalised is left unchanged. |
| TrackingConfig.NormalizeIdempotent | internal/tracking/config.go:126-148 | Normalising yields a normalised configuration, so normalising twice changes nothing. |
| TrackingConfig.LoadConfig | internal/tracking/config.go:50-88 | A missing file means tracking is off. A read or parse failure is an error. Otherwise the result is the normalised config, with non-blank inline keys kept. Only the keyring can make a stored config fail, and only when it is needed. When the keyring is needed and loading the secrets fails, the load fails with that error. |
| TrackingConfig.LoadFromKeyring | internal/tracking/config.go:72-84 | When the keyring is needed and serves the secrets, each blank key is filled in from them, and every other field is the normalised config. |
| TrackingConfig.InlineKeysIgnoreKeyring | internal/tracking/config.go:72-85 | With both keys inline and secrets not in the keyring, the keyring's state does not matter. |
| TrackingConfig.MissingFileNotConfigured | internal/tracking/config.go:58-59 | Without a config file, tracking is not configured. |
| TrackingConfig.InlineConfigured | internal/tracking/config.go:122-124 | With both keys inline, the loaded configuration counts as configured (`TrackingConfig.IsConfigured`) exactly when tracking is enabled and a worker URL is set, whatever the keyring holds. |
| TrackingConfig.PersistedCopy | internal/tracking/config.go:101-107 | When the secrets live in the keyring, the file copy has both keys blank. Nothing else differs. |
| TrackingConfig.PersistThenLoad | internal/tracking/config.go:50-119 | Saving a config whose secrets are in the keyring, then loading it against a keyring holding those secrets, gives the normalised config back. |
| TrackingConfig.LoadTakesCurrentKey | internal/tracking/config.go:72-85 | A saved config with a blank key gets the current version's key from the keyring. Its versions are unchanged. |
| Rotate.ActiveVersions | internal/cmd/email_track_rotate.go:26-29 | The versions loaded are the configured list, or the current version alone when the list is empty. |
| Rotate.ActiveOfNormalized | internal/cmd/email_track_rotate.go:26-29 | For a loaded (normalised) config, the active versions are its list. |
| Rotate.NextVersionAsWritten | internal/cmd/email_track_rotate.go:42-51 | The next version exceeds the current version and every active version. It is one more than the largest of them. |
| Rotate.NextVersion | internal/cmd/email_track_rotate.go:42-51 | The corrected next version also exceeds every version actually loaded, including one reached through the stored pointer. |
| Rotate.UpdatedVersions | internal/cmd/email_track_rotate.go:58-63 | The new list is ascending and holds exactly the loaded versions and the next one. |
| Rotate.UpdatedKeys | internal/cmd/email_track_rotate.go:65-72 | Every listed version is kept with its loaded key, and the next version gets the new key. |
| Rotate.SavedKeys | internal/cmd/email_track_rotate.go:65-72 | The keys saved are the loaded ones plus the new key at the next version. |
| Rotate.Prepare | internal/cmd/email_track_rotate.go:18-40 | Rotation proceeds exactly when: the config loads; it is configured; its keys load and at least one is present; the admin key is non-blank. The first failing check gives its own error: `LoadConfigFailed`, `NotConfigured`, `LoadKeysFailed`, `NoKeys`, `MissingAdmin`. When all pass, the result is the loaded config and keys. |
| Rotate.Rekey | internal/cmd/email_track_rotate.go:53-84 | After the guards: a failed key generation changes nothing. A failed key save or an unwritable config leaves the file as it was. Success advances the config to the next version over the updated list and writes it, without its keys when they live in the keyring. |
| Rotate.RotateAsWritten | internal/cmd/email_track_rotate.go:18-84 | A run that changes anything had a prepared state and a generated key. A saved config is the file's contents. The new version exceeds all configured versions, and the list is ascending over the loaded versions and the new one. |
| Rotate.RotateKeys | internal/cmd/email_track_rotate.go:18-84 | As above, except that the new version is a valid key version and exceeds every loaded version, and the new list is strictly ascending. |
| Rotate.AsWrittenReusesLoadedVersion | internal/cmd/email_track_rotate.go:31-63 | As written, when the next version was already loaded through the pointer, the version list gets a duplicate and the old key is overwritten by the new one. |
| Rotate.AsWrittenOverflowsVersionByte | internal/cmd/email_track_rotate.go:42-51 | As written, rotating from version 255 produces a version that the key-version check rejects. |
| Rotate.NextAfterLastByteVersion | internal/cmd/email_track_rotate.go:42-51 | Concretely, from version 255 the next version is 256, which is out of range. |
| Rotate.PointerLoadsUnlistedVersion | internal/tracking/secrets.go:186-204 | A pointer naming a stored version outside the active list makes that version part of the loaded keys. |
| Rotate.SavedVersionsAreSorted | internal/cmd/email_track_rotate.go:58-74 | The version list written to the config equals the order in which the keys are saved. |
| Rotate.RotateProceeds | internal/cmd/email_track_rotate.go:18-84 | A run whose guards pass succeeds when a key is generated, the keyring takes every write, the config file can be written and the next version is at most 255. |
| Rotate.RotateRetainsKeys | internal/cmd/email_track_rotate.go:53-76 | After a successful rotation, reloading the keyring gives: the new key at the new version; every previously loaded non-blank key; the admin key. |
| Rotate.RotateThenLoadConfig | internal/cmd/email_track_rotate.go:74-84 | After a successful rotation, loading the config gives: the new current version; the new version list; the new key as the tracking key. |
| Rotate.CorrectionAgreesOtherwise | internal/cmd/email_track_rotate.go:42-51 | Whenever the source's next version is in range and exceeds every loaded version, the corrected run is exactly the source's run. |
| BulkInput.ValidateBulkInputArgs | internal/cmd/bulk_input.go:28-41 | The arguments are rejected exactly when there are none, stdin is not requested and the IDs file path is blank. |
| BulkInput.LineIDs | internal/cmd/bulk_input.go:126-144 | Blank and `#` lines give no IDs. Any other line gives non-empty, space-free IDs that together hold every non-space character of the line. |
| BulkInput.LinesOfJoin | internal/cmd/bulk_input.go:126-144 | Scanning newline-terminated text gives back its lines. |
| BulkInput.ReadIDsOfLines | internal/cmd/bulk_input.go:126-144 | Reading a text made of lines is reading each line in turn. |
| BulkInput.CommentLineIgnored | internal/cmd/bulk_input.go:132-135 | A comment or blank line can be removed without changing the IDs read. |
| BulkInput.NormalizeKeepsNonSpace | internal/cmd/bulk_input.go:146-155 | Normalising argument tokens keeps every non-space character, in order, and drops only whitespace. |
| BulkInput.NormalizeOfTokens | internal/cmd/bulk_input.go:146-155 | Tokens that are already single IDs are unchanged. |
| BulkInput.Dedupe | internal/cmd/bulk_input.go:62-71 | The result holds the same IDs as the input, each once. |
| BulkInput.DedupeKeepsFirstOrder | internal/cmd/bulk_input.go:62-71 | The IDs keep the order of their first occurrences. |
| BulkInput.DedupeOfDistinct | internal/cmd/bulk_input.go:62-71 | A list without duplicates is unchanged. |
| BulkInput.DedupeIdempotent | internal/cmd/bulk_input.go:62-71 | Deduplicating twice is deduplicating once. |
| BulkInput.CollectBulkIDs | internal/cmd/bulk_input.go:43-78 | An unopenable or unreadable file fails with its trimmed path. A stdin failure is reported only when the file did not fail. Empty input fails. A success is non-empty, distinct and made of IDs, and holds exactly the IDs gathered from the arguments, the file and stdin. |
| BulkInput.GatheredFromSources | internal/cmd/bulk_input.go:43-60 | An ID is gathered exactly when it comes from the arguments, the file (when one is named) or stdin (when requested). |
| BulkInput.CollectKeepsFirstSeenOrder | internal/cmd/bulk_input.go:43-78 | The collected IDs keep the order in which each was first seen: arguments, then file, then stdin. |
| Batching.BatchesJoinToIDs | internal/cmd/bulk_input.go:91-95 | The batches, concatenated, are the IDs. |
| Batching.BatchSizes | internal/cmd/bulk_input.go:91-95 | Every batch is non-empty and at most the batch size. All but the last are full. |
| Batching.BatchIsProductSlice | internal/cmd/bulk_input.go:91-95 | Batch `i` is the slice of IDs from `i*size` to `min((i+1)*size, n)`. |
| Batching.TotalBatchesIsCeiling | internal/cmd/bulk_input.go:85 | The batch count is the ceiling of `n / size`: the least count whose batches can hold all `n` IDs. |
| Batching.TotalBatchesCountsBatches | internal/cmd/bulk_input.go:85-93 | The batch count equals the number of batches the loop makes. |
| Batching.AsWrittenAgreesWithoutOverflow | internal/cmd/bulk_input.go:85 | The source's 64-bit formula gives the right count whenever `n + size - 1` does not overflow. |
| Batching.AsWrittenCountsNegativeBatches | internal/cmd/bulk_input.go:85 | With 2 IDs and the largest batch size, the source's formula gives -1 batches where 1 is right. |
| Batching.MergedSucceeded | internal/cmd/bulk_input.go:103-106 | The merged successes are every batch's successes, in batch order. |
| Batching.MergedFailed | internal/cmd/bulk_input.go:103-106 | An ID is failed in the merged result exactly when some batch reports it failed. Its reason comes from the last batch that does. |
| Batching.ReplyError | internal/cmd/bulk_input.go:96-101 | A batch is an error exactly when its call failed or returned no result. |
| Batching.SendBatches | internal/cmd/bulk_input.go:91-107 | Calls are made in order on leading batches and stop at the first failing one. Success means every batch replied with a result. A failure is the first failing batch's error. |
| Batching.SendBatchesMerges | internal/cmd/bulk_input.go:91-107 | A successful run's result is the merge of every batch's result. |
| Batching.RunBulkInBatches | internal/cmd/bulk_input.go:80-110 | A non-positive batch size fails without calls. Otherwise the calls are the leading batches in order, and the run succeeds exactly when every batch replies. A success merges all replies; a failure names the first failing batch. |
| EmailActions.MatchIndex | internal/cmd/email_actions.go:320-337 | The position found is the mailbox the target names: the first name-or-role match ignoring case, else the first exact ID match. None means no mailbox is named. |
| EmailActions.ResolveMailboxTarget | internal/cmd/email_actions.go:309-340 | A blank target fails exactly as "target required". A failed mailbox fetch is reported as such. Resolution succeeds only with the mailbox list. |
| EmailActions.NamesIsUnique | internal/cmd/email_actions.go:320-337 | At most one mailbox is the one a target names. |
| EmailActions.ResolveFindsNamedMailbox | internal/cmd/email_actions.go:309-340 | A target resolves to the ID and display name of the mailbox it names. When it names none, the error is "not found" with the trimmed target. |
| EmailActions.NameBeatsId | internal/cmd/email_actions.go:320-328 | A name or role match wins over any ID match, and the first such match wins. |
| EmailActions.UnknownTargetNotFound | internal/cmd/email_actions.go:339 | A target that matches no name, role or ID is "not found". |
| EmailActions.RunEmailBulkMoveWithClient | internal/cmd/email_actions.go:256-307 | Resolution comes before the prompt, and a failure to resolve is reported. A failed or declined confirmation moves nothing. After a yes, the batch run's calls all target the resolved ID, and its result or error is reported. |
| EmailActions.RunEmailBulkMove | internal/cmd/email_actions.go:229-254 | An empty `--to` fails first, then an ID collection failure. A dry run lists the IDs without creating a client. A client failure is reported. Otherwise the run is the client run. |
| EmailActions.DeclinedMovesNothing | internal/cmd/email_actions.go:264-271 | Answering no never moves an email. |
| EmailActions.DryRunTouchesNothing | internal/cmd/email_actions.go:241-246 | A dry run creates no client, asks nothing and moves nothing. |
| EmailActions.EveryCallTargetsResolvedMailbox | internal/cmd/email_actions.go:258-276 | Any move call implies a resolved target, a yes and a positive batch size. Every call goes to the resolved mailbox. |
| EmailActions.CallsAreLeadingBatches | internal/cmd/email_actions.go:274-276 | The ID lists sent are a prefix of the batches of the input. |
| EmailActions.MovedSendsEveryId | internal/cmd/email_actions.go:274-304 | A completed move sent every ID exactly once, in order, and reports the number of calls as its batch count. |
| EmailActions.ArchiveResolves | internal/cmd/email_bulk_test.go:270-303 | "Archive" resolves to `archive-1`, displayed as "Archive". |
| ExitCodes.ExitCode | internal/cmd/exit_codes.go:15-53 | The code is one of the declared exit codes, and it is 0 exactly when there is no error. |
| ExitCodes.ExitCodeIsFirstClass | internal/cmd/exit_codes.go:30-53 | An error gets a class's code exactly when it is in that class and in no higher one; the order is canceled, usage, auth, not found, rate limited, temporary. It gets the general code exactly when it is in none. |
| ExitCodes.ContainsAny | internal/cmd/exit_codes.go:62-77 | True exactly when the message contains one of the fragments. |
| ExitCodes.UsageClass | internal/cmd/exit_codes.go:55-78 | An error is a usage error exactly when: it is a validation error; it wraps the usage sentinel; or its lower-cased message contains one of Cobra's fragments. |
| ExitCodes.JmapTypeDecidesRateLimit | internal/cmd/exit_codes.go:98-109 | When a JMAP error is wrapped, its type alone decides rate limiting, and the message is ignored. |
| ExitCodes.UnknownFlagExample | internal/cmd/exit_codes_test.go:25-29 | "unknown flag: --oops" exits with the usage code 2. |
| FormatStrings.Truncate | internal/format/strings.go:5-10 | A string that fits is unchanged. A longer one becomes exactly `maxLen` runes: a prefix of the original followed by "...". |
| FormatStrings.TruncateIdempotent | internal/format/strings.go:5-10 | Truncating a truncated string changes nothing. |
| FormatStrings.TruncateKeepsRunes | internal/format/strings.go:5-10 | Every kept rune is the original rune at the same position. |
| FormatStrings.TruncateDependsOnPrefix | internal/format/strings.go:5-10 | Two long strings with the same first `maxLen - 3` runes truncate alike. |
| FormatStrings.TruncateExamples | internal/format/strings_test.go:12-15 | The ASCII cases of the source's table: "hello" fits at 10 and 5, and truncates to "h..." at 4; "abcdefghij" truncates to "abc..." at 6. |
| FormatStrings.TruncateCountsRunes | internal/format/strings_test.go:16-19 | CJK and emoji strings are cut by runes. |
| Light.Short | internal/cmd/light.go:28 | Light text is at most 80 runes. Short text is unchanged, and long text keeps its first 77 runes. |
| Light.EmailToLight | internal/cmd/light.go:21-34 | The ID, thread, date and truncated subject are copied. The sender is the first sender's address, or "". An email is unread exactly when it is not marked `$seen` (`Light.Seen`), so always when it has no keywords. No count is set. |
| Light.UnreadWithoutSeenKeyword | internal/cmd/light_test.go:50-59 | A missing keyword map, an empty one, and `$seen` set to false all mean unread. |
| Light.EmailToLightExample | internal/cmd/light_test.go:11-48 | The source's seen email from Alice projects as expected. |
| Light.EmailsToLight | internal/cmd/light.go:37-43 | One light record per email, in order. |
| Light.EmailsToLightWithCounts | internal/cmd/light.go:46-55 | Each record is the plain one with the thread's message count, or 0 when the thread has none. |
| Light.NoCountsIsPlain | internal/cmd/light.go:46-55 | Without counts, the counted list is the plain list. |
| Light.CountsOnlySetMessageCount | internal/cmd/light.go:46-55 | The counts change nothing but the message count. |
| Light.WithCountsExample | internal/cmd/light_test.go:61-79 | Two emails in threads counted 3 and 1 get those counts. |
| Light.ContactToLight | internal/cmd/light.go:67-83 | The ID, company and truncated name are copied, with the first email and phone, or "" when there are none. |
| Light.ContactKeepsOnlyFirst | internal/cmd/light.go:67-83 | Emails and phones after the first do not affect the light record. |
| Light.ContactToLightExample | internal/cmd/light_test.go:81-112 | The source's John Doe contact projects to his work email and mobile number. |
| Light.ContactsToLight | internal/cmd/light.go:86-92 | One light record per contact, in order. |
| Light.EventToLight | internal/cmd/light.go:104-112 | The ID, status and truncated title are copied, and both times are formatted with the all-day flag. |
| Light.EventsToLight | internal/cmd/light.go:115-121 | One light record per event, in order. |
| Light.LightListsAppend | internal/cmd/light.go:37-43 | Projecting two lists one after the other is projecting their concatenation. |
| RootFlags.WordValue | internal/cmd/root.go:173-186 | "1", "true", "yes", "y" and "on" read as true. "0", "false", "no", "n" and "off" read as false. Anything else, the empty word included, gives the fallback. |
| RootFlags.EnvBool | internal/cmd/root.go:173-186 | The same readings, after lower-casing and trimming the value. |
| RootFlags.FallbackUsedIffUnrecognised | internal/cmd/root.go:173-186 | The fallback matters exactly for unrecognised values. An unset variable gives the fallback. |
| RootFlags.EnvBoolIgnoresCase | internal/cmd/root.go:174 | A value and its lower case read alike. |
| RootFlags.EnvBoolIgnoresSpace | internal/cmd/root.go:174 | A value and its trimmed form read alike. |
| RootFlags.ApplyAliases | internal/cmd/root.go:108-111 | After the pre-run hook, `--yes` is set exactly when `--yes`, `--no-input` or `--non-interactive` was given. No other flag changes. |
| RootFlags.ApplyAliasesIdempotent | internal/cmd/root.go:108-111 | Applying the aliases again changes nothing. |
| Decimal.AtoiOfItoa | internal/tracking/secrets.go:186-204 | A version written as the pointer in decimal reads back as the same version when it fits 64 bits, and as a range error otherwise. |
| Decimal.ItoaInjective | internal/tracking/secrets.go:218-220 | Different versions have different decimal names. |
| Text.TrimSpaceOfLower | internal/cmd/root.go:174 | Lower-casing and trimming commute. |
| Text.FieldsKeepNonSpace | internal/cmd/bulk_input.go:136 | The fields of a line, concatenated, are its non-space characters. |
| Text.TrimSpaceIdempotent | internal/cmd/email_actions.go:310 | Trimming a trimmed target changes nothing. |

## Left out

- Cryptography, base64 and JSON are not implemented. AES-GCM, the two base64
  codecs and `json.Marshal`/`Unmarshal` are function fields of
  `Crypto.Primitives`. The laws the framing needs are stated in `Crypto.Lawful`.
  Rejection of a wrong key or tampered bytes is a hypothesis of the lemmas that
  use it, not a law, because a universal "every other key fails" law contradicts
  the fixed tag length.
- `GenerateKey` (internal/tracking/crypto.go:194-201) reads the random source.
  The nonce and the generated key are parameters. A failed nonce read is a
  `None` nonce, and a failed generation is `Env.generated == None`.
- "new gcm" and "marshal payload" errors cannot happen for a valid AES key and a
  payload of strings and an integer, so they are not modelled.
- The keyring backends and `openKeyring` are not modelled. The keyring is a map
  of items with per-item read and write faults, and opening it is the `Ring`
  value.
- File I/O, `ConfigDir` and `EnsureConfigDir` (internal/config/paths.go) are not
  modelled. The config file is the `ConfigFile` a read would produce.
  `SaveConfig`'s write is the `configWritable` flag.
- `bufio.Scanner`'s 1 MiB line limit is not modelled: lines have any length.
- Cobra command wiring, printing and JSON output are not modelled. This covers
  `printDryRunList`, `printBulkResults`, the rotate summary and the help text.
  The model ends at the value that would be printed.
- `app.Confirm`, client creation, `GetMailboxes` and `MoveEmails` are not
  modelled. They are parameters: the answer, the client outcome, the mailbox
  list result and a server function.
- Text.ToLower: lower-cases ASCII letters only, because Go's Unicode case tables
  are not part of this model. The lemmas about case hold for ASCII text.
- ExitCodes.IsRateLimited: `transport.IsHTTPStatus`, `errors.As` and the `jmap`
  error predicates are not modelled. Their answers are fields of
  `ExitCodes.Error`.
- Light.EventToLight: `formatEventTime` is a parameter and times are integers,
  because time zones and layouts are not modelled.
- `addLightFlag` (internal/cmd/light.go:125-129), `envOr` and output-mode setup
  in internal/cmd/root.go only register flags and read the environment. They
  are not modelled.
- Secrets.SaveTrackingKeys: two checks in the source cannot fail after
  normalisation, so the model has no branch for them: a current version below 1
  and an empty sorted version list.
- Error messages leave out the wrapped causes of foreign errors. Only the text
  the source writes itself is kept.
- The test at internal/cmd/bulk_input_test.go:73 expects duplicate IDs. The
  model follows `collectBulkIDs` (internal/cmd/bulk_input.go:62-71), which
  removes them.
- FormatStrings.Truncate: requires `maxLen >= 3` when the string is longer than
  `maxLen`, because the source's slice would panic there.
- Crypto.DecryptLegacy: its own contract states only the too-short case. Its
  success path is stated by Crypto.LegacyBlobDecrypts, and its wrong-key path by
  Crypto.DecryptRejectsWrongKey.
- Secrets.LoadLegacy: its contract does not say what it adds. What it loads is
  stated through Secrets.LegacyLoadedWhenNeeded (the legacy item is read) and
  Secrets.LegacyIgnoredUnlessNeeded (it is not).
- Secrets.LoadPointed: its contract does not say which version it adds. What it
  loads is stated through Secrets.PointerToCurrentIgnored and
  Rotate.PointerLoadsUnlistedVersion.
- Secrets.LoadTrackingKeys: its contract covers a missing or broken keyring. The
  open case is stated by Secrets.LoadedShape and Secrets.SaveThenLoad.
- Batching.RunBulkInBatches: reports the corrected batch count
  (`Batching.TotalBatches`), not the source's 64-bit
  `(len(ids) + batchSize - 1) / batchSize` at internal/cmd/bulk_input.go:85,
  which wraps for batch sizes near 2^63. The as-written count is
  `Batching.TotalBatchesAsWritten` (see Findings).
- Only the `bulk-move` command of internal/cmd/email_actions.go is modelled.
  Its other commands are outside the core.

## Findings

| source | as written | input that shows it | evidently intended | confidence | as-written member | corrected member |
|---|---|---|---|---|---|---|
| internal/cmd/email_track_rotate.go:42-63 | The next version is one more than the largest configured version. The loaded keys can also include a version reached through the keyring's current-version pointer. | Config version 1 with versions [1]; keyring pointer "2" and a key at `tracking_key_v2`, as left by a rotate whose config save failed. The next version is 2, the list becomes [1, 2, 2], and the stored key 2 is overwritten. | The next version exceeds every loaded version, and the version list has no duplicates. | not executed; medium | Rotate.AsWrittenReusesLoadedVersion | Rotate.RotateKeys |
| internal/cmd/email_track_rotate.go:42-51 | The next version is never checked against the one-byte key-version range. | A config at version 255 rotates to 256, which `ValidateKeyVersion` rejects and a version byte cannot hold. | Rotation refuses to pass 255. | not executed; medium | Rotate.AsWrittenOverflowsVersionByte | Rotate.RotateKeys |
| internal/cmd/bulk_input.go:85 | The batch count is computed as `(len(ids) + batchSize - 1) / batchSize` in 64-bit arithmetic. | 2 IDs with batch size 9223372036854775807: the sum wraps and the count is -1. | The ceiling of `len(ids) / batchSize`, here 1. | not executed; low | Batching.AsWrittenCountsNegativeBatches | Batching.TotalBatchesCountsBatches |

=== FILE: batching.dfy ===
/** Sending bulk IDs in batches (`runBulkInBatches` in internal/cmd/bulk_input.go):
    fixed-size consecutive batches, one call of the operation per batch, results
    merged in order, and the first failing call ends the run. */
module Batching {
  import opened Wrappers
  import opened Text
  import opened Decimal

  /** The batches handed to the operation: consecutive runs of `size` IDs. */
  function Batches(ids: seq<string>, size: int): seq<seq<string>>
    requires size > 0
    decreases |ids|
  {
    if |ids| == 0 then []
    else if |ids| <= size then [ids]
    else [ids[..size]] + Batches(ids[size..], size)
  }

  /** The batches together are the IDs, in order. */
  lemma {:induction false} BatchesJoinToIDs(ids: seq<string>, size: int)
    requires size > 0
    ensures Flatten(Batches(ids, size)) == ids
    decreases |ids|
  {
    if 0 < |ids| <= size {
      assert Flatten([ids]) == ids + Flatten([]);
      AppendEmpty(ids);
    } else if |ids| > size {
      var rest := Batches(ids[size..], size);
      BatchesJoinToIDs(ids[size..], size);
      FlattenCons(ids[..size], rest);
      assert ids == ids[..size] + ids[size..];
    }
  }

  /** Every batch holds between one and `size` IDs, and all but the last hold
      exactly `size`. */
  lemma {:induction false} BatchSizes(ids: seq<string>, size: int)
    requires size > 0
    ensures forall i :: 0 <= i < |Batches(ids, size)| ==> 0 < |Batches(ids, size)[i]| <= size
    ensures forall i :: 0 <= i < |Batches(ids, size)| - 1 ==> |Batches(ids, size)[i]| == size
    decreases |ids|
  {
    if |ids| > size {
      BatchSizes(ids[size..], size);
      LaterBatches(ids, size);
    }
  }

  /** Where batch `i` starts: `i` full batches in, which is `i * size`. */
  function Offset(i: nat, size: int): (r: int)
    requires size > 0
    ensures r >= 0
  {
    if i == 0 then 0 else Offset(i - 1, size) + size
  }

  lemma {:induction false} OffsetIsProduct(i: nat, size: int)
    requires size > 0
    ensures Offset(i, size) == i * size
  {
    if i > 0 {
      OffsetIsProduct(i - 1, size);
      assert (i - 1) * size + size == i * size;
    }
  }

  /** Batch `i` is the slice of the IDs that starts at its offset: the source's
      `ids[start:end]` with `start` stepping by the size. */
  lemma {:induction false} BatchIsSlice(ids: seq<string>, size: int, i: nat)
    requires size > 0 && i < |Batches(ids, size)|
    ensures Offset(i, size) < |ids|
    ensures Batches(ids, size)[i] == ids[Offset(i, size)..Min(Offset(i, size) + size, |ids|)]
    decreases |ids|
  {
    if i == 0 {
      FirstBatch(ids, size);
    } else {
      var rest := ids[size..];
      LaterBatches(ids, size);
      BatchIsSlice(rest, size, i - 1);
      var a := Offset(i - 1, size);
      var b := Min(a + size, |rest|);
      SliceOfSuffix(ids, size, a, b);
    }
  }

  lemma FirstBatch(ids: seq<string>, size: int)
    requires size > 0 && |ids| > 0
    ensures |Batches(ids, size)| > 0 && Batches(ids, size)[0] == ids[0..Min(size, |ids|)]
  {
  }

  /** The same in the source's terms: batch `i` is `ids[i*size : min((i+1)*size, len(ids))]`. */
  lemma BatchIsProductSlice(ids: seq<string>, size: int, i: nat)
    requires size > 0 && i < |Batches(ids, size)|
    ensures i * size < |ids|
    ensures Batches(ids, size)[i] == ids[i * size..Min((i + 1) * size, |ids|)]
  {
    BatchIsSlice(ids, size, i);
    OffsetIsProduct(i, size);
    OffsetIsProduct(i + 1, size);
  }

  lemma LaterBatches(ids: seq<string>, size: int)
    requires size > 0 && |ids| > size
    ensures Batches(ids, size)[1..] == Batches(ids[size..], size)
  {
  }

  function Min(a: int, b: int): int {
    if a <= b then a else b
  }

  /** The number of batches, computed without overflow for any length and size
      that fit in 64 bits. */
  function TotalBatches(n: nat, size: int): (r: nat)
    requires size > 0
  {
    if n == 0 then 0 else (n - 1) / size + 1
  }

  /** The count is the ceiling of `n / size`: enough batches of `size` to hold
      `n` IDs and no more, which is what the source's formula means. */
  lemma TotalBatchesIsCeiling(n: nat, size: int)
    requires size > 0
    ensures n > 0 ==> (TotalBatches(n, size) - 1) * size < n <= TotalBatches(n, size) * size
    ensures TotalBatches(n, size) == (n + size - 1) / size
  {
    if n == 0 {
      DivUnique(size - 1, size, 0);
    } else {
      var q := (n - 1) / size;
      assert n - 1 == q * size + (n - 1) % size;
      assert (q + 1) * size == q * size + size;
      DivUnique(n + size - 1, size, q + 1);
    }
  }

  /** The number of batches is the number of batches sent. */
  lemma {:induction false} TotalBatchesCountsBatches(ids: seq<string>, size: int)
    requires size > 0
    ensures |Batches(ids, size)| == TotalBatches(|ids|, size)
    decreases |ids|
  {
    if |ids| > 0 {
      TotalBatchesStep(|ids|, size);
      if |ids| > size {
        TotalBatchesCountsBatches(ids[size..], size);
      }
    }
  }

  /** One full batch less is one batch less. */
  lemma TotalBatchesStep(n: nat, size: int)
    requires size > 0 && n > 0
    ensures n <= size ==> TotalBatches(n, size) == 1
    ensures n > size ==> TotalBatches(n, size) == TotalBatches(n - size, size) + 1
  {
    if n <= size {
      DivUnique(n - 1, size, 0);
    } else {
      var m := n - size - 1;
      var q := m / size;
      assert m == q * size + m % size;
      assert (q + 1) * size == q * size + size;
      DivUnique(m + size, size, q + 1);
    }
  }

  lemma MulMonotonic(x: int, y: int, size: int)
    requires x <= y && size > 0
    ensures x * size <= y * size
  {
    assert y * size - x * size == (y - x) * size;
  }

  /** Division by a positive size is determined by the bounds of the quotient. */
  lemma DivUnique(a: int, size: int, q: int)
    requires size > 0 && q * size <= a < q * size + size
    ensures a / size == q
  {
    var d := a / size;
    assert a == d * size + a % size;
    if d < q {
      MulMonotonic(d + 1, q, size);
    } else if d > q {
      MulMonotonic(q + 1, d, size);
    }
  }

  /** A 64-bit signed integer: wrap `x` into [-2^63, 2^63). */
  function Wrap64(x: int): (r: int)
    ensures -MaxInt64 - 1 <= r <= MaxInt64
    ensures (r - x) % 0x1_0000_0000_0000_0000 == 0
  {
    (x + MaxInt64 + 1) % 0x1_0000_0000_0000_0000 - MaxInt64 - 1
  }

  /** Go's integer division, which truncates toward zero. */
  function GoQuotient(a: int, b: int): int
    requires b > 0
  {
    if a >= 0 then a / b else -((-a) / b)
  }

  /** `totalBatches` as the source computes it, `(len + size - 1) / size` on
      64-bit ints: the sum wraps around when the size is near the largest int. */
  function TotalBatchesAsWritten(n: nat, size: int): int
    requires n <= MaxInt64 && 0 < size <= MaxInt64
  {
    GoQuotient(Wrap64(n + size - 1), size)
  }

  /** Where the sum fits, the source's count is the right one. */
  lemma AsWrittenAgreesWithoutOverflow(n: nat, size: int)
    requires n <= MaxInt64 && 0 < size <= MaxInt64
    requires n + size - 1 <= MaxInt64
    ensures TotalBatchesAsWritten(n, size) == TotalBatches(n, size)
  {
    TotalBatchesIsCeiling(n, size);
    assert Wrap64(n + size - 1) == n + size - 1;
  }

  /** Two IDs with the largest batch size are one batch, but the source reports
      -1 batches. */
  lemma AsWrittenCountsNegativeBatches()
    ensures TotalBatches(2, MaxInt64) == 1
    ensures TotalBatchesAsWritten(2, MaxInt64) == -1
  {
    assert Wrap64(2 + MaxInt64 - 1) == -MaxInt64 - 1;
  }

  /** The corrected count is within 64 bits for every length and size that are. */
  lemma TotalBatchesFits(n: nat, size: int)
    requires n <= MaxInt64 && 0 < size <= MaxInt64
    ensures 0 <= TotalBatches(n, size) <= n
  {
    if n > 0 {
      var q := (n - 1) / size;
      assert n - 1 == q * size + (n - 1) % size;
      if q > 0 {
        MulMonotonic(1, size, q);
      }
    }
  }

  // ---------------------------------------------------------------------------
  // Merging per-batch results
  // ---------------------------------------------------------------------------

  /** `jmap.BulkResult`: the IDs that succeeded and the failed IDs' messages. */
  datatype BulkResult = BulkResult(succeeded: seq<string>, failed: map<string, string>)

  const NoResults: BulkResult := BulkResult([], map[])

  /** What one call of the operation returned: an error, a nil result, or a result. */
  datatype Reply = OpError(message: string) | NilResult | Replied(result: BulkResult)

  /** The batch operation. Its first argument counts the calls made so far, so
      that it may answer differently each time, as a remote service can. */
  type Operation = (nat, seq<string>) -> Reply

  datatype BatchError =
    | BadBatchSize
    | BatchFailed(action: string, batch: nat, total: nat, message: string)
    | EmptyResult(action: string, batch: nat, total: nat)

  /** Adding one batch's result: its successes go at the end, and its failures
      replace any earlier message for the same ID. */
  function Merge(acc: BulkResult, next: BulkResult): BulkResult {
    BulkResult(acc.succeeded + next.succeeded, acc.failed + next.failed)
  }

  /** The results of `replies`, merged in order; a reply without a result adds nothing. */
  function MergeAll(replies: seq<Reply>): BulkResult
    decreases |replies|
  {
    if |replies| == 0 then NoResults
    else
      var acc := MergeAll(replies[..|replies| - 1]);
      var last := replies[|replies| - 1];
      if last.Replied? then Merge(acc, last.result) else acc
  }

  function SucceededOf(reply: Reply): seq<string> {
    if reply.Replied? then reply.result.succeeded else []
  }

  /** The successes of every reply, first to last. */
  function AllSucceeded(replies: seq<Reply>): seq<string>
    decreases |replies|
  {
    if |replies| == 0 then [] else SucceededOf(replies[0]) + AllSucceeded(replies[1..])
  }

  /** A reply that reports a failure for `id`. */
  predicate FailsIn(replies: seq<Reply>, i: int, id: string) {
    0 <= i < |replies| && replies[i].Replied? && id in replies[i].result.failed
  }

  /** The merged successes are every batch's successes, in batch order. */
  lemma {:induction false} MergedSucceeded(replies: seq<Reply>)
    ensures MergeAll(replies).succeeded == AllSucceeded(replies)
    decreases |replies|
  {
    if |replies| > 0 {
      var init := replies[..|replies| - 1];
      var last := replies[|replies| - 1];
      MergedSucceeded(init);
      AllSucceededAppend(init, [last]);
      SplitLast(replies);
      assert AllSucceeded([last]) == SucceededOf(last) + AllSucceeded([]);
      AppendEmpty(SucceededOf(last));
    }
  }

  lemma {:induction false} AllSucceededAppend(a: seq<Reply>, b: seq<Reply>)
    ensures AllSucceeded(a + b) == AllSucceeded(a) + AllSucceeded(b)
    decreases |a|
  {
    if |a| == 0 {
      assert a + b == b;
    } else {
      assert (a + b)[0] == a[0];
      assert (a + b)[1..] == a[1..] + b;
      AllSucceededAppend(a[1..], b);
      AppendAssoc(SucceededOf(a[0]), AllSucceeded(a[1..]), AllSucceeded(b));
    }
  }

  /** An ID is failed in the merge exactly when some batch failed it, and its
      message is the one from the last batch that did. */
  lemma {:induction false} MergedFailed(replies: seq<Reply>, id: string)
    ensures id in MergeAll(replies).failed <==> exists i :: FailsIn(replies, i, id)
    ensures id in MergeAll(replies).failed ==> exists i ::
      && FailsIn(replies, i, id)
      && MergeAll(replies).failed[id] == replies[i].result.failed[id]
      && forall j :: i < j < |replies| ==> !FailsIn(replies, j, id)
    decreases |replies|
  {
    if |replies| > 0 {
      var n := |replies| - 1;
      var init := replies[..n];
      var last := replies[n];
      MergedFailed(init, id);
      assert forall i :: FailsIn(init, i, id) <==> 0 <= i < n && FailsIn(replies, i, id);
      if FailsIn(replies, n, id) {
        assert MergeAll(replies).failed[id] == last.result.failed[id];
      } else if id in MergeAll(init).failed {
        var i :| && FailsIn(init, i, id)
                 && MergeAll(init).failed[id] == init[i].result.failed[id]
                 && forall j :: i < j < n ==> !FailsIn(init, j, id);
        assert FailsIn(replies, i, id);
      }
    }
  }

  // ---------------------------------------------------------------------------
  // The batch loop
  // ---------------------------------------------------------------------------

  /** The replies the operation gives to `batches`, called in order. */
  function Replies(op: Operation, batches: seq<seq<string>>): seq<Reply>
    decreases |batches|
  {
    if |batches| == 0 then []
    else
      var n := |batches| - 1;
      Replies(op, batches[..n]) + [op(n, batches[n])]
  }

  /** Reply `i` is the operation's answer to batch `i` as call number `i`. */
  lemma {:induction false} RepliesInOrder(op: Operation, batches: seq<seq<string>>)
    ensures |Replies(op, batches)| == |batches|
    ensures forall i :: 0 <= i < |batches| ==> Replies(op, batches)[i] == op(i, batches[i])
    decreases |batches|
  {
    if |batches| > 0 {
      var n := |batches| - 1;
      RepliesInOrder(op, batches[..n]);
    }
  }

  /** The error a reply ends the run with: an operation error or a nil result
      is reported with the batch's number, counted from 1. */
  function ReplyError(action: string, batch: nat, total: nat, reply: Reply): (e: Option<BatchError>)
    ensures e.None? <==> reply.Replied?
  {
    match reply
    case OpError(message) => Some(BatchFailed(action, batch, total, message))
    case NilResult => Some(EmptyResult(action, batch, total))
    case Replied(_) => None
  }

  /** What a run produced: the merged result or the error, the number of
      batches reported, and (for the model) the batches the operation was
      called with, in order. */
  datatype BatchRun = BatchRun(result: Result<BulkResult, BatchError>, total: nat, calls: seq<seq<string>>)

  /** The loop of `runBulkInBatches` from batch `done` on, with the results of
      the earlier batches merged into `merged`. */
  function SendBatches(batches: seq<seq<string>>, op: Operation, action: string, total: nat, done: nat, merged: BulkResult)
    : (r: BatchRun)
    requires done <= |batches|
    ensures r.total == total
    ensures done <= |r.calls| <= |batches| && r.calls == batches[..|r.calls|]
    ensures r.result.Success? <==> forall i :: done <= i < |batches| ==> op(i, batches[i]).Replied?
    ensures r.result.Success? ==> |r.calls| == |batches|
    ensures r.result.Failure? ==>
      && done < |r.calls|
      && (forall i :: done <= i < |r.calls| - 1 ==> op(i, batches[i]).Replied?)
      && ReplyError(action, |r.calls|, total, op(|r.calls| - 1, batches[|r.calls| - 1])) == Some(r.result.error)
    decreases |batches| - done
  {
    if done == |batches| then BatchRun(Success(merged), total, batches)
    else
      var reply := op(done, batches[done]);
      if !reply.Replied? then
        BatchRun(Failure(ReplyError(action, done + 1, total, reply).value), total, batches[..done + 1])
      else
        SendBatches(batches, op, action, total, done + 1, Merge(merged, reply.result))
  }

  /** Started with the merge of the earlier batches' replies, the loop ends,
      when every batch succeeds, with the merge of all of them. */
  lemma {:induction false} SendBatchesMerges(
    batches: seq<seq<string>>, op: Operation, action: string, total: nat, done: nat, merged: BulkResult)
    requires done <= |batches|
    requires merged == MergeAll(Replies(op, batches[..done]))
    ensures
      var r := SendBatches(batches, op, action, total, done, merged);
      r.result.Success? ==> r.result.value == MergeAll(Replies(op, batches))
    decreases |batches| - done
  {
    if done == |batches| {
      assert batches[..done] == batches;
    } else {
      var reply := op(done, batches[done]);
      if reply.Replied? {
        MergeOneMore(op, batches[..done], batches[done]);
        assert batches[..done] + [batches[done]] == batches[..done + 1];
        SendBatchesMerges(batches, op, action, total, done + 1, Merge(merged, reply.result));
      }
    }
  }

  /** `runBulkInBatches`. A size that is not positive is refused before any call;
      otherwise every batch is sent in order until one fails. The count reported
      is `TotalBatches`, the overflow-free form of the source's formula. */
  function RunBulkInBatches(ids: seq<string>, batchSize: int, action: string, op: Operation): (r: BatchRun)
    ensures batchSize <= 0 <==> r.result == Failure(BadBatchSize)
    ensures batchSize <= 0 ==> r.total == 0 && r.calls == []
    ensures batchSize > 0 ==> r.total == |Batches(ids, batchSize)| && r.calls <= Batches(ids, batchSize)
    ensures batchSize > 0 ==>
      (r.result.Success? <==> forall i :: 0 <= i < r.total ==> op(i, Batches(ids, batchSize)[i]).Replied?)
    ensures r.result.Success? ==> r.calls == Batches(ids, batchSize) && r.result.value == MergeAll(Replies(op, r.calls))
    ensures batchSize > 0 && r.result.Failure? ==>
      && |r.calls| > 0
      && (forall i :: 0 <= i < |r.calls| - 1 ==> op(i, r.calls[i]).Replied?)
      && ReplyError(action, |r.calls|, r.total, op(|r.calls| - 1, r.calls[|r.calls| - 1])) == Some(r.result.error)
  {
    if batchSize <= 0 then BatchRun(Failure(BadBatchSize), 0, [])
    else
      var batches := Batches(ids, batchSize);
      TotalBatchesCountsBatches(ids, batchSize);
      assert batches[..0] == [];
      SendBatchesMerges(batches, op, action, TotalBatches(|ids|, batchSize), 0, NoResults);
      SendBatches(batches, op, action, TotalBatches(|ids|, batchSize), 0, NoResults)
  }

  /** One more call adds its result, if any, to the merge. */
  lemma MergeOneMore(op: Operation, calls: seq<seq<string>>, batch: seq<string>)
    ensures
      var reply := op(|calls|, batch);
      MergeAll(Replies(op, calls + [batch])) ==
        if reply.Replied? then Merge(MergeAll(Replies(op, calls)), reply.result) else MergeAll(Replies(op, calls))
  {
    var more := calls + [batch];
    assert more[..|calls|] == calls;
    var rs := Replies(op, calls) + [op(|calls|, batch)];
    assert rs[..|rs| - 1] == Replies(op, calls);
  }
}

=== FILE: bulk_input.dfy ===
/** Bulk email-ID input (internal/cmd/bulk_input.go): IDs from positional
    arguments, an IDs file and standard input, de-duplicated in first-seen order,
    then sent to an operation in fixed-size batches whose results are merged.

    Reading the file and standard input is I/O: their contents come in as
    parameters. The batch operation (a JMAP call) is a function parameter. */
module BulkInput {
  import opened Wrappers
  import opened Text

  const DefaultBatchSize: int := 50

  datatype BulkInputOptions = BulkInputOptions(idsFile: string, fromStdin: bool, batchSize: int)

  const MissingArgsMessage: string := "requires at least 1 arg(s), only received 0"

  /** `validateBulkInputArgs`: some source of IDs must be given. */
  function ValidateBulkInputArgs(args: seq<string>, fromStdin: bool, idsFile: string): (r: Outcome<string>)
    ensures r.Fail? <==> |args| == 0 && !fromStdin && IsBlank(idsFile)
    ensures r.Fail? ==> r.error == MissingArgsMessage
  {
    if |args| == 0 && !fromStdin && IsBlank(idsFile) then Fail(MissingArgsMessage) else Pass
  }

  // ---------------------------------------------------------------------------
  // Lines (bufio.ScanLines)
  // ---------------------------------------------------------------------------

  /** Position of the first newline at or after `from`, or `|s|` when there is none. */
  function NextNewline(s: string, from: nat): (i: nat)
    requires from <= |s|
    ensures from <= i <= |s|
    ensures i < |s| ==> s[i] == '\n'
    ensures forall j :: from <= j < i ==> s[j] != '\n'
    decreases |s| - from
  {
    if from == |s| || s[from] == '\n' then from else NextNewline(s, from + 1)
  }

  /** A line's one trailing carriage return is dropped. */
  function DropCR(line: string): string {
    if |line| > 0 && line[|line| - 1] == '\r' then line[..|line| - 1] else line
  }

  /** The lines `bufio.ScanLines` yields: the text is cut at every newline, a last
      piece without a newline counts only when it is not empty. */
  function Lines(s: string): seq<string>
    decreases |s|
  {
    if |s| == 0 then []
    else
      var i := NextNewline(s, 0);
      if i == |s| then [DropCR(s)] else [DropCR(s[..i])] + Lines(s[i + 1..])
  }

  /** A line as a scanner can return it: no newline, no trailing carriage return. */
  predicate PlainLine(line: string) {
    '\n' !in line && (line == [] || line[|line| - 1] != '\r')
  }

  /** The text of `lines`, each ended by a newline. */
  function JoinLines(lines: seq<string>): string {
    if |lines| == 0 then [] else lines[0] + "\n" + JoinLines(lines[1..])
  }

  /** Scanning text made of lines gives those lines back. */
  lemma {:induction false} LinesOfJoin(lines: seq<string>)
    requires forall i :: 0 <= i < |lines| ==> PlainLine(lines[i])
    ensures Lines(JoinLines(lines)) == lines
    decreases |lines|
  {
    if |lines| > 0 {
      var l := lines[0];
      var rest := JoinLines(lines[1..]);
      var s := JoinLines(lines);
      assert s == l + "\n" + rest;
      var i := NextNewline(s, 0);
      assert s[|l|] == '\n';
      assert forall j :: 0 <= j < |l| ==> s[j] == l[j];
      assert i == |l|;
      assert s[..i] == l && s[i + 1..] == rest;
      LinesOfJoin(lines[1..]);
      assert lines == [l] + lines[1..];
    }
  }

  // ---------------------------------------------------------------------------
  // IDs from lines and from arguments
  // ---------------------------------------------------------------------------

  /** A usable ID: at least one character and no whitespace. */
  predicate IsToken(id: string) {
    |id| > 0 && NoSpace(id)
  }

  predicate AllTokens(ids: seq<string>) {
    forall i :: 0 <= i < |ids| ==> IsToken(ids[i])
  }

  lemma AllTokensAppend(a: seq<string>, b: seq<string>)
    requires AllTokens(a) && AllTokens(b)
    ensures AllTokens(a + b)
  {
    assert forall i :: |a| <= i < |a| + |b| ==> (a + b)[i] == b[i - |a|];
  }

  /** A line that contributes no IDs: blank, or a `#` comment after trimming. */
  predicate SkippedLine(line: string) {
    IsBlank(line) || HasPrefix(TrimSpace(line), "#")
  }

  /** The IDs one line contributes: none for a skipped line, otherwise its
      whitespace-separated fields, which together hold every character of the
      line except its whitespace. */
  function LineIDs(line: string): (r: seq<string>)
    ensures AllTokens(r)
    ensures SkippedLine(line) ==> r == []
    ensures !SkippedLine(line) ==> Flatten(r) == RemoveSpace(line)
  {
    var t := TrimSpace(line);
    if t == "" || HasPrefix(t, "#") then []
    else
      FieldsKeepNonSpace(t);
      RemoveSpaceOfTrimSpace(line);
      Fields(t)
  }

  /** The IDs of a sequence of lines, in order. */
  function IDsOfLines(lines: seq<string>): (r: seq<string>)
    ensures AllTokens(r)
    decreases |lines|
  {
    if |lines| == 0 then []
    else
      var first := LineIDs(lines[0]);
      var rest := IDsOfLines(lines[1..]);
      AllTokensAppend(first, rest);
      first + rest
  }

  lemma {:induction false} IDsOfLinesAppend(a: seq<string>, b: seq<string>)
    ensures IDsOfLines(a + b) == IDsOfLines(a) + IDsOfLines(b)
    decreases |a|
  {
    if |a| == 0 {
      assert a + b == b;
    } else {
      var rest := a[1..];
      assert (a + b)[0] == a[0];
      assert (a + b)[1..] == rest + b;
      IDsOfLinesAppend(rest, b);
      var f, x, y := LineIDs(a[0]), IDsOfLines(rest), IDsOfLines(b);
      assert IDsOfLines(a + b) == f + (x + y);
      assert IDsOfLines(a) == f + x;
      AppendAssoc(f, x, y);
    }
  }

  /** `readIDs`, given what the reader produced. */
  function ReadIDs(text: string): (r: seq<string>)
    ensures AllTokens(r)
  {
    IDsOfLines(Lines(text))
  }

  /** Reading a text made of lines gives their IDs in line order: each skipped
      line adds nothing and each other line adds its fields. */
  lemma ReadIDsOfLines(lines: seq<string>)
    requires forall i :: 0 <= i < |lines| ==> PlainLine(lines[i])
    ensures ReadIDs(JoinLines(lines)) == IDsOfLines(lines)
  {
    LinesOfJoin(lines);
  }

  /** A comment line among others adds nothing. */
  lemma CommentLineIgnored(before: seq<string>, comment: string, after: seq<string>)
    requires SkippedLine(comment)
    ensures IDsOfLines(before + [comment] + after) == IDsOfLines(before) + IDsOfLines(after)
  {
    var x := before + [comment];
    IDsOfLinesAppend(x, after);
    IDsOfLinesAppend(before, [comment]);
    assert [comment][1..] == [];
    assert IDsOfLines([comment]) == [];
    AppendEmpty(IDsOfLines(before));
  }

  /** `normalizeIDTokens`: the whitespace-separated fields of every argument, in
      order; blank arguments add nothing. */
  function NormalizeIDTokens(tokens: seq<string>): (ids: seq<string>)
    ensures AllTokens(ids)
    decreases |tokens|
  {
    if |tokens| == 0 then []
    else
      var init := NormalizeIDTokens(tokens[..|tokens| - 1]);
      var last := tokens[|tokens| - 1];
      var more := if IsBlank(last) then [] else Fields(last);
      AllTokensAppend(init, more);
      init + more
  }

  /** Normalising keeps every non-whitespace character of the arguments, in order. */
  lemma {:induction false} NormalizeKeepsNonSpace(tokens: seq<string>)
    ensures Flatten(NormalizeIDTokens(tokens)) == RemoveSpace(Flatten(tokens))
    decreases |tokens|
  {
    if |tokens| > 0 {
      var init := tokens[..|tokens| - 1];
      var last := tokens[|tokens| - 1];
      NormalizeKeepsNonSpace(init);
      SplitLast(tokens);
      assert tokens[..|tokens| - 1] == init;
      var more := if IsBlank(last) then [] else Fields(last);
      var ids := NormalizeIDTokens(init);
      assert NormalizeIDTokens(tokens) == ids + more;
      FlattenAppend(ids, more);
      assert Flatten(more) == RemoveSpace(last) by {
        if IsBlank(last) {
          BlankIffAllSpace(last);
          RemoveSpaceOfAllSpace(last);
        } else {
          FieldsKeepNonSpace(last);
        }
      }
      FlattenAppend(init, [last]);
      assert Flatten([last]) == last + Flatten([]);
      AppendEmpty(last);
      RemoveSpaceAppend(Flatten(init), last);
    }
  }

  /** Arguments that are already single IDs pass through unchanged. */
  lemma {:induction false} NormalizeOfTokens(tokens: seq<string>)
    requires AllTokens(tokens)
    ensures NormalizeIDTokens(tokens) == tokens
    decreases |tokens|
  {
    if |tokens| > 0 {
      var n := |tokens| - 1;
      var init := tokens[..n];
      var last := tokens[n];
      SplitLast(tokens);
      assert AllTokens(init) by {
        forall i | 0 <= i < n
          ensures IsToken(init[i])
        {
          assert init[i] == tokens[i];
        }
      }
      NormalizeOfTokens(init);
      FieldsOfToken(last);
      assert NormalizeIDTokens(tokens) == init + [last];
    }
  }

  /** A single ID is one field and not blank. */
  lemma FieldsOfToken(id: string)
    requires IsToken(id)
    ensures !IsBlank(id) && Fields(id) == [id]
  {
    TrimLeftOfNoLeadingSpace(id);
    var w := Word(id);
    assert w == id;
    assert id[|w|..] == [];
    assert TrimLeft([]) == [];
    assert Fields(id[|w|..]) == [];
    assert FieldsOfTrimmed(id) == [id];
    assert id[|id| - 1] in id;
    TrimSpaceOfTrimmed(id);
  }

  // ---------------------------------------------------------------------------
  // De-duplication
  // ---------------------------------------------------------------------------

  predicate Distinct(s: seq<string>) {
    forall i, j :: 0 <= i < j < |s| ==> s[i] != s[j]
  }

  /** Index of the first occurrence of `x`. */
  function FirstIndex(s: seq<string>, x: string): (i: nat)
    requires x in s
    ensures i < |s| && s[i] == x
    ensures forall j :: 0 <= j < i ==> s[j] != x
  {
    if s[0] == x then 0 else 1 + FirstIndex(s[1..], x)
  }

  /** Appending does not move a first occurrence. */
  lemma FirstIndexOfPrefix(s: seq<string>, t: seq<string>, x: string)
    requires x in s
    ensures x in s + t && FirstIndex(s + t, x) == FirstIndex(s, x)
  {
    var k := FirstIndex(s, x);
    var u := s + t;
    assert u[k] == x;
    assert forall j :: 0 <= j < k ==> u[j] == s[j];
  }

  /** The IDs without repeats, each where it first occurred: what the source's
      `seen` set and `unique` list produce. */
  function Dedupe(ids: seq<string>): (r: seq<string>)
    ensures forall x :: x in r <==> x in ids
    ensures Distinct(r)
    decreases |ids|
  {
    if |ids| == 0 then []
    else
      var init := ids[..|ids| - 1];
      var last := ids[|ids| - 1];
      SplitLast(ids);
      var r := Dedupe(init);
      if last in r then r else r + [last]
  }

  /** The IDs keep the order of their first occurrences. */
  lemma {:induction false} DedupeKeepsFirstOrder(ids: seq<string>)
    ensures forall i, j :: 0 <= i < j < |Dedupe(ids)| ==>
      FirstIndex(ids, Dedupe(ids)[i]) < FirstIndex(ids, Dedupe(ids)[j])
    decreases |ids|
  {
    if |ids| > 0 {
      var init := ids[..|ids| - 1];
      var last := ids[|ids| - 1];
      SplitLast(ids);
      var r := Dedupe(init);
      DedupeKeepsFirstOrder(init);
      forall x | x in init
        ensures FirstIndex(ids, x) == FirstIndex(init, x)
      {
        FirstIndexOfPrefix(init, [last], x);
      }
      if last !in r {
        var r' := r + [last];
        assert Dedupe(ids) == r';
        assert FirstIndex(ids, last) == |ids| - 1;
        forall i, j | 0 <= i < j < |r'|
          ensures FirstIndex(ids, r'[i]) < FirstIndex(ids, r'[j])
        {
          assert r'[i] == r[i] && r[i] in init;
          if j < |r| {
            assert r'[j] == r[j] && r[j] in init;
          }
        }
      }
    }
  }

  /** A list without repeats is left as it is. */
  lemma {:induction false} DedupeOfDistinct(ids: seq<string>)
    requires Distinct(ids)
    ensures Dedupe(ids) == ids
    decreases |ids|
  {
    if |ids| > 0 {
      var init := ids[..|ids| - 1];
      var last := ids[|ids| - 1];
      assert Distinct(init) by {
        assert forall i :: 0 <= i < |init| ==> init[i] == ids[i];
      }
      DedupeOfDistinct(init);
      assert last !in init by {
        assert forall k :: 0 <= k < |init| ==> init[k] == ids[k] != ids[|ids| - 1];
      }
      SplitLast(ids);
    }
  }

  /** De-duplicating twice is de-duplicating once. */
  lemma DedupeIdempotent(ids: seq<string>)
    ensures Dedupe(Dedupe(ids)) == Dedupe(ids)
  {
    DedupeOfDistinct(Dedupe(ids));
  }

  /** Every element of `a` occurs in `b`, which holds only tokens. */
  lemma AllTokensOfMembers(a: seq<string>, b: seq<string>)
    requires AllTokens(b)
    requires forall x :: x in a ==> x in b
    ensures AllTokens(a)
  {
    forall i | 0 <= i < |a|
      ensures IsToken(a[i])
    {
      assert a[i] in b;
      var j :| 0 <= j < |b| && b[j] == a[i];
    }
  }

  // ---------------------------------------------------------------------------
  // Collecting IDs (collectBulkIDs)
  // ---------------------------------------------------------------------------

  /** What opening and reading the IDs file produced. */
  datatype Input = Unopenable | Unreadable | Content(text: string)

  datatype CollectError =
    | OpenIDsFile(path: string)
    | ReadIDsFile(path: string)
    | ReadStdin
      /** No IDs at all: wraps the usage error. */
    | NoIDs

  /** Every requested source could be read: the file when a path is given,
      standard input when it is asked for. */
  predicate SourcesRead(opts: BulkInputOptions, file: Input, stdin: Option<string>) {
    && (TrimSpace(opts.idsFile) != "" ==> file.Content?)
    && (opts.fromStdin ==> stdin.Some?)
  }

  /** The IDs gathered before de-duplication: the arguments', then the file's,
      then standard input's. */
  function Gathered(args: seq<string>, opts: BulkInputOptions, file: Input, stdin: Option<string>): seq<string> {
    var fromFile := if TrimSpace(opts.idsFile) != "" && file.Content? then ReadIDs(file.text) else [];
    var fromStdin := if opts.fromStdin && stdin.Some? then ReadIDs(stdin.value) else [];
    NormalizeIDTokens(args) + fromFile + fromStdin
  }

  /** `collectBulkIDs`. The file is opened only for a non-blank path and its
      error names the trimmed path; a file error comes before any stdin error. */
  function CollectBulkIDs(args: seq<string>, opts: BulkInputOptions, file: Input, stdin: Option<string>)
    : (r: Result<seq<string>, CollectError>)
    ensures r == Failure(OpenIDsFile(TrimSpace(opts.idsFile))) <==>
      TrimSpace(opts.idsFile) != "" && file.Unopenable?
    ensures r == Failure(ReadIDsFile(TrimSpace(opts.idsFile))) <==>
      TrimSpace(opts.idsFile) != "" && file.Unreadable?
    ensures r == Failure(ReadStdin) <==>
      (TrimSpace(opts.idsFile) == "" || file.Content?) && opts.fromStdin && stdin.None?
    ensures r == Failure(NoIDs) <==> SourcesRead(opts, file, stdin) && |Gathered(args, opts, file, stdin)| == 0
    ensures r.Success? ==> SourcesRead(opts, file, stdin)
    ensures r.Success? ==> |r.value| > 0 && Distinct(r.value) && AllTokens(r.value)
    ensures r.Success? ==> forall id :: id in r.value <==> id in Gathered(args, opts, file, stdin)
  {
    var path := TrimSpace(opts.idsFile);
    if path != "" && file.Unopenable? then Failure(OpenIDsFile(path))
    else if path != "" && file.Unreadable? then Failure(ReadIDsFile(path))
    else if opts.fromStdin && stdin.None? then Failure(ReadStdin)
    else
      var gathered := Gathered(args, opts, file, stdin);
      var ids := Dedupe(gathered);
      if |ids| == 0 then
        Failure(NoIDs)
      else
        var fromFile := if path != "" && file.Content? then ReadIDs(file.text) else [];
        var fromStdin := if opts.fromStdin && stdin.Some? then ReadIDs(stdin.value) else [];
        AllTokensAppend(NormalizeIDTokens(args), fromFile);
        AllTokensAppend(NormalizeIDTokens(args) + fromFile, fromStdin);
        AllTokensOfMembers(ids, gathered);
        Success(ids)
  }

  /** An ID is gathered when the arguments hold it, or the file does (when a
      path is given), or standard input does (when it is read). */
  lemma GatheredFromSources(args: seq<string>, opts: BulkInputOptions, file: Input, stdin: Option<string>, id: string)
    ensures id in Gathered(args, opts, file, stdin) <==>
      || id in NormalizeIDTokens(args)
      || (TrimSpace(opts.idsFile) != "" && file.Content? && id in ReadIDs(file.text))
      || (opts.fromStdin && stdin.Some? && id in ReadIDs(stdin.value))
  {
  }

  /** The collected IDs keep the order in which they were first gathered. */
  lemma CollectKeepsFirstSeenOrder(args: seq<string>, opts: BulkInputOptions, file: Input, stdin: Option<string>)
    requires CollectBulkIDs(args, opts, file, stdin).Success?
    ensures
      var ids := CollectBulkIDs(args, opts, file, stdin).value;
      var gathered := Gathered(args, opts, file, stdin);
      && (forall x :: x in ids <==> x in gathered)
      && (forall i, j :: 0 <= i < j < |ids| ==> FirstIndex(gathered, ids[i]) < FirstIndex(gathered, ids[j]))
  {
    DedupeKeepsFirstOrder(Gathered(args, opts, file, stdin));
  }
}

=== FILE: crypto.dfy ===
/** The tracking-pixel wire format (internal/tracking/crypto.go).

    A blob is `base64url_nopad(version ‖ nonce ‖ ciphertext‖tag)`; the legacy framing
    has no version byte. Only the framing and the fallback between the two decode
    paths are modelled. AES-GCM (NIST SP 800-38D), base64 (RFC 4648) and JSON are the
    function fields of `Primitives`, and `Lawful` collects the laws the framing
    relies on. */
module Crypto {
  import opened Wrappers
  import Text
  import Decimal

  newtype Byte = b: int | 0 <= b < 256
  type Bytes = seq<Byte>

  /** GCM's standard nonce and tag sizes, in bytes. */
  const NonceSize: nat := 12
  const TagSize: nat := 16

  /** The version travels in a single byte. */
  const MaxKeyVersion: int := 255
  const DefaultVersion: Byte := 1

  /** The JSON object `{"r": recipient, "s": subjectHash, "t": sentAt}`. */
  datatype PixelPayload = PixelPayload(recipient: string, subjectHash: string, sentAt: int)

  /** The foreign primitives: GCM sealing/opening under (key, nonce) without
      associated data, unpadded URL-safe base64, standard base64 (for the key), and
      the JSON encoding of the payload. */
  datatype Primitives = Primitives(
    seal: (Bytes, Bytes, Bytes) -> Bytes,
    open: (Bytes, Bytes, Bytes) -> Option<Bytes>,
    encodeUrl: Bytes -> string,
    decodeUrl: string -> Option<Bytes>,
    decodeStd: string -> Option<Bytes>,
    marshal: PixelPayload -> Bytes,
    unmarshal: Bytes -> Option<PixelPayload>)

  /** What the framing needs from the primitives: opening what was sealed under the
      same key and nonce gives the plaintext back, sealing appends a 16-byte tag,
      and base64url and JSON decode what they encoded. Rejection of a wrong key or
      of tampered bytes is not a law here: the lemmas that need it take it as a
      hypothesis about the particular bytes involved. */
  ghost predicate Lawful(p: Primitives) {
    && (forall k, n, m :: p.open(k, n, p.seal(k, n, m)) == Some(m))
    && (forall k, n, m :: |p.seal(k, n, m)| == |m| + TagSize)
    && (forall b :: p.decodeUrl(p.encodeUrl(b)) == Some(b))
    && (forall x :: p.unmarshal(p.marshal(x)) == Some(x))
  }

  datatype CryptoError =
    | KeyVersionOutOfRange(version: int)
    | DecodeKey
    | DecodeBlob
    | NewCipher
    | NonceUnavailable
    | CiphertextTooShort
    | KeyVersionMismatch
    | OpenFailed
    | Unmarshal
    | DecryptFailed(versioned: CryptoError, legacy: CryptoError)

  /** The text of each error, as the source formats it (inner causes of the
      foreign libraries omitted). */
  function Message(e: CryptoError): string {
    match e
    case KeyVersionOutOfRange(v) => "key version " + Decimal.Itoa(v) + " out of range [1, 255]"
    case DecodeKey => "decode key"
    case DecodeBlob => "decode blob"
    case NewCipher => "new cipher"
    case NonceUnavailable => "nonce"
    case CiphertextTooShort => "ciphertext too short"
    case KeyVersionMismatch => "key version mismatch"
    case OpenFailed => "decrypt"
    case Unmarshal => "unmarshal payload"
    case DecryptFailed(v, l) =>
      "decrypt failed (versioned: " + Message(v) + "; legacy: " + Message(l) + ")"
  }

  /** `ValidateKeyVersion`: a version must fit the one-byte wire field and be non-zero. */
  function ValidateKeyVersion(version: int): (r: Outcome<CryptoError>)
    ensures r.Pass? <==> 1 <= version <= MaxKeyVersion
    ensures r.Fail? ==> r.error == KeyVersionOutOfRange(version)
  {
    if version < 1 || version > MaxKeyVersion then Fail(KeyVersionOutOfRange(version)) else Pass
  }

  /** Version 0 on the encrypt and decrypt entry points stands for version 1. */
  function EffectiveVersion(version: Byte): (r: Byte)
    ensures ValidateKeyVersion(r as int).Pass?
    ensures version != 0 ==> r == version
  {
    if version == 0 then DefaultVersion else version
  }

  /** `aes.NewCipher` accepts AES-128, AES-192 and AES-256 keys only. */
  predicate IsAesKey(key: Bytes) {
    |key| == 16 || |key| == 24 || |key| == 32
  }

  /** `EncryptWithVersion`: JSON-encode the payload, seal it under a fresh nonce and
      send `version ‖ nonce ‖ sealed` as unpadded base64url. The nonce is what the
      random source produced, `None` when reading it failed. */
  function EncryptWithVersion(p: Primitives, payload: PixelPayload, keyB64: string, version: Byte, nonce: Option<Bytes>)
    : (r: Result<string, CryptoError>)
    requires nonce.Some? ==> |nonce.value| == NonceSize
    ensures r.Failure? <==> p.decodeStd(keyB64).None? || !IsAesKey(p.decodeStd(keyB64).value) || nonce.None?
    ensures p.decodeStd(keyB64).None? ==> r == Failure(DecodeKey)
    ensures p.decodeStd(keyB64).Some? && !IsAesKey(p.decodeStd(keyB64).value) ==> r == Failure(NewCipher)
    ensures p.decodeStd(keyB64).Some? && IsAesKey(p.decodeStd(keyB64).value) && nonce.None? ==> r == Failure(NonceUnavailable)
  {
    match p.decodeStd(keyB64)
    case None => Failure(DecodeKey)
    case Some(key) =>
      var plaintext := p.marshal(payload);
      if !IsAesKey(key) then Failure(NewCipher)
      else
        match nonce
        case None => Failure(NonceUnavailable)
        case Some(n) => Success(p.encodeUrl([EffectiveVersion(version)] + n + p.seal(key, n, plaintext)))
  }

  /** `Encrypt` always writes version 1. */
  function Encrypt(p: Primitives, payload: PixelPayload, keyB64: string, nonce: Option<Bytes>): Result<string, CryptoError>
    requires nonce.Some? ==> |nonce.value| == NonceSize
  {
    EncryptWithVersion(p, payload, keyB64, DefaultVersion, nonce)
  }

  /** The step both decode paths share once the framing is peeled off: `body` is
      `nonce ‖ ciphertext‖tag`. */
  function OpenBody(p: Primitives, key: Bytes, body: Bytes): (r: Result<PixelPayload, CryptoError>)
    ensures !IsAesKey(key) ==> r == Failure(NewCipher)
    ensures IsAesKey(key) && |body| < NonceSize ==> r == Failure(CiphertextTooShort)
    ensures r.Success? ==>
      |body| >= NonceSize && p.open(key, body[..NonceSize], body[NonceSize..]).Some? &&
      p.unmarshal(p.open(key, body[..NonceSize], body[NonceSize..]).value) == Some(r.value)
  {
    if !IsAesKey(key) then Failure(NewCipher)
    else if |body| < NonceSize then Failure(CiphertextTooShort)
    else
      match p.open(key, body[..NonceSize], body[NonceSize..])
      case None => Failure(OpenFailed)
      case Some(plain) =>
        match p.unmarshal(plain)
        case None => Failure(Unmarshal)
        case Some(payload) => Success(payload)
  }

  /** `DecryptWithVersion`: the version byte must equal the requested version (0
      meaning 1); a mismatch is reported before any cipher is built. */
  function DecryptWithVersion(p: Primitives, blob: string, keyB64: string, version: Byte)
    : (r: Result<PixelPayload, CryptoError>)
    ensures p.decodeStd(keyB64).Some? && p.decodeUrl(blob) == Some([]) ==> r == Failure(CiphertextTooShort)
    ensures (p.decodeStd(keyB64).Some? && p.decodeUrl(blob).Some? && |p.decodeUrl(blob).value| >= 1
             && p.decodeUrl(blob).value[0] != EffectiveVersion(version)) ==> r == Failure(KeyVersionMismatch)
    ensures r.Success? ==>
      p.decodeUrl(blob).Some? && |p.decodeUrl(blob).value| >= 1 + NonceSize &&
      p.decodeUrl(blob).value[0] == EffectiveVersion(version)
  {
    match p.decodeStd(keyB64)
    case None => Failure(DecodeKey)
    case Some(key) =>
      match p.decodeUrl(blob)
      case None => Failure(DecodeBlob)
      case Some(raw) =>
        if |raw| < 1 then Failure(CiphertextTooShort)
        else if raw[0] != EffectiveVersion(version) then Failure(KeyVersionMismatch)
        else OpenBody(p, key, raw[1..])
  }

  /** `decryptLegacy`: the whole decoded blob is `nonce ‖ ciphertext‖tag`. */
  function DecryptLegacy(p: Primitives, blob: string, keyB64: string): (r: Result<PixelPayload, CryptoError>)
    ensures (p.decodeStd(keyB64).Some? && IsAesKey(p.decodeStd(keyB64).value) && p.decodeUrl(blob).Some?
             && |p.decodeUrl(blob).value| < NonceSize) ==> r == Failure(CiphertextTooShort)
  {
    match p.decodeStd(keyB64)
    case None => Failure(DecodeKey)
    case Some(key) =>
      match p.decodeUrl(blob)
      case None => Failure(DecodeBlob)
      case Some(raw) => OpenBody(p, key, raw)
  }

  /** `Decrypt`: the version-1 framing first, the legacy framing second; when both
      fail the error carries both causes. */
  function Decrypt(p: Primitives, blob: string, keyB64: string): (r: Result<PixelPayload, CryptoError>)
    ensures DecryptWithVersion(p, blob, keyB64, DefaultVersion).Success? ==>
      r == DecryptWithVersion(p, blob, keyB64, DefaultVersion)
    ensures DecryptWithVersion(p, blob, keyB64, DefaultVersion).Failure? ==>
      (r.Success? <==> DecryptLegacy(p, blob, keyB64).Success?)
    ensures r.Failure? ==>
      r.error == DecryptFailed(DecryptWithVersion(p, blob, keyB64, DefaultVersion).error,
                               DecryptLegacy(p, blob, keyB64).error)
  {
    var versioned := DecryptWithVersion(p, blob, keyB64, DefaultVersion);
    if versioned.Success? then versioned
    else
      var legacy := DecryptLegacy(p, blob, keyB64);
      if legacy.Success? then legacy
      else Failure(DecryptFailed(versioned.error, legacy.error))
  }

  /** The bytes a successful `EncryptWithVersion` puts on the wire: the effective
      version, then the nonce, then ciphertext and tag, 1 + 12 + |plaintext| + 16
      bytes in all. */
  lemma EncryptFraming(p: Primitives, payload: PixelPayload, keyB64: string, version: Byte, nonce: Bytes)
    requires Lawful(p) && |nonce| == NonceSize
    requires EncryptWithVersion(p, payload, keyB64, version, Some(nonce)).Success?
    ensures var raw := p.decodeUrl(EncryptWithVersion(p, payload, keyB64, version, Some(nonce)).value);
      && raw.Some?
      && |raw.value| == 1 + NonceSize + |p.marshal(payload)| + TagSize
      && raw.value[0] == EffectiveVersion(version)
      && raw.value[1..1 + NonceSize] == nonce
      && raw.value[1 + NonceSize..] == p.seal(p.decodeStd(keyB64).value, nonce, p.marshal(payload))
  {
    var key := p.decodeStd(keyB64).value;
    var sealed := p.seal(key, nonce, p.marshal(payload));
    var raw := [EffectiveVersion(version)] + nonce + sealed;
    assert raw[1..1 + NonceSize] == nonce;
    assert raw[1 + NonceSize..] == sealed;
  }

  /** `Encrypt` puts version byte 1 on the wire. */
  lemma EncryptWritesVersionOne(p: Primitives, payload: PixelPayload, keyB64: string, nonce: Bytes)
    requires Lawful(p) && |nonce| == NonceSize
    requires Encrypt(p, payload, keyB64, Some(nonce)).Success?
    ensures p.decodeUrl(Encrypt(p, payload, keyB64, Some(nonce)).value).Some?
    ensures p.decodeUrl(Encrypt(p, payload, keyB64, Some(nonce)).value).value[0] == 1
  {
    EncryptFraming(p, payload, keyB64, DefaultVersion, nonce);
  }

  /** Round trip through the versioned framing, for every version byte. */
  lemma RoundTripWithVersion(p: Primitives, payload: PixelPayload, keyB64: string, version: Byte, nonce: Bytes)
    requires Lawful(p) && |nonce| == NonceSize
    requires EncryptWithVersion(p, payload, keyB64, version, Some(nonce)).Success?
    ensures DecryptWithVersion(p, EncryptWithVersion(p, payload, keyB64, version, Some(nonce)).value, keyB64, version)
            == Success(payload)
  {
    EncryptFraming(p, payload, keyB64, version, nonce);
    var key := p.decodeStd(keyB64).value;
    var raw := p.decodeUrl(EncryptWithVersion(p, payload, keyB64, version, Some(nonce)).value).value;
    assert raw[1..][..NonceSize] == nonce;
    assert raw[1..][NonceSize..] == p.seal(key, nonce, p.marshal(payload));
  }

  /** `Decrypt(Encrypt(payload, key), key) == payload`. */
  lemma RoundTrip(p: Primitives, payload: PixelPayload, keyB64: string, nonce: Bytes)
    requires Lawful(p) && |nonce| == NonceSize
    requires Encrypt(p, payload, keyB64, Some(nonce)).Success?
    ensures Decrypt(p, Encrypt(p, payload, keyB64, Some(nonce)).value, keyB64) == Success(payload)
  {
    RoundTripWithVersion(p, payload, keyB64, DefaultVersion, nonce);
  }

  /** A blob that is not valid base64url is rejected on both paths. */
  lemma DecryptRejectsInvalidBase64(p: Primitives, blob: string, keyB64: string)
    requires p.decodeUrl(blob).None?
    ensures Decrypt(p, blob, keyB64).Failure?
    ensures p.decodeStd(keyB64).Some? ==>
      Decrypt(p, blob, keyB64) == Failure(DecryptFailed(DecodeBlob, DecodeBlob))
  {
  }

  /** A blob sealed under one key does not decrypt under another, provided the
      cipher rejects both readings of the bytes under the second key: the versioned
      one and the legacy one (which takes the version byte as the first nonce
      byte). */
  lemma DecryptRejectsWrongKey(p: Primitives, payload: PixelPayload, key1B64: string, key2B64: string, nonce: Bytes)
    requires Lawful(p) && |nonce| == NonceSize
    requires Encrypt(p, payload, key1B64, Some(nonce)).Success?
    requires p.decodeStd(key2B64).Some? && IsAesKey(p.decodeStd(key2B64).value)
    requires var sealed := p.seal(p.decodeStd(key1B64).value, nonce, p.marshal(payload));
      var raw := [DefaultVersion] + nonce + sealed;
      && p.open(p.decodeStd(key2B64).value, nonce, sealed).None?
      && p.open(p.decodeStd(key2B64).value, raw[..NonceSize], raw[NonceSize..]).None?
    ensures Decrypt(p, Encrypt(p, payload, key1B64, Some(nonce)).value, key2B64)
            == Failure(DecryptFailed(OpenFailed, OpenFailed))
  {
    EncryptFraming(p, payload, key1B64, DefaultVersion, nonce);
    var sealed := p.seal(p.decodeStd(key1B64).value, nonce, p.marshal(payload));
    var raw := [DefaultVersion] + nonce + sealed;
    assert raw[1..][..NonceSize] == nonce;
    assert raw[1..][NonceSize..] == sealed;
  }

  /** Any change to the version byte of a versioned blob is caught by the version
      check, whatever the key. */
  lemma VersionByteTamperDetected(p: Primitives, payload: PixelPayload, keyB64: string, version: Byte,
                                  nonce: Bytes, forged: Byte)
    requires Lawful(p) && |nonce| == NonceSize
    requires EncryptWithVersion(p, payload, keyB64, version, Some(nonce)).Success?
    requires forged != EffectiveVersion(version)
    ensures var raw := p.decodeUrl(EncryptWithVersion(p, payload, keyB64, version, Some(nonce)).value).value;
      DecryptWithVersion(p, p.encodeUrl(raw[0 := forged]), keyB64, version) == Failure(KeyVersionMismatch)
  {
    EncryptFraming(p, payload, keyB64, version, nonce);
  }

  /** The legacy framing, `base64url_nopad(nonce ‖ ciphertext‖tag)`, as older
      senders produced it. */
  function LegacyBlob(p: Primitives, payload: PixelPayload, key: Bytes, nonce: Bytes): string
    requires |nonce| == NonceSize
  {
    p.encodeUrl(nonce + p.seal(key, nonce, p.marshal(payload)))
  }

  /** A legacy blob decrypts through `Decrypt` whenever its first nonce byte is not
      1: the versioned attempt then fails its version check and the legacy path
      opens the blob. */
  lemma LegacyBlobDecrypts(p: Primitives, payload: PixelPayload, keyB64: string, nonce: Bytes)
    requires Lawful(p) && |nonce| == NonceSize
    requires p.decodeStd(keyB64).Some? && IsAesKey(p.decodeStd(keyB64).value)
    requires nonce[0] != DefaultVersion
    ensures DecryptLegacy(p, LegacyBlob(p, payload, p.decodeStd(keyB64).value, nonce), keyB64) == Success(payload)
    ensures Decrypt(p, LegacyBlob(p, payload, p.decodeStd(keyB64).value, nonce), keyB64) == Success(payload)
  {
    var key := p.decodeStd(keyB64).value;
    var raw := nonce + p.seal(key, nonce, p.marshal(payload));
    assert raw[..NonceSize] == nonce;
    assert raw[NonceSize..] == p.seal(key, nonce, p.marshal(payload));
    assert raw[0] == nonce[0];
  }

  /** A combined failure always says "decrypt". */
  lemma DecryptFailureMentionsDecrypt(p: Primitives, blob: string, keyB64: string)
    requires Decrypt(p, blob, keyB64).Failure?
    ensures Text.Contains(Message(Decrypt(p, blob, keyB64).error), "decrypt")
  {
    CombinedMessageMentionsDecrypt(Decrypt(p, blob, keyB64).error);
  }

  lemma CombinedMessageMentionsDecrypt(e: CryptoError)
    requires e.DecryptFailed?
    ensures Text.Contains(Message(e), "decrypt")
  {
    var m := Message(e);
    assert m[0..7] == "decrypt";
    assert Text.OccursAt(m, "decrypt", 0);
  }
}

=== FILE: decimal.dfy ===
/** Decimal text of integers: `strconv.Itoa` and `strconv.Atoi` as used by the key
    store for slot names (`tracking_key_v<n>`) and the stored current-version
    pointer. `int` is Go's 64-bit int. */
module Decimal {
  import opened Wrappers

  const MinInt64: int := -0x8000_0000_0000_0000
  const MaxInt64: int := 0x7FFF_FFFF_FFFF_FFFF

  predicate IsDigit(c: char) {
    '0' <= c <= '9'
  }

  predicate AllDigits(s: string) {
    forall i :: 0 <= i < |s| ==> IsDigit(s[i])
  }

  function DigitChar(d: nat): (c: char)
    requires d < 10
    ensures IsDigit(c)
  {
    ('0' as int + d) as char
  }

  function DigitValue(c: char): (d: nat)
    requires IsDigit(c)
    ensures d < 10 && DigitChar(d) == c
  {
    c as int - '0' as int
  }

  /** Decimal digits of `n`, most significant first, without leading zeros. */
  function NatToString(n: nat): (r: string)
    ensures |r| >= 1 && AllDigits(r)
    decreases n
  {
    if n < 10 then [DigitChar(n)] else NatToString(n / 10) + [DigitChar(n % 10)]
  }

  /** The number a non-empty digit string denotes. */
  function DigitsToNat(s: string): nat
    requires AllDigits(s)
  {
    if |s| == 0 then 0 else DigitsToNat(s[..|s| - 1]) * 10 + DigitValue(s[|s| - 1])
  }

  /** Reading back the digits of `n` gives `n`. */
  lemma {:induction false} DigitsToNatOfNatToString(n: nat)
    ensures DigitsToNat(NatToString(n)) == n
    decreases n
  {
    var s := NatToString(n);
    if n >= 10 {
      DigitsToNatOfNatToString(n / 10);
      assert s[..|s| - 1] == NatToString(n / 10);
      assert DigitValue(s[|s| - 1]) == n % 10;
    }
  }

  /** `strconv.Itoa`. */
  function Itoa(n: int): (r: string)
    ensures |r| >= 1 && (r[0] == '-' || IsDigit(r[0]))
  {
    if n < 0 then "-" + NatToString(-n) else NatToString(n)
  }

  datatype AtoiError = Syntax | Range

  /** `strconv.Atoi` on a 64-bit platform: an optional sign, then at least one
      decimal digit and nothing else, and a value that fits in 64 bits. */
  function Atoi(s: string): (r: Result<int, AtoiError>)
    ensures r.Success? ==> MinInt64 <= r.value <= MaxInt64
    ensures r.Success? ==> exists i :: 0 <= i < |s| && IsDigit(s[i])
  {
    var signed := |s| > 0 && (s[0] == '-' || s[0] == '+');
    var body := if signed then s[1..] else s;
    if |body| == 0 || !AllDigits(body) then Failure(Syntax)
    else
      var v: int := if signed && s[0] == '-' then 0 - DigitsToNat(body) else DigitsToNat(body);
      if v < MinInt64 || v > MaxInt64 then Failure(Range) else Success(v)
  }

  /** How `Itoa` lays out its text: a minus sign exactly for negative numbers,
      followed by the digits of the magnitude. */
  lemma ItoaLayout(n: int)
    ensures Itoa(n)[0] == '-' <==> n < 0
    ensures n < 0 ==> Itoa(n)[1..] == NatToString(-n)
    ensures n >= 0 ==> Itoa(n) == NatToString(n)
  {
    if n < 0 {
      assert Itoa(n) == "-" + NatToString(-n);
    } else {
      assert IsDigit(NatToString(n)[0]);
    }
  }

  /** Parsing what `Itoa` printed gives the number back when it fits in 64 bits,
      and a range error otherwise. */
  lemma AtoiOfItoa(n: int)
    ensures Atoi(Itoa(n)) == if MinInt64 <= n <= MaxInt64 then Success(n) else Failure(Range)
  {
    ItoaLayout(n);
    var m: nat := if n < 0 then -n else n;
    DigitsToNatOfNatToString(m);
  }

  /** Distinct numbers print differently. */
  lemma ItoaInjective(a: int, b: int)
    requires Itoa(a) == Itoa(b)
    ensures a == b
  {
    ItoaLayout(a);
    ItoaLayout(b);
    var ma: nat := if a < 0 then -a else a;
    var mb: nat := if b < 0 then -b else b;
    assert NatToString(ma) == NatToString(mb);
    DigitsToNatOfNatToString(ma);
    DigitsToNatOfNatToString(mb);
  }
}

=== FILE: email_actions.dfy ===
/** Moving emails in bulk (internal/cmd/email_actions.go): resolving the target
    mailbox, confirming, and moving the IDs batch by batch.

    The JMAP client, the confirmation prompt and the output are outside the
    model: what they return is a parameter, and a run records which of them it
    reached and every `MoveEmails` call it made. */
module EmailActions {
  import opened Wrappers
  import opened Text
  import opened BulkInput
  import opened Batching

  datatype Mailbox = Mailbox(id: string, name: string, role: string)

  datatype ResolveError =
    | TargetRequired
    | MailboxesUnavailable(cause: string)
    | MailboxNotFound(target: string)

  /** A resolved target: the mailbox ID to move to and the name to show. */
  datatype Target = Target(id: string, displayName: string)

  /** The first index of `s` whose element satisfies `p`, if any. */
  function FindFirst<T>(s: seq<T>, p: T -> bool): (r: Option<nat>)
    ensures r.Some? ==> r.value < |s| && p(s[r.value]) && forall j :: 0 <= j < r.value ==> !p(s[j])
    ensures r.None? ==> forall j :: 0 <= j < |s| ==> !p(s[j])
  {
    if |s| == 0 then None
    else if p(s[0]) then Some(0)
    else
      match FindFirst(s[1..], p)
      case None => None
      case Some(k) => Some(k + 1)
  }

  /** The name shown for a mailbox: its name, or its ID when it has none. */
  function DisplayName(mb: Mailbox): string {
    if mb.name == "" then mb.id else mb.name
  }

  /** Whether a mailbox's name or role equals the target, ignoring case. */
  predicate NameOrRoleMatches(targetLower: string, mb: Mailbox) {
    ToLower(mb.name) == targetLower || ToLower(mb.role) == targetLower
  }

  predicate IdMatches(target: string, mb: Mailbox) {
    mb.id == target
  }

  /** Which mailbox a trimmed, non-blank target names, stated without search:
      the first whose name or role matches ignoring case; only when none does,
      the first whose ID equals the target exactly. */
  predicate Names(target: string, mailboxes: seq<Mailbox>, k: int) {
    var lower := ToLower(target);
    && 0 <= k < |mailboxes|
    && if exists j :: 0 <= j < |mailboxes| && NameOrRoleMatches(lower, mailboxes[j]) then
         NameOrRoleMatches(lower, mailboxes[k]) && forall j :: 0 <= j < k ==> !NameOrRoleMatches(lower, mailboxes[j])
       else
         mailboxes[k].id == target && forall j :: 0 <= j < k ==> mailboxes[j].id != target
  }

  /** The position of the mailbox a trimmed, non-blank target names: the
      name and role search first, the ID search only when it finds nothing. */
  function MatchIndex(trimmed: string, mailboxes: seq<Mailbox>): (r: Option<nat>)
    ensures r.Some? ==> Names(trimmed, mailboxes, r.value)
    ensures r.None? ==> forall k :: 0 <= k < |mailboxes| ==> !Names(trimmed, mailboxes, k)
  {
    var lower := ToLower(trimmed);
    match FindFirst(mailboxes, mb => NameOrRoleMatches(lower, mb))
    case Some(k) => Some(k)
    case None => FindFirst(mailboxes, mb => IdMatches(trimmed, mb))
  }

  /** `resolveMailboxTarget`. The target is trimmed and must not be blank (the
      mailbox list is not fetched otherwise); a failed fetch is reported with
      its cause; then the mailbox the target names is looked up. */
  function ResolveMailboxTarget(target: string, mailboxes: Result<seq<Mailbox>, string>): (r: Result<Target, ResolveError>)
    ensures IsBlank(target) <==> r == Failure(TargetRequired)
    ensures !IsBlank(target) && mailboxes.Failure? ==> r == Failure(MailboxesUnavailable(mailboxes.error))
    ensures r.Success? ==> mailboxes.Success?
  {
    var trimmed := TrimSpace(target);
    if trimmed == "" then Failure(TargetRequired)
    else
      match mailboxes
      case Failure(cause) => Failure(MailboxesUnavailable(cause))
      case Success(mbs) =>
        match MatchIndex(trimmed, mbs)
        case Some(k) => Success(Target(mbs[k].id, DisplayName(mbs[k])))
        case None => Failure(MailboxNotFound(trimmed))
  }

  /** At most one mailbox is the one a target names. */
  lemma NamesIsUnique(target: string, mailboxes: seq<Mailbox>, k1: int, k2: int)
    requires Names(target, mailboxes, k1) && Names(target, mailboxes, k2)
    ensures k1 == k2
  {
  }

  /** A listed, non-blank target resolves to the mailbox it names, with that
      mailbox's ID and display name, and to "not found" when it names none. */
  lemma ResolveFindsNamedMailbox(target: string, mailboxes: seq<Mailbox>)
    requires !IsBlank(target)
    ensures forall k :: Names(TrimSpace(target), mailboxes, k) ==>
      ResolveMailboxTarget(target, Success(mailboxes)) == Success(Target(mailboxes[k].id, DisplayName(mailboxes[k])))
    ensures (forall k :: 0 <= k < |mailboxes| ==> !Names(TrimSpace(target), mailboxes, k)) ==>
      ResolveMailboxTarget(target, Success(mailboxes)) == Failure(MailboxNotFound(TrimSpace(target)))
  {
    var trimmed := TrimSpace(target);
    var m := MatchIndex(trimmed, mailboxes);
    forall k | Names(trimmed, mailboxes, k)
      ensures m == Some(k)
    {
      NamesIsUnique(trimmed, mailboxes, k, m.value);
    }
  }

  /** A name or role match wins over an exact ID match, wherever the latter
      stands in the list. */
  lemma NameBeatsId(target: string, mailboxes: seq<Mailbox>, k: int)
    requires !IsBlank(target)
    requires 0 <= k < |mailboxes| && NameOrRoleMatches(ToLower(TrimSpace(target)), mailboxes[k])
    requires forall j :: 0 <= j < k ==> !NameOrRoleMatches(ToLower(TrimSpace(target)), mailboxes[j])
    ensures ResolveMailboxTarget(target, Success(mailboxes)) == Success(Target(mailboxes[k].id, DisplayName(mailboxes[k])))
  {
    assert Names(TrimSpace(target), mailboxes, k);
    ResolveFindsNamedMailbox(target, mailboxes);
  }

  /** IDs are compared exactly: a target that differs from every ID, name and
      role finds nothing, even if it equals an ID up to case. */
  lemma UnknownTargetNotFound(target: string, mailboxes: seq<Mailbox>)
    requires !IsBlank(target)
    requires forall k :: 0 <= k < |mailboxes| ==>
      !NameOrRoleMatches(ToLower(TrimSpace(target)), mailboxes[k]) && mailboxes[k].id != TrimSpace(target)
    ensures ResolveMailboxTarget(target, Success(mailboxes)) == Failure(MailboxNotFound(TrimSpace(target)))
  {
    ResolveFindsNamedMailbox(target, mailboxes);
  }

  // ---------------------------------------------------------------------------
  // The bulk move
  // ---------------------------------------------------------------------------

  /** The context the move's batch errors are wrapped in. */
  const MovingEmails: string := "moving emails"

  /** `MoveEmails` on the server: the call index, the batch and the mailbox ID. */
  type MoveServer = (nat, seq<string>, string) -> Reply

  /** The batch operation of a move: every batch goes to `mailboxId`. */
  function MoveOp(server: MoveServer, mailboxId: string): Operation {
    (i: nat, b: seq<string>) => server(i, b, mailboxId)
  }

  datatype MoveCall = MoveCall(ids: seq<string>, mailboxId: string)

  datatype MoveError =
    /** "--to is required", from the command before anything else happens. */
    | ToRequired
    | CollectFailed(collect: CollectError)
    | ClientUnavailable(cause: string)
    | ResolveFailed(resolve: ResolveError)
    | ConfirmFailed(cause: string)
    /** A batch error wrapped in the context "moving emails". */
    | MoveBatchFailed(batch: BatchError)

  datatype MoveOutcome =
    | MoveFailed(error: MoveError)
    /** A dry run lists the IDs that would move to the target as given. */
    | WouldMove(ids: seq<string>, mailbox: string, batchSize: int)
    | Cancelled
    | Moved(mailbox: string, mailboxId: string, result: BulkResult, batches: nat)

  /** A run's outcome, whether it created a client and asked for confirmation,
      and the `MoveEmails` calls it made in order. */
  datatype MoveRun = MoveRun(outcome: MoveOutcome, clientRequested: bool, prompted: bool, calls: seq<MoveCall>)

  function ToMoveCalls(batches: seq<seq<string>>, mailboxId: string): (r: seq<MoveCall>)
    ensures |r| == |batches|
    ensures forall i :: 0 <= i < |r| ==> r[i] == MoveCall(batches[i], mailboxId)
  {
    if |batches| == 0 then [] else [MoveCall(batches[0], mailboxId)] + ToMoveCalls(batches[1..], mailboxId)
  }

  /** The batches of the calls, in order. */
  function CallBatches(calls: seq<MoveCall>): (r: seq<seq<string>>)
    ensures |r| == |calls|
    ensures forall i :: 0 <= i < |r| ==> r[i] == calls[i].ids
  {
    if |calls| == 0 then [] else [calls[0].ids] + CallBatches(calls[1..])
  }

  /** The calls made for some batches carry those batches. */
  lemma CallBatchesOfMoveCalls(batches: seq<seq<string>>, mailboxId: string)
    ensures CallBatches(ToMoveCalls(batches, mailboxId)) == batches
  {
  }

  /** `runEmailBulkMoveWithClient`: resolve, confirm, then move batch by batch,
      every batch to the one resolved mailbox. */
  function RunEmailBulkMoveWithClient(
    ids: seq<string>, target: string, batchSize: int,
    mailboxes: Result<seq<Mailbox>, string>, confirm: Result<bool, string>, server: MoveServer): (r: MoveRun)
    ensures r.clientRequested
    ensures r.prompted <==> ResolveMailboxTarget(target, mailboxes).Success?
    ensures ResolveMailboxTarget(target, mailboxes).Failure? ==>
      r.outcome == MoveFailed(ResolveFailed(ResolveMailboxTarget(target, mailboxes).error))
    ensures r.prompted && confirm.Failure? ==> r.outcome == MoveFailed(ConfirmFailed(confirm.error))
    ensures r.prompted && confirm == Success(false) ==> r.outcome == Cancelled
    ensures !(r.prompted && confirm == Success(true)) ==> r.calls == []
    ensures r.prompted && confirm == Success(true) ==>
      var t := ResolveMailboxTarget(target, mailboxes).value;
      var run := RunBulkInBatches(ids, batchSize, MovingEmails, MoveOp(server, t.id));
      && r.calls == ToMoveCalls(run.calls, t.id)
      && (run.result.Failure? ==> r.outcome == MoveFailed(MoveBatchFailed(run.result.error)))
      && (run.result.Success? ==> r.outcome == Moved(t.displayName, t.id, run.result.value, run.total))
  {
    match ResolveMailboxTarget(target, mailboxes)
    case Failure(e) => MoveRun(MoveFailed(ResolveFailed(e)), true, false, [])
    case Success(t) =>
      match confirm
      case Failure(cause) => MoveRun(MoveFailed(ConfirmFailed(cause)), true, true, [])
      case Success(false) => MoveRun(Cancelled, true, true, [])
      case Success(true) =>
        var run := RunBulkInBatches(ids, batchSize, MovingEmails, MoveOp(server, t.id));
        var calls := ToMoveCalls(run.calls, t.id);
        match run.result
        case Failure(e) => MoveRun(MoveFailed(MoveBatchFailed(e)), true, true, calls)
        case Success(result) => MoveRun(Moved(t.displayName, t.id, result, run.total), true, true, calls)
  }

  /** `runEmailBulkMove`: the target must be given (as is, untrimmed), the IDs
      collected, and a dry run stops there; otherwise a client is created and
      the move runs with it. */
  function RunEmailBulkMove(
    args: seq<string>, opts: BulkInputOptions, target: string, dryRun: bool,
    file: Input, stdin: Option<string>, client: Outcome<string>,
    mailboxes: Result<seq<Mailbox>, string>, confirm: Result<bool, string>, server: MoveServer): (r: MoveRun)
    ensures target == "" ==> r == MoveRun(MoveFailed(ToRequired), false, false, [])
    ensures target != "" && CollectBulkIDs(args, opts, file, stdin).Failure? ==>
      r == MoveRun(MoveFailed(CollectFailed(CollectBulkIDs(args, opts, file, stdin).error)), false, false, [])
    ensures r.clientRequested <==> target != "" && CollectBulkIDs(args, opts, file, stdin).Success? && !dryRun
    ensures target != "" && CollectBulkIDs(args, opts, file, stdin).Success? && dryRun ==>
      r == MoveRun(WouldMove(CollectBulkIDs(args, opts, file, stdin).value, target, opts.batchSize), false, false, [])
    ensures r.clientRequested && client.Fail? ==> r == MoveRun(MoveFailed(ClientUnavailable(client.error)), true, false, [])
    ensures r.clientRequested && client.Pass? ==>
      r == RunEmailBulkMoveWithClient(CollectBulkIDs(args, opts, file, stdin).value, target, opts.batchSize, mailboxes, confirm, server)
  {
    if target == "" then MoveRun(MoveFailed(ToRequired), false, false, [])
    else
      match CollectBulkIDs(args, opts, file, stdin)
      case Failure(e) => MoveRun(MoveFailed(CollectFailed(e)), false, false, [])
      case Success(ids) =>
        if dryRun then MoveRun(WouldMove(ids, target, opts.batchSize), false, false, [])
        else
          match client
          case Fail(cause) => MoveRun(MoveFailed(ClientUnavailable(cause)), true, false, [])
          case Pass => RunEmailBulkMoveWithClient(ids, target, opts.batchSize, mailboxes, confirm, server)
  }

  // ---------------------------------------------------------------------------
  // Properties of a move
  // ---------------------------------------------------------------------------

  /** A declined confirmation moves nothing, whatever else happens. */
  lemma DeclinedMovesNothing(
    args: seq<string>, opts: BulkInputOptions, target: string, dryRun: bool,
    file: Input, stdin: Option<string>, client: Outcome<string>,
    mailboxes: Result<seq<Mailbox>, string>, server: MoveServer)
    ensures RunEmailBulkMove(args, opts, target, dryRun, file, stdin, client, mailboxes, Success(false), server).calls == []
  {
  }

  /** A dry run creates no client, asks nothing and moves nothing. */
  lemma DryRunTouchesNothing(
    args: seq<string>, opts: BulkInputOptions, target: string,
    file: Input, stdin: Option<string>, client: Outcome<string>,
    mailboxes: Result<seq<Mailbox>, string>, confirm: Result<bool, string>, server: MoveServer)
    ensures
      var r := RunEmailBulkMove(args, opts, target, true, file, stdin, client, mailboxes, confirm, server);
      !r.clientRequested && !r.prompted && r.calls == []
  {
  }

  /** Moves happen only after a resolved target, a confirmation and a valid
      batch size, and every `MoveEmails` call goes to the one mailbox the target
      resolves to. */
  lemma EveryCallTargetsResolvedMailbox(
    ids: seq<string>, target: string, batchSize: int,
    mailboxes: Result<seq<Mailbox>, string>, confirm: Result<bool, string>, server: MoveServer)
    requires RunEmailBulkMoveWithClient(ids, target, batchSize, mailboxes, confirm, server).calls != []
    ensures ResolveMailboxTarget(target, mailboxes).Success? && confirm == Success(true) && batchSize > 0
    ensures forall c :: c in RunEmailBulkMoveWithClient(ids, target, batchSize, mailboxes, confirm, server).calls ==>
      c.mailboxId == ResolveMailboxTarget(target, mailboxes).value.id
  {
  }

  /** The batches sent are the leading batches of the IDs, in order (with a
      batch size that is not positive nothing is sent at all). */
  lemma CallsAreLeadingBatches(
    ids: seq<string>, target: string, batchSize: int,
    mailboxes: Result<seq<Mailbox>, string>, confirm: Result<bool, string>, server: MoveServer)
    ensures batchSize > 0 ==>
      CallBatches(RunEmailBulkMoveWithClient(ids, target, batchSize, mailboxes, confirm, server).calls)
      <= Batches(ids, batchSize)
  {
    if batchSize > 0 && ResolveMailboxTarget(target, mailboxes).Success? && confirm == Success(true) {
      var t := ResolveMailboxTarget(target, mailboxes).value;
      var run := RunBulkInBatches(ids, batchSize, MovingEmails, MoveOp(server, t.id));
      CallBatchesOfMoveCalls(run.calls, t.id);
    }
  }

  /** A completed move sent every ID exactly once: its calls' batches, joined,
      are the collected IDs, and the count reported is the number of calls. */
  lemma MovedSendsEveryId(
    ids: seq<string>, target: string, batchSize: int,
    mailboxes: Result<seq<Mailbox>, string>, confirm: Result<bool, string>, server: MoveServer)
    requires RunEmailBulkMoveWithClient(ids, target, batchSize, mailboxes, confirm, server).outcome.Moved?
    ensures
      var r := RunEmailBulkMoveWithClient(ids, target, batchSize, mailboxes, confirm, server);
      Flatten(CallBatches(r.calls)) == ids && r.outcome.batches == |r.calls|
  {
    var t := ResolveMailboxTarget(target, mailboxes).value;
    var run := RunBulkInBatches(ids, batchSize, MovingEmails, MoveOp(server, t.id));
    var r := RunEmailBulkMoveWithClient(ids, target, batchSize, mailboxes, confirm, server);
    assert CallBatches(r.calls) == run.calls == Batches(ids, batchSize);
    BatchesJoinToIDs(ids, batchSize);
  }

  /** The source's example: "Archive" resolves by name to the mailbox "archive-1". */
  lemma ArchiveResolves()
    ensures ResolveMailboxTarget("Archive", Success([Mailbox("archive-1", "Archive", "archive")]))
      == Success(Target("archive-1", "Archive"))
  {
    var mbs := [Mailbox("archive-1", "Archive", "archive")];
    TrimSpaceOfTrimmed("Archive");
    assert ToLower("Archive") == "archive";
    assert Names("Archive", mbs, 0);
    ResolveFindsNamedMailbox("Archive", mbs);
  }
}

=== FILE: exit_codes.dfy ===
/** Process exit codes for failed commands (internal/cmd/exit_codes.go).

    An error is seen through what the classifier asks of it: the sentinels and
    error types it wraps, the HTTP status of a wrapped transport error, the
    `Type` of a wrapped JMAP error, and its message. */
module ExitCodes {
  import opened Wrappers
  import opened Text

  const ExitSuccess: int := 0
  const ExitGeneral: int := 1
  const ExitUsage: int := 2
  const ExitAuth: int := 3
  const ExitNotFound: int := 4
  const ExitRateLimited: int := 5
  const ExitTemporary: int := 6
  const ExitCanceled: int := 130

  const AllExitCodes: set<int> := {0, 1, 2, 3, 4, 5, 6, 130}

  datatype Error = Error(
    message: string,
    /** `errors.Is(err, context.Canceled)` */
    canceled: bool,
    /** `jmap.IsValidationError(err)` */
    validation: bool,
    /** `errors.Is(err, ErrUsage)` */
    wrapsUsage: bool,
    /** `jmap.IsAuthError(err)` */
    authError: bool,
    /** `transport.IsUnauthorized(err)` */
    unauthorized: bool,
    /** `jmap.IsNotFoundError(err)` */
    notFoundError: bool,
    /** `errors.Is(err, os.ErrNotExist)` */
    notExist: bool,
    /** `jmap.IsRateLimitError(err)` */
    rateLimitError: bool,
    /** The `Type` of a wrapped `*jmap.JMAPError`, if there is one. */
    jmapType: Option<string>,
    /** The status code of a wrapped HTTP error, if there is one. */
    httpStatus: Option<int>,
    /** `errors.Is(err, context.DeadlineExceeded)` */
    deadlineExceeded: bool,
    /** A wrapped `net.Error` whose `Timeout()` is true. */
    netTimeout: bool)

  /** An error that is only a message, as `errors.New` makes. */
  function Plain(message: string): Error {
    Error(message, false, false, false, false, false, false, false, false, None, None, false, false)
  }

  /** The Cobra messages that mean the command line was wrong. */
  const CobraFragments: seq<string> := [
    "unknown flag",
    "unknown command",
    "requires at least",
    "accepts 1 arg",
    "accepts no arg",
    "requires 1 arg",
    "required flag(s)",
    "flag needs an argument"
  ]

  /** Whether `msg` contains one of `fragments`, checked in order. */
  function ContainsAny(msg: string, fragments: seq<string>): (r: bool)
    ensures r <==> exists i :: 0 <= i < |fragments| && Contains(msg, fragments[i])
    decreases |fragments|
  {
    if |fragments| == 0 then false
    else Contains(msg, fragments[0]) || ContainsAny(msg, fragments[1..])
  }

  predicate IsUsageError(e: Error) {
    e.validation || e.wrapsUsage || ContainsAny(ToLower(e.message), CobraFragments)
  }

  predicate IsAuthFailure(e: Error) {
    var msg := ToLower(e.message);
    e.authError || e.unauthorized || Contains(msg, "no accounts configured") || Contains(msg, "failed to get token")
  }

  predicate IsNotFound(e: Error) {
    e.notFoundError || e.notExist || Contains(ToLower(e.message), "not found")
  }

  /** A wrapped JMAP error decides by its type alone; only an error without one
      falls back to the message. */
  predicate IsRateLimited(e: Error) {
    || e.rateLimitError
    || e.httpStatus == Some(429)
    || (if e.jmapType.Some? then Contains(ToLower(e.jmapType.value), "rate")
        else Contains(ToLower(e.message), "rate limit"))
  }

  predicate IsTemporaryFailure(e: Error) {
    || e.deadlineExceeded
    || e.netTimeout
    || e.httpStatus == Some(500)
    || e.httpStatus == Some(502)
    || e.httpStatus == Some(503)
    || e.httpStatus == Some(504)
  }

  /** `ExitCode`: no error is success; otherwise the first class that applies,
      in the order canceled, usage, auth, not found, rate limited, temporary,
      and a general failure when none does. */
  function ExitCode(err: Option<Error>): (code: int)
    ensures code in AllExitCodes
    ensures code == ExitSuccess <==> err.None?
  {
    match err
    case None => ExitSuccess
    case Some(e) =>
      Prioritize(e.canceled, IsUsageError(e), IsAuthFailure(e), IsNotFound(e), IsRateLimited(e), IsTemporaryFailure(e))
  }

  /** The checks of `ExitCode`, in the order it makes them. */
  function Prioritize(canceled: bool, usage: bool, auth: bool, notFound: bool, rateLimited: bool, temporary: bool): int {
    if canceled then ExitCanceled
    else if usage then ExitUsage
    else if auth then ExitAuth
    else if notFound then ExitNotFound
    else if rateLimited then ExitRateLimited
    else if temporary then ExitTemporary
    else ExitGeneral
  }

  // ---------------------------------------------------------------------------
  // The priority order, stated independently
  // ---------------------------------------------------------------------------

  /** The classes of an error, highest priority first, and their codes. */
  function Classes(e: Error): seq<bool> {
    [e.canceled, IsUsageError(e), IsAuthFailure(e), IsNotFound(e), IsRateLimited(e), IsTemporaryFailure(e)]
  }

  const ClassCodes: seq<int> := [ExitCanceled, ExitUsage, ExitAuth, ExitNotFound, ExitRateLimited, ExitTemporary]

  /** An error gets a class's code exactly when it is in that class and in no
      class of higher priority, and the general code exactly when it is in none. */
  lemma ExitCodeIsFirstClass(e: Error)
    ensures forall k :: 0 <= k < |ClassCodes| ==>
      (ExitCode(Some(e)) == ClassCodes[k] <==> Classes(e)[k] && forall j :: 0 <= j < k ==> !Classes(e)[j])
    ensures ExitCode(Some(e)) == ExitGeneral <==> forall k :: 0 <= k < |Classes(e)| ==> !Classes(e)[k]
  {
    var c := Classes(e);
    assert ExitCode(Some(e)) == Prioritize(c[0], c[1], c[2], c[3], c[4], c[5]);
    PrioritizeIsFirst(c);
  }

  lemma PrioritizeIsFirst(c: seq<bool>)
    requires |c| == 6
    ensures forall k :: 0 <= k < |ClassCodes| ==>
      (Prioritize(c[0], c[1], c[2], c[3], c[4], c[5]) == ClassCodes[k] <==> c[k] && forall j :: 0 <= j < k ==> !c[j])
    ensures Prioritize(c[0], c[1], c[2], c[3], c[4], c[5]) == ExitGeneral <==> forall k :: 0 <= k < |c| ==> !c[k]
  {
    if forall k :: 0 <= k < 6 ==> !c[k] {
    } else {
      assert c[0] || c[1] || c[2] || c[3] || c[4] || c[5];
    }
  }

  /** The usage class: a validation error, the usage sentinel, or a message
      holding one of Cobra's fragments, compared in lower case. */
  lemma UsageClass(e: Error)
    ensures IsUsageError(e) <==>
      || e.validation
      || e.wrapsUsage
      || exists i :: 0 <= i < |CobraFragments| && Contains(ToLower(e.message), CobraFragments[i])
  {
  }

  /** An error wrapping a JMAP error is rate limited by that error's type: the
      message does not matter. */
  lemma JmapTypeDecidesRateLimit(e: Error, message: string)
    requires e.jmapType.Some? && !e.rateLimitError && e.httpStatus != Some(429)
    ensures IsRateLimited(e) <==> Contains(ToLower(e.jmapType.value), "rate")
    ensures IsRateLimited(e.(message := message)) == IsRateLimited(e)
  {
  }

  // ---------------------------------------------------------------------------
  // Messages
  // ---------------------------------------------------------------------------

  /** A message without capital letters is its own lower case. */
  lemma LowerOfLowercase(s: string)
    requires forall i :: 0 <= i < |s| ==> !('A' <= s[i] <= 'Z')
    ensures ToLower(s) == s
  {
  }

  /** The source's example: "unknown flag: --oops" is a usage error (2). */
  lemma UnknownFlagExample()
    ensures ExitCode(Some(Plain("unknown flag: --oops"))) == ExitUsage
  {
    var msg := "unknown flag: --oops";
    LowerOfLowercase(msg);
    assert OccursAt(msg, CobraFragments[0], 0);
  }
}

=== FILE: format_strings.dfy ===
/** Shortening text for display (internal/format/strings.go).

    Go slices the string as runes, so a string here is its sequence of code
    points: a Dafny `char` is one Unicode scalar value, and a rune count is a
    sequence length. */
module FormatStrings {

  const Ellipsis: string := "..."

  /** `Truncate`: a string of at most `maxLen` runes is returned unchanged; a
      longer one keeps its first `maxLen - 3` runes followed by "...". The source
      slices with `maxLen - 3` as the upper bound, which panics when a string
      needs cutting and `maxLen` is below 3, so callers must not ask for that. */
  function Truncate(s: string, maxLen: int): (r: string)
    requires |s| <= maxLen || maxLen >= 3
    ensures |s| <= maxLen ==> r == s
    ensures |s| > maxLen ==> |r| == maxLen && IsPrefix(r[..maxLen - 3], s) && r[maxLen - 3..] == Ellipsis
    ensures |r| <= maxLen
  {
    if |s| <= maxLen then s else s[..maxLen - 3] + Ellipsis
  }

  predicate IsPrefix(p: string, s: string) {
    |p| <= |s| && s[..|p|] == p
  }

  /** A truncated string fits, so truncating it again leaves it alone. */
  lemma TruncateIdempotent(s: string, maxLen: int)
    requires maxLen >= 3
    ensures Truncate(Truncate(s, maxLen), maxLen) == Truncate(s, maxLen)
  {
  }

  /** Truncation keeps the runes of a string in their order: what is kept of
      the original is the longest prefix that leaves room for the ellipsis. */
  lemma TruncateKeepsRunes(s: string, maxLen: int, i: int)
    requires maxLen >= 3 && |s| > maxLen && 0 <= i < maxLen - 3
    ensures Truncate(s, maxLen)[i] == s[i]
  {
  }

  /** Truncation is determined by the prefix it keeps: two strings that agree on
      their first `maxLen - 3` runes and are both too long truncate alike. */
  lemma TruncateDependsOnPrefix(s: string, t: string, maxLen: int)
    requires maxLen >= 3 && |s| > maxLen && |t| > maxLen
    requires s[..maxLen - 3] == t[..maxLen - 3]
    ensures Truncate(s, maxLen) == Truncate(t, maxLen)
  {
  }

  /** The source's examples: strings that fit are unchanged, and a ten-letter
      string cut to six keeps three letters. */
  lemma TruncateExamples()
    ensures Truncate("hello", 10) == "hello"
    ensures Truncate("hello", 5) == "hello"
    ensures Truncate("hello", 4) == "h..."
    ensures Truncate("abcdefghij", 6) == "abc..."
  {
    assert "hello"[..1] == "h";
    assert "abcdefghij"[..3] == "abc";
  }

  /** A string of multi-byte runes is cut by runes, not bytes. */
  lemma TruncateCountsRunes()
    ensures Truncate("日本語", 10) == "日本語"
    ensures Truncate("日本語テストです", 6) == "日本語..."
    ensures Truncate("Hello 🌍🌍🌍!", 10) == "Hello 🌍🌍🌍!"
    ensures Truncate("Hello 🌍🌍🌍 World", 10) == "Hello 🌍..."
  {
    assert "日本語テストです"[..3] == "日本語";
    assert "Hello 🌍🌍🌍 World"[..7] == "Hello 🌍";
  }
}

=== FILE: light.dfy ===
/** The `--light` output of emails, contacts and calendar events
    (internal/cmd/light.go): a few fields of each record, with long subjects,
    names and titles truncated to 80 runes. */
module Light {
  import opened Wrappers
  import opened FormatStrings

  /** The longest subject, name or title shown, in runes. */
  const LightTextLimit: int := 80

  /** The keyword a JMAP email carries once it has been read. */
  const SeenKeyword: string := "$seen"

  // ---------------------------------------------------------------------------
  // Records as the server returns them (the fields the projections read)
  // ---------------------------------------------------------------------------

  datatype EmailAddress = EmailAddress(name: string, email: string)

  /** `Keywords` is `None` when the server sent no keyword map at all. */
  datatype Email = Email(
    id: string,
    threadId: string,
    subject: string,
    from: seq<EmailAddress>,
    receivedAt: string,
    keywords: Option<map<string, bool>>)

  datatype ContactValue = ContactValue(kind: string, value: string)

  datatype Contact = Contact(
    id: string,
    name: string,
    emails: seq<ContactValue>,
    phones: seq<ContactValue>,
    company: string)

  /** A point in time, as the calendar code passes it to its formatter. */
  type Time = int

  datatype CalendarEvent = CalendarEvent(
    id: string,
    title: string,
    start: Time,
    end: Time,
    isAllDay: bool,
    status: string)

  // ---------------------------------------------------------------------------
  // The light records
  // ---------------------------------------------------------------------------

  /** `msgCount` 0 is omitted from the JSON output. */
  datatype EmailLight = EmailLight(
    id: string,
    subject: string,
    fromEmail: string,
    date: string,
    isUnread: bool,
    threadId: string,
    msgCount: int)

  datatype ContactLight = ContactLight(id: string, name: string, email: string, phone: string, company: string)

  datatype EventLight = EventLight(id: string, title: string, start: string, end: string, status: string)

  /** Display text cut to the light limit. */
  function Short(s: string): (r: string)
    ensures |r| <= LightTextLimit
    ensures |s| <= LightTextLimit ==> r == s
    ensures |s| > LightTextLimit ==> |r| == LightTextLimit && r[..LightTextLimit - 3] == s[..LightTextLimit - 3]
  {
    Truncate(s, LightTextLimit)
  }

  /** Whether the email's keyword map marks it as seen. A missing map and a
      map without the keyword both leave it unseen. */
  predicate Seen(e: Email) {
    e.keywords.Some? && SeenKeyword in e.keywords.value && e.keywords.value[SeenKeyword]
  }

  /** `emailToLight`. */
  function EmailToLight(e: Email): (r: EmailLight)
    ensures r.id == e.id && r.threadId == e.threadId && r.date == e.receivedAt
    ensures r.subject == Short(e.subject)
    ensures |e.from| > 0 ==> r.fromEmail == e.from[0].email
    ensures |e.from| == 0 ==> r.fromEmail == ""
    ensures r.isUnread <==> !Seen(e)
    ensures e.keywords.None? ==> r.isUnread
    ensures r.msgCount == 0
  {
    var fromEmail := if |e.from| > 0 then e.from[0].email else "";
    var unread := e.keywords.None? || !(SeenKeyword in e.keywords.value && e.keywords.value[SeenKeyword]);
    EmailLight(e.id, Truncate(e.subject, LightTextLimit), fromEmail, e.receivedAt, unread, e.threadId, 0)
  }

  /** An email without a keyword map and one with an empty map are both unread;
      one whose map holds `$seen` as false is unread too. */
  lemma UnreadWithoutSeenKeyword(e: Email)
    requires e.keywords.None? || e.keywords == Some(map[]) || e.keywords == Some(map[SeenKeyword := false])
    ensures EmailToLight(e).isUnread
  {
  }

  /** The source's example: a seen email from Alice. */
  lemma EmailToLightExample()
    ensures
      var light := EmailToLight(Email("M123", "T456", "Test Subject",
        [EmailAddress("Alice", "alice@example.com")], "2025-01-15T10:00:00Z", Some(map[SeenKeyword := true])));
      light == EmailLight("M123", "Test Subject", "alice@example.com", "2025-01-15T10:00:00Z", false, "T456", 0)
  {
  }

  // ---------------------------------------------------------------------------
  // Lists
  // ---------------------------------------------------------------------------

  /** `f` applied to every element, in order. */
  function MapSeq<A, B>(f: A -> B, s: seq<A>): (r: seq<B>)
    ensures |r| == |s|
    ensures forall i :: 0 <= i < |s| ==> r[i] == f(s[i])
  {
    if |s| == 0 then [] else [f(s[0])] + MapSeq(f, s[1..])
  }

  /** `emailsToLight`: one light record per email, in the same order. */
  function EmailsToLight(emails: seq<Email>): (r: seq<EmailLight>)
    ensures |r| == |emails|
    ensures forall i :: 0 <= i < |emails| ==> r[i] == EmailToLight(emails[i])
  {
    MapSeq(EmailToLight, emails)
  }

  /** The number of messages `threadCounts` gives a thread, 0 (omitted) when it
      has none. */
  function CountOf(threadCounts: map<string, int>, threadId: string): int {
    if threadId in threadCounts then threadCounts[threadId] else 0
  }

  function WithCount(threadCounts: map<string, int>, e: Email): EmailLight {
    var light := EmailToLight(e);
    if e.threadId in threadCounts then light.(msgCount := threadCounts[e.threadId]) else light
  }

  /** `emailsToLightWithCounts`: the light records of `emailsToLight`, each with
      its thread's message count when `threadCounts` has one. */
  function EmailsToLightWithCounts(emails: seq<Email>, threadCounts: map<string, int>): (r: seq<EmailLight>)
    ensures |r| == |emails|
    ensures forall i :: 0 <= i < |emails| ==>
      r[i] == EmailsToLight(emails)[i].(msgCount := CountOf(threadCounts, emails[i].threadId))
  {
    MapSeq((e: Email) => WithCount(threadCounts, e), emails)
  }

  /** With no counts, the counted list is the plain one. */
  lemma NoCountsIsPlain(emails: seq<Email>)
    ensures EmailsToLightWithCounts(emails, map[]) == EmailsToLight(emails)
  {
  }

  /** The counts touch nothing but the message count: dropping it gives back the
      plain list. */
  lemma CountsOnlySetMessageCount(emails: seq<Email>, threadCounts: map<string, int>)
    ensures forall i :: 0 <= i < |emails| ==>
      EmailsToLightWithCounts(emails, threadCounts)[i].(msgCount := 0) == EmailsToLight(emails)[i]
  {
  }

  /** The source's example: two threads with three and one messages. */
  lemma WithCountsExample()
    ensures
      var lights := EmailsToLightWithCounts(
        [Email("M1", "T1", "", [], "", None), Email("M2", "T2", "", [], "", None)],
        map["T1" := 3, "T2" := 1]);
      |lights| == 2 && lights[0].msgCount == 3 && lights[1].msgCount == 1
  {
  }

  // ---------------------------------------------------------------------------
  // Contacts and events
  // ---------------------------------------------------------------------------

  /** `contactToLight`: the first email address and phone number, if any. */
  function ContactToLight(c: Contact): (r: ContactLight)
    ensures r.id == c.id && r.company == c.company
    ensures r.name == Short(c.name)
    ensures r.email == (if |c.emails| > 0 then c.emails[0].value else "")
    ensures r.phone == (if |c.phones| > 0 then c.phones[0].value else "")
  {
    var email := if |c.emails| > 0 then c.emails[0].value else "";
    var phone := if |c.phones| > 0 then c.phones[0].value else "";
    ContactLight(c.id, Truncate(c.name, LightTextLimit), email, phone, c.company)
  }

  /** Only the first email and phone matter: anything after them can change
      without changing the light record. */
  lemma ContactKeepsOnlyFirst(c: Contact, moreEmails: seq<ContactValue>, morePhones: seq<ContactValue>)
    requires |c.emails| > 0 && |c.phones| > 0
    ensures ContactToLight(c.(emails := c.emails + moreEmails, phones := c.phones + morePhones)) == ContactToLight(c)
  {
  }

  /** The source's example: a contact with two emails and one phone. */
  lemma ContactToLightExample()
    ensures
      ContactToLight(Contact("C1", "John Doe",
        [ContactValue("work", "john@work.com"), ContactValue("home", "john@home.com")],
        [ContactValue("mobile", "+1234567890")], "Acme Inc"))
      == ContactLight("C1", "John Doe", "john@work.com", "+1234567890", "Acme Inc")
  {
  }

  /** `contactsToLight`. */
  function ContactsToLight(contacts: seq<Contact>): (r: seq<ContactLight>)
    ensures |r| == |contacts|
    ensures forall i :: 0 <= i < |contacts| ==> r[i] == ContactToLight(contacts[i])
  {
    MapSeq(ContactToLight, contacts)
  }

  /** `eventToLight`. How a time is written depends on whether the event lasts
      all day; that formatter is a parameter. */
  function EventToLight(formatTime: (Time, bool) -> string, e: CalendarEvent): (r: EventLight)
    ensures r.id == e.id && r.status == e.status
    ensures r.title == Short(e.title)
    ensures r.start == formatTime(e.start, e.isAllDay) && r.end == formatTime(e.end, e.isAllDay)
  {
    EventLight(e.id, Truncate(e.title, LightTextLimit), formatTime(e.start, e.isAllDay), formatTime(e.end, e.isAllDay), e.status)
  }

  /** `eventsToLight`. */
  function EventsToLight(formatTime: (Time, bool) -> string, events: seq<CalendarEvent>): (r: seq<EventLight>)
    ensures |r| == |events|
    ensures forall i :: 0 <= i < |events| ==> r[i] == EventToLight(formatTime, events[i])
  {
    MapSeq((e: CalendarEvent) => EventToLight(formatTime, e), events)
  }

  /** The light lists are built element by element: listing two batches one
      after the other gives the list of both. */
  lemma LightListsAppend(a: seq<Email>, b: seq<Email>)
    ensures EmailsToLight(a + b) == EmailsToLight(a) + EmailsToLight(b)
  {
  }
}

=== FILE: root_flags.dfy ===
/** Root command settings (internal/cmd/root.go): boolean environment
    variables and the non-interactive aliases of `--yes`. */
module RootFlags {
  import opened Text

  const TrueWords: set<string> := {"1", "true", "yes", "y", "on"}
  const FalseWords: set<string> := {"0", "false", "no", "n", "off"}

  /** The word an environment value is matched as: lower-cased, then trimmed. */
  function EnvWord(value: string): string {
    TrimSpace(ToLower(value))
  }

  /** How a matched word reads: a recognised word decides, and anything else,
      the empty word included, gives the fallback. */
  function WordValue(word: string, fallback: bool): (r: bool)
    ensures word in TrueWords ==> r
    ensures word in FalseWords ==> !r
    ensures word !in TrueWords + FalseWords ==> r == fallback
  {
    if word == "" then
      assert forall w :: w in TrueWords + FalseWords ==> |w| > 0;
      fallback
    else if word in TrueWords then true
    else if word in FalseWords then false
    else fallback
  }

  /** `envBool`, given the variable's value ("" when it is unset). */
  function EnvBool(value: string, fallback: bool): (r: bool)
    ensures EnvWord(value) in TrueWords ==> r
    ensures EnvWord(value) in FalseWords ==> !r
    ensures EnvWord(value) !in TrueWords + FalseWords ==> r == fallback
  {
    WordValue(EnvWord(value), fallback)
  }

  /** The fallback matters exactly for values that are not a recognised word,
      the empty value among them. */
  lemma FallbackUsedIffUnrecognised(value: string)
    ensures EnvBool(value, true) != EnvBool(value, false) <==> EnvWord(value) !in TrueWords + FalseWords
    ensures EnvWord(value) == "" ==> EnvBool(value, true) && !EnvBool(value, false)
  {
  }

  /** Case does not matter: a value and its lower case read alike. */
  lemma EnvBoolIgnoresCase(value: string, fallback: bool)
    ensures EnvBool(ToLower(value), fallback) == EnvBool(value, fallback)
  {
    ToLowerIdempotent(value);
  }

  /** Surrounding spaces do not matter: a value reads like its trimmed form. */
  lemma EnvBoolIgnoresSpace(value: string, fallback: bool)
    ensures EnvBool(TrimSpace(value), fallback) == EnvBool(value, fallback)
  {
    TrimSpaceOfLower(value);
    TrimSpaceOfLower(TrimSpace(value));
    TrimSpaceIdempotent(value);
  }

  // ---------------------------------------------------------------------------
  // Flags
  // ---------------------------------------------------------------------------

  datatype Flags = Flags(
    color: string,
    account: string,
    output: string,
    debug: bool,
    query: string,
    yes: bool,
    noInput: bool,
    nonInteractive: bool)

  /** The pre-run hook: `--no-input` and `--non-interactive` each imply `--yes`;
      no other flag changes. */
  function ApplyAliases(f: Flags): (r: Flags)
    ensures r.yes <==> f.yes || f.noInput || f.nonInteractive
    ensures r.(yes := f.yes) == f
  {
    if f.noInput || f.nonInteractive then f.(yes := true) else f
  }

  /** Applying the aliases a second time changes nothing. */
  lemma ApplyAliasesIdempotent(f: Flags)
    ensures ApplyAliases(ApplyAliases(f)) == ApplyAliases(f)
  {
  }
}

=== FILE: rotate.dfy ===
/** `fastmail email track rotate` (internal/cmd/email_track_rotate.go): load the
    configuration and the retained keys, pick the next version, generate a key for
    it, save the keys, then save the configuration.

    The run is a function of its environment: the config file, the keyring,
    the key `GenerateKey` produces (or its failure) and whether writing the config
    file works. `RotateAsWritten` follows the source; `RotateKeys` is the corrected
    run (see `NextVersion`). */
module Rotate {
  import opened Wrappers
  import opened Text
  import opened Secrets
  import opened TrackingConfig
  import Crypto

  datatype RotateError =
    | LoadConfigFailed(configError: ConfigError)
    | NotConfigured
    | LoadKeysFailed(cause: StoreError)
    | NoKeys
    | MissingAdmin
    | VersionsExhausted(next: int)
    | GenerateFailed
    | SaveKeysFailed(cause: StoreError)
    | SaveConfigFailed

  /** `generated` is `GenerateKey`'s result (`None` when the random source fails);
      `configWritable` says whether `SaveConfig` succeeds. */
  datatype Env = Env(file: ConfigFile, ring: Ring, generated: Option<string>, configWritable: bool)

  /** A finished run: its result (the configuration it saved), and the keyring and
      config file it leaves behind. */
  datatype Rotated = Rotated(result: Result<Config, RotateError>, ring: Ring, file: ConfigFile)

  /** Non-strictly ascending: duplicates allowed, as after `sort.Ints`. */
  predicate Ascending(s: seq<int>) {
    forall i, j :: 0 <= i < j < |s| ==> s[i] <= s[j]
  }

  /** The versions the run loads: the configured list, or the current version alone
      when the list is empty. */
  function ActiveVersions(c: Config): (r: seq<int>)
    ensures |r| > 0
    ensures forall v :: v in r <==> v in c.keyVersions || (|c.keyVersions| == 0 && v == c.currentVersion)
  {
    if |c.keyVersions| == 0 then [c.currentVersion] else c.keyVersions
  }

  /** A loaded configuration always lists its current version, so the default above
      never applies to one. */
  lemma ActiveOfNormalized(c: Config)
    requires Normalized(c)
    ensures ActiveVersions(c) == c.keyVersions
  {
  }

  /** The running maximum of `start` and every listed version. */
  function MaxVersion(start: int, versions: seq<int>): (m: int)
    ensures m >= start
    ensures forall v :: v in versions ==> v <= m
    ensures m == start || m in versions
    decreases |versions|
  {
    if |versions| == 0 then start
    else
      var rest := versions[1..];
      assert versions == [versions[0]] + rest;
      MaxVersion(if versions[0] > start then versions[0] else start, rest)
  }

  /** The next version as the source computes it: one more than the greatest of the
      current version (at least 1) and the active versions. */
  function NextVersionAsWritten(current: int, active: seq<int>): (r: int)
    ensures r > NormalizeVersion(current) && r >= 2
    ensures forall v :: v in active ==> v < r
    ensures r - 1 == NormalizeVersion(current) || r - 1 in active
  {
    MaxVersion(NormalizeVersion(current), active) + 1
  }

  /** The corrected next version: also above every version that was loaded, which
      includes a version reached only through the keyring's stored pointer. */
  function NextVersion(current: int, active: seq<int>, loaded: map<int, string>): (r: int)
    ensures r > NormalizeVersion(current) && r >= 2
    ensures forall v :: v in active ==> v < r
    ensures forall v :: v in loaded ==> v < r
    ensures r - 1 == NormalizeVersion(current) || r - 1 in active || r - 1 in loaded
  {
    var base := MaxVersion(NormalizeVersion(current), active);
    MaxVersion(base, SortedSet(loaded.Keys)) + 1
  }

  /** Where `x` goes in an ascending list: after every smaller element. */
  function InsertionPoint(s: seq<int>, x: int): (i: nat)
    ensures i <= |s|
    ensures forall j :: 0 <= j < i ==> s[j] < x
    ensures i < |s| ==> x <= s[i]
    decreases |s|
  {
    if |s| == 0 || x <= s[0] then 0 else 1 + InsertionPoint(s[1..], x)
  }

  /** Insert `x` into an ascending list, keeping duplicates. */
  function AddVersion(s: seq<int>, x: int): (r: seq<int>)
    requires Ascending(s)
    ensures Ascending(r)
    ensures |r| == |s| + 1
    ensures forall y :: y in r <==> y in s || y == x
  {
    var i := InsertionPoint(s, x);
    InsertKeepsOrder(s, x, i);
    InsertKeepsMembers(s, x, i);
    s[..i] + [x] + s[i..]
  }

  lemma InsertKeepsOrder(s: seq<int>, x: int, i: nat)
    requires Ascending(s) && i <= |s|
    requires forall j :: 0 <= j < i ==> s[j] < x
    requires i < |s| ==> x <= s[i]
    ensures Ascending(s[..i] + [x] + s[i..])
  {
    var r := s[..i] + [x] + s[i..];
    assert forall j :: 0 <= j < i ==> r[j] == s[j];
    assert forall j :: i < j < |r| ==> r[j] == s[j - 1];
    forall a, b | 0 <= a < b < |r|
      ensures r[a] <= r[b]
    {
      if b < i {
        assert r[a] == s[a] && r[b] == s[b];
      } else if b == i {
        assert r[a] == s[a];
      } else if a < i {
        assert r[a] == s[a] < x <= s[i] <= s[b - 1];
      } else if a == i {
        assert x <= s[i] <= s[b - 1];
      } else {
        assert r[a] == s[a - 1] && r[b] == s[b - 1];
      }
    }
  }

  lemma InsertKeepsMembers(s: seq<int>, x: int, i: nat)
    requires i <= |s|
    ensures forall y :: y in s[..i] + [x] + s[i..] <==> y in s || y == x
  {
    var r := s[..i] + [x] + s[i..];
    forall y | y in s
      ensures y in r
    {
      var k :| 0 <= k < |s| && s[k] == y;
      if k < i {
        assert r[k] == y;
      } else {
        assert r[k + 1] == y;
      }
    }
    assert s == s[..i] + s[i..];
  }

  /** The inserted version lands next to an equal one when it is already listed,
      so the result repeats it. */
  lemma AddVersionRepeats(s: seq<int>, x: int)
    requires Ascending(s)
    requires x in s
    ensures !StrictlyAscending(AddVersion(s, x))
  {
    var i := InsertionPoint(s, x);
    var k :| 0 <= k < |s| && s[k] == x;
    assert i <= k;
    var r := AddVersion(s, x);
    assert r[i] == x && r[i + 1] == s[i] == x;
  }

  /** Inserting a version that is not listed yet keeps the list strictly ascending. */
  lemma AddVersionStrict(s: seq<int>, x: int)
    requires StrictlyAscending(s)
    requires x !in s
    ensures StrictlyAscending(AddVersion(s, x))
  {
    var i := InsertionPoint(s, x);
    var r := AddVersion(s, x);
    assert r == s[..i] + [x] + s[i..];
    assert i < |s| ==> x < s[i];
    forall a, b | 0 <= a < b < |r|
      ensures r[a] < r[b]
    {
      if b < i {
        assert r[a] == s[a] && r[b] == s[b];
      } else if b == i {
        assert r[a] == s[a];
      } else if a < i {
        assert r[a] == s[a] < x < s[i] <= s[b - 1];
      } else if a == i {
        assert x < s[i] <= s[b - 1];
      } else {
        assert r[a] == s[a - 1] && r[b] == s[b - 1];
      }
    }
  }

  /** `updatedVersions`: every loaded version plus the next one, sorted. Duplicates
      are not removed. */
  function UpdatedVersions(loaded: map<int, string>, next: int): (r: seq<int>)
    ensures Ascending(r)
    ensures |r| == |SortedSet(loaded.Keys)| + 1
    ensures forall v :: v in r <==> v in loaded || v == next
  {
    AddVersion(SortedSet(loaded.Keys), next)
  }

  /** `updatedKeys`: the new key for the next version, the loaded key for every
      other listed version. */
  function UpdatedKeys(versions: seq<int>, loaded: map<int, string>, next: int, newKey: string)
    : (r: map<int, string>)
    requires forall v :: v in versions ==> v in loaded || v == next
    ensures forall v :: v in r <==> v in versions
    ensures forall v :: v in r && v != next ==> r[v] == loaded[v]
    ensures next in versions ==> r[next] == newKey
    decreases |versions|
  {
    if |versions| == 0 then map[]
    else
      var v := versions[|versions| - 1];
      var init := versions[..|versions| - 1];
      assert versions == init + [v];
      var r := UpdatedKeys(init, loaded, next, newKey);
      r[v := if v == next then newKey else loaded[v]]
  }

  /** The configuration a successful run saves. */
  function Advanced(c: Config, versions: seq<int>, next: int): (r: Config)
    ensures r.currentVersion == next && r.keyVersions == versions && r.trackingKey == ""
    ensures r.enabled == c.enabled && r.workerUrl == c.workerUrl && r.adminKey == c.adminKey
    ensures r.secretsInKeyring == c.secretsInKeyring
  {
    c.(keyVersions := versions, currentVersion := next, trackingKey := "")
  }

  /** Everything after the guards: generate the key, save the keys with the next
      version as current, then save the configuration. */
  function Rekey(env: Env, c: Config, loaded: map<int, string>, next: int): (r: Rotated)
    ensures r.file != env.file ==> r.result.Success?
    ensures r.result.Success? ==> r.file == Stored(PersistedCopy(r.result.value))
    ensures r.ring != env.ring ==> env.generated.Some?
    ensures r.result.Success? ==> r.result.value == Advanced(c, UpdatedVersions(loaded, next), next)
    ensures env.generated.None? ==> r == Rotated(Failure(GenerateFailed), env.ring, env.file)
    ensures r.result.Failure? ==> r.file == env.file
    ensures !env.configWritable ==> r.result.Failure?
  {
    match env.generated
    case None => Rotated(Failure(GenerateFailed), env.ring, env.file)
    case Some(newKey) =>
      var versions := UpdatedVersions(loaded, next);
      var keys := UpdatedKeys(versions, loaded, next, newKey);
      var saved := SaveTrackingKeys(env.ring, keys, c.adminKey, next);
      if saved.outcome.Fail? then Rotated(Failure(SaveKeysFailed(saved.outcome.error)), saved.ring, env.file)
      else if !env.configWritable then Rotated(Failure(SaveConfigFailed), saved.ring, env.file)
      else
        var updated := Advanced(c, versions, next);
        Rotated(Success(updated), saved.ring, Stored(PersistedCopy(updated)))
  }

  /** What the guards hand on: the loaded configuration and the loaded keys. */
  datatype Prepared = Prepared(config: Config, loaded: map<int, string>)

  /** The guards of the run, in order: the configuration loads, tracking is
      configured, the keys load, at least one key was found, the admin key is not
      blank. Nothing is generated or written before they pass. */
  function Prepare(env: Env): (r: Result<Prepared, RotateError>)
    ensures r.Success? ==>
      && LoadConfig(env.file, env.ring) == Success(r.value.config)
      && IsConfigured(r.value.config)
      && LoadTrackingKeys(env.ring, ActiveVersions(r.value.config), r.value.config.currentVersion).Success?
      && LoadTrackingKeys(env.ring, ActiveVersions(r.value.config), r.value.config.currentVersion).value.keys == r.value.loaded
      && |r.value.loaded| > 0
      && !IsBlank(r.value.config.adminKey)
    ensures LoadConfig(env.file, env.ring).Failure? ==> r == Failure(LoadConfigFailed(LoadConfig(env.file, env.ring).error))
    ensures LoadConfig(env.file, env.ring).Success? && !IsConfigured(LoadConfig(env.file, env.ring).value) ==> r == Failure(NotConfigured)
    ensures r.Failure? ==> r.error.LoadConfigFailed? || r.error.NotConfigured? || r.error.LoadKeysFailed? || r.error.NoKeys? || r.error.MissingAdmin?
    ensures LoadConfig(env.file, env.ring).Success? && IsConfigured(LoadConfig(env.file, env.ring).value) ==>
      var c := LoadConfig(env.file, env.ring).value;
      var keys := LoadTrackingKeys(env.ring, ActiveVersions(c), c.currentVersion);
      && (keys.Failure? ==> r == Failure(LoadKeysFailed(keys.error)))
      && (keys.Success? && |keys.value.keys| == 0 ==> r == Failure(NoKeys))
      && (keys.Success? && |keys.value.keys| > 0 && IsBlank(c.adminKey) ==> r == Failure(MissingAdmin))
      && (keys.Success? && |keys.value.keys| > 0 && !IsBlank(c.adminKey) ==> r == Success(Prepared(c, keys.value.keys)))
  {
    match LoadConfig(env.file, env.ring)
    case Failure(e) => Failure(LoadConfigFailed(e))
    case Success(c) =>
      if !IsConfigured(c) then Failure(NotConfigured)
      else
        match LoadTrackingKeys(env.ring, ActiveVersions(c), c.currentVersion)
        case Failure(e) => Failure(LoadKeysFailed(e))
        case Success(loaded) =>
          if |loaded.keys| == 0 then Failure(NoKeys)
          else if IsBlank(c.adminKey) then Failure(MissingAdmin)
          else Success(Prepared(c, loaded.keys))
  }

  /** The rotation as the source performs it. */
  function RotateAsWritten(env: Env): (r: Rotated)
    ensures r.ring != env.ring || r.file != env.file ==> Prepare(env).Success? && env.generated.Some?
    ensures r.file != env.file ==> r.result.Success?
    ensures r.result.Success? ==>
      && Prepare(env).Success?
      && r.file == Stored(PersistedCopy(r.result.value))
      && r.result.value.currentVersion > NormalizeVersion(Prepare(env).value.config.currentVersion)
      && (forall v :: v in Prepare(env).value.config.keyVersions ==> v < r.result.value.currentVersion)
      && Ascending(r.result.value.keyVersions)
      && (forall v :: v in r.result.value.keyVersions <==> v in Prepare(env).value.loaded || v == r.result.value.currentVersion)
  {
    match Prepare(env)
    case Failure(e) => Rotated(Failure(e), env.ring, env.file)
    case Success(p) => Rekey(env, p.config, p.loaded, NextVersionAsWritten(p.config.currentVersion, ActiveVersions(p.config)))
  }

  /** The corrected rotation: the next version is above every loaded version too,
      and a next version that does not fit the wire format's version byte is
      refused before a key is generated. */
  function RotateKeys(env: Env): (r: Rotated)
    ensures r.ring != env.ring || r.file != env.file ==> Prepare(env).Success? && env.generated.Some?
    ensures r.file != env.file ==> r.result.Success?
    ensures r.result.Success? ==>
      && Prepare(env).Success?
      && r.file == Stored(PersistedCopy(r.result.value))
      && Crypto.ValidateKeyVersion(r.result.value.currentVersion).Pass?
      && r.result.value.currentVersion > NormalizeVersion(Prepare(env).value.config.currentVersion)
      && (forall v :: v in Prepare(env).value.loaded ==> v < r.result.value.currentVersion)
      && StrictlyAscending(r.result.value.keyVersions)
      && (forall v :: v in r.result.value.keyVersions <==> v in Prepare(env).value.loaded || v == r.result.value.currentVersion)
  {
    match Prepare(env)
    case Failure(e) => Rotated(Failure(e), env.ring, env.file)
    case Success(p) =>
      var next := NextVersion(p.config.currentVersion, ActiveVersions(p.config), p.loaded);
      if next > Crypto.MaxKeyVersion then Rotated(Failure(VersionsExhausted(next)), env.ring, env.file)
      else
        AddVersionStrict(SortedSet(p.loaded.Keys), next);
        Rekey(env, p.config, p.loaded, next)
  }

  /** The keys a run saves when `GenerateKey` produced `newKey`. */
  function SavedKeys(loaded: map<int, string>, next: int, newKey: string): (r: map<int, string>)
    ensures forall v :: v in r <==> v in loaded || v == next
    ensures r[next] == newKey
    ensures forall v :: v in loaded && v != next ==> r[v] == loaded[v]
  {
    UpdatedKeys(UpdatedVersions(loaded, next), loaded, next, newKey)
  }

  /** A freshly generated key is never blank (it is 44 characters of base64), and
      the admin key passed the guards, so the save's own checks pass: the
      current version it is given is `next`, whose key is the new one. */
  lemma SaveGuardsPass(ring: Ring, loaded: map<int, string>, adminKey: string, next: int, newKey: string)
    requires !IsBlank(adminKey) && !IsBlank(newKey) && next >= 1
    ensures
      var saved := SaveTrackingKeys(ring, SavedKeys(loaded, next, newKey), adminKey, next);
      saved.outcome.Fail? ==> saved.outcome.error != MissingAdminKey && saved.outcome.error != MissingTrackingKey
  {
    var keys := SavedKeys(loaded, next, newKey);
    assert NormalizeVersion(next) in keys && keys[NormalizeVersion(next)] == newKey;
  }

  /** A run past the guards that succeeds saved the keys `SavedKeys` describes, with
      `next` as the current version, and the save went through. */
  lemma RekeySaved(env: Env, c: Config, loaded: map<int, string>, next: int)
    requires Rekey(env, c, loaded, next).result.Success?
    ensures env.generated.Some?
    ensures
      var saved := SaveTrackingKeys(env.ring, SavedKeys(loaded, next, env.generated.value), c.adminKey, next);
      saved.outcome.Pass? && Rekey(env, c, loaded, next).ring == saved.ring
  {
  }

  /** Finding: when a loaded version equals the version the source picks as next
      (a version read only through the keyring's stored pointer), the saved
      version list repeats it and the new key replaces the loaded one in its
      keyring item. */
  lemma AsWrittenReusesLoadedVersion(env: Env)
    requires Prepare(env).Success?
    requires
      var p := Prepare(env).value;
      NextVersionAsWritten(p.config.currentVersion, ActiveVersions(p.config)) in p.loaded
    requires RotateAsWritten(env).result.Success?
    ensures !StrictlyAscending(RotateAsWritten(env).result.value.keyVersions)
    ensures
      var next := RotateAsWritten(env).result.value.currentVersion;
      && env.generated.Some? && RotateAsWritten(env).ring.Open?
      && TrackingKeyName(next) in RotateAsWritten(env).ring.keyring.items
      && RotateAsWritten(env).ring.keyring.items[TrackingKeyName(next)] == env.generated.value
  {
    var p := Prepare(env).value;
    var next := NextVersionAsWritten(p.config.currentVersion, ActiveVersions(p.config));
    var run := Rekey(env, p.config, p.loaded, next);
    assert RotateAsWritten(env) == run;
    AddVersionRepeats(SortedSet(p.loaded.Keys), next);
    RekeySaved(env, p.config, p.loaded, next);
    var keys := SavedKeys(p.loaded, next, env.generated.value);
    SavedKeyStored(env.ring, keys, p.config.adminKey, next);
  }

  /** After a successful save, the current version's item holds its key. */
  lemma SavedKeyStored(ring: Ring, keys: map<int, string>, adminKey: string, current: int)
    requires current >= 1
    requires SaveTrackingKeys(ring, keys, adminKey, current).outcome.Pass?
    ensures SaveTrackingKeys(ring, keys, adminKey, current).ring.Open?
    ensures
      var after := SaveTrackingKeys(ring, keys, adminKey, current).ring.keyring;
      TrackingKeyName(current) in after.items && after.items[TrackingKeyName(current)] == keys[current]
  {
    SaveStores(ring, keys, adminKey, current);
  }

  /** How a version outside the configured list gets loaded: the keyring's stored
      current-version pointer names it and its item holds a key. */
  lemma PointerLoadsUnlistedVersion(k: Keyring, versions: seq<int>, current: int, pointed: int)
    requires k.readFaults == {}
    requires current >= 1 && 1 <= pointed <= Decimal.MaxInt64
    requires pointed != current && pointed !in versions
    requires Get(k, CurrentVersionSlot) == Found(Decimal.Itoa(pointed))
    requires StoredKey(k, pointed).Some?
    ensures LoadKeys(k, versions, current).Success?
    ensures pointed in LoadKeys(k, versions, current).value
  {
    var order := LoadOrder(versions, current);
    var loaded := LoadVersionKeys(k, order);
    assert loaded.Success?;
    var withLegacy := LoadLegacy(k, loaded.value, current);
    assert withLegacy.Success? by {
      assert Get(k, LegacySlot) != ReadFault;
    }
    PointedVersionLoaded(k, withLegacy.value, order, current, pointed);
  }

  lemma PointedVersionLoaded(k: Keyring, keys: map<int, string>, order: seq<int>, current: int, pointed: int)
    requires k.readFaults == {}
    requires 1 <= pointed <= Decimal.MaxInt64
    requires pointed != current && pointed !in order
    requires Get(k, CurrentVersionSlot) == Found(Decimal.Itoa(pointed))
    requires StoredKey(k, pointed).Some?
    ensures LoadPointed(k, keys, order, current).Success?
    ensures pointed in LoadPointed(k, keys, order, current).value
  {
    PointerIsTrimmed(pointed);
    Decimal.AtoiOfItoa(pointed);
    assert !ContainsVersion(order, pointed);
    assert LoadSlot(k, pointed) == Success(StoredKey(k, pointed).value);
  }

  /** Finding: nothing bounds the next version, so rotating from version 255 saves
      version 256 as current, which no blob can carry. */
  lemma AsWrittenOverflowsVersionByte(env: Env)
    requires Prepare(env).Success? && Prepare(env).value.config.currentVersion >= Crypto.MaxKeyVersion
    requires RotateAsWritten(env).result.Success?
    ensures RotateAsWritten(env).result.value.currentVersion > Crypto.MaxKeyVersion
    ensures Crypto.ValidateKeyVersion(RotateAsWritten(env).result.value.currentVersion).Fail?
  {
  }

  /** The smallest case: one version, 255. */
  lemma NextAfterLastByteVersion()
    ensures NextVersionAsWritten(255, [255]) == 256
    ensures Crypto.ValidateKeyVersion(NextVersionAsWritten(255, [255])).Fail?
  {
  }

  /** With every loaded version positive and below `next`, the saved version list
      is exactly the ascending list of versions the save writes. */
  lemma SavedVersionsAreSorted(loaded: map<int, string>, next: int, newKey: string)
    requires next >= 1
    requires forall v :: v in loaded ==> 1 <= v < next
    ensures UpdatedVersions(loaded, next) == SortedVersionsFromMap(SavedKeys(loaded, next, newKey))
  {
    var versions := UpdatedVersions(loaded, next);
    AddVersionStrict(SortedSet(loaded.Keys), next);
    AscendingUnique(versions, SortedVersionsFromMap(SavedKeys(loaded, next, newKey)));
  }

  /** A run whose guards pass goes through when a key is generated, the keyring
      takes every write, the config file can be written and the next version fits
      in the version byte. */
  lemma RotateProceeds(env: Env)
    requires Prepare(env).Success?
    requires env.generated.Some? && !IsBlank(env.generated.value)
    requires env.ring.Open? && env.ring.keyring.writeFaults == {}
    requires env.configWritable
    requires
      var c := Prepare(env).value.config;
      NextVersion(c.currentVersion, ActiveVersions(c), Prepare(env).value.loaded) <= Crypto.MaxKeyVersion
    ensures RotateKeys(env).result.Success?
  {
    var p := Prepare(env).value;
    var next := NextVersion(p.config.currentVersion, ActiveVersions(p.config), p.loaded);
    assert RotateKeys(env) == Rekey(env, p.config, p.loaded, next);
    RekeyProceeds(env, p.config, p.loaded, next);
  }

  lemma RekeyProceeds(env: Env, c: Config, loaded: map<int, string>, next: int)
    requires env.generated.Some? && !IsBlank(env.generated.value)
    requires env.ring.Open? && env.ring.keyring.writeFaults == {}
    requires env.configWritable
    requires next >= 1 && !IsBlank(c.adminKey)
    ensures Rekey(env, c, loaded, next).result.Success?
  {
    var keys := UpdatedKeys(UpdatedVersions(loaded, next), loaded, next, env.generated.value);
    assert NormalizeVersion(next) == next;
    Secrets.SaveWithoutFaultsPasses(env.ring.keyring, keys, c.adminKey, next);
  }

  /** The corrected rotation keeps every key: after it succeeds against a keyring
      whose reads and writes all work, loading with the saved version list and
      current version gives the new key as current, every non-blank key that was
      loaded before (trimmed), and the admin key. */
  lemma RotateRetainsKeys(env: Env)
    requires env.ring.Open? && env.ring.keyring.readFaults == {} && env.ring.keyring.writeFaults == {}
    requires RotateKeys(env).result.Success?
    ensures Prepare(env).Success? && env.generated.Some?
    ensures
      var r := RotateKeys(env);
      var saved := r.result.value;
      var p := Prepare(env).value;
      var reloaded := LoadTrackingKeys(r.ring, saved.keyVersions, saved.currentVersion);
      && reloaded.Success?
      && saved.currentVersion in reloaded.value.keys
      && reloaded.value.keys[saved.currentVersion] == TrimSpace(env.generated.value)
      && (forall v :: v in p.loaded && !IsBlank(p.loaded[v]) ==>
            v in reloaded.value.keys && reloaded.value.keys[v] == TrimSpace(p.loaded[v]))
      && reloaded.value.adminKey == TrimSpace(p.config.adminKey)
  {
    var p := Prepare(env).value;
    var c := p.config;
    var next := NextVersion(c.currentVersion, ActiveVersions(c), p.loaded);
    assert RotateKeys(env) == Rekey(env, c, p.loaded, next);
    RekeySaved(env, c, p.loaded, next);
    var newKey := env.generated.value;
    var keys := SavedKeys(p.loaded, next, newKey);
    LoadedShape(env.ring, ActiveVersions(c), c.currentVersion);
    SavedVersionsAreSorted(p.loaded, next, newKey);
    SaveThenLoad(env.ring.keyring, keys, c.adminKey, next);
  }

  /** The configuration a corrected rotation saves is already normalised, so the
      next run reads it back with the new key as the tracking key. */
  lemma RotateThenLoadConfig(env: Env)
    requires env.ring.Open? && env.ring.keyring.readFaults == {} && env.ring.keyring.writeFaults == {}
    requires RotateKeys(env).result.Success?
    ensures env.generated.Some?
    ensures
      var r := RotateKeys(env);
      var reloaded := LoadConfig(r.file, r.ring);
      && reloaded.Success?
      && reloaded.value.currentVersion == r.result.value.currentVersion
      && reloaded.value.keyVersions == r.result.value.keyVersions
      && reloaded.value.trackingKey == TrimSpace(env.generated.value)
  {
    var r := RotateKeys(env);
    var saved := r.result.value;
    var p := Prepare(env).value;
    RotateRetainsKeys(env);
    LoadedShape(env.ring, ActiveVersions(p.config), p.config.currentVersion);
    assert Normalized(saved);
    LoadTakesCurrentKey(saved, r.ring);
  }

  /** The correction changes nothing for a keyring whose loaded versions all lie
      below the version the source would pick, as long as that version fits a
      byte. */
  lemma CorrectionAgreesOtherwise(env: Env)
    requires Prepare(env).Success?
    requires
      var p := Prepare(env).value;
      var next := NextVersionAsWritten(p.config.currentVersion, ActiveVersions(p.config));
      next <= Crypto.MaxKeyVersion && forall v :: v in p.loaded ==> v < next
    ensures RotateKeys(env) == RotateAsWritten(env)
  {
    var p := Prepare(env).value;
    var active := ActiveVersions(p.config);
    var next := NextVersion(p.config.currentVersion, active, p.loaded);
    assert next == NextVersionAsWritten(p.config.currentVersion, active);
    assert RotateAsWritten(env) == Rekey(env, p.config, p.loaded, next);
    assert RotateKeys(env) == Rekey(env, p.config, p.loaded, next);
  }
}

=== FILE: secrets.dfy ===
/** The tracking key store (internal/tracking/secrets.go).

    The OS keyring is an explicit value: a map from item name to stored text plus
    the names whose reads or writes fail with an error other than "not found".
    Opening the keyring can fail because it does not exist or for another reason.
    Versions are Go `int`s. */
module Secrets {
  import opened Wrappers
  import opened Text
  import Decimal

  const LegacySlot: string := "tracking_key"
  const AdminSlot: string := "admin_key"
  const CurrentVersionSlot: string := "tracking_key_current_version"
  const VersionSlotPrefix: string := "tracking_key_v"
  const DefaultVersion: int := 1

  /** `normalizeTrackingVersion`: versions below 1 mean version 1. */
  function NormalizeVersion(version: int): (r: int)
    ensures r >= 1
    ensures version > 0 ==> r == version
    ensures version <= 0 ==> r == DefaultVersion
  {
    if version <= 0 then DefaultVersion else version
  }

  predicate StrictlyAscending(s: seq<int>) {
    forall i, j :: 0 <= i < j < |s| ==> s[i] < s[j]
  }

  /** Insert `x` into a strictly ascending sequence, keeping it strictly ascending. */
  function InsertSorted(s: seq<int>, x: int): (r: seq<int>)
    requires StrictlyAscending(s)
    ensures StrictlyAscending(r)
    ensures forall y :: y in r <==> y in s || y == x
  {
    if |s| == 0 then [x]
    else if x < s[0] then [x] + s
    else if x == s[0] then s
    else
      var tail := InsertSorted(s[1..], x);
      AscendingTail(s);
      AscendingCons(s[0], tail);
      [s[0]] + tail
  }

  lemma AscendingTail(s: seq<int>)
    requires StrictlyAscending(s) && |s| > 0
    ensures StrictlyAscending(s[1..])
    ensures forall y :: y in s[1..] ==> s[0] < y
  {
  }

  lemma AscendingCons(h: int, t: seq<int>)
    requires StrictlyAscending(t)
    requires forall y :: y in t ==> h < y
    ensures StrictlyAscending([h] + t)
  {
    var r := [h] + t;
    forall i, j | 0 <= i < j < |r|
      ensures r[i] < r[j]
    {
      assert r[j] == t[j - 1] && t[j - 1] in t;
      if i > 0 {
        assert r[i] == t[i - 1];
      }
    }
  }

  /** `sortedTrackingVersions`: the positive values of `versions`, each once, in
      ascending order. */
  function SortedVersions(versions: seq<int>): (r: seq<int>)
    ensures StrictlyAscending(r)
    ensures forall v :: v in r <==> v in versions && v > 0
  {
    if |versions| == 0 then []
    else
      var init := versions[..|versions| - 1];
      var last := versions[|versions| - 1];
      assert versions == init + [last];
      var rest := SortedVersions(init);
      if last <= 0 then rest else InsertSorted(rest, last)
  }

  /** There is exactly one strictly ascending arrangement of a set of integers:
      whatever order Go's de-duplicate-then-`sort.Ints` visits the input in, it
      produces the sequence `SortedVersions` describes. */
  lemma {:induction false} AscendingUnique(a: seq<int>, b: seq<int>)
    requires StrictlyAscending(a) && StrictlyAscending(b)
    requires forall x :: x in a <==> x in b
    ensures a == b
    decreases |a|
  {
    if |a| > 0 {
      assert a[0] in a;
    }
    if |b| > 0 {
      assert b[0] in b;
    }
    if |a| > 0 && |b| > 0 {
      assert a[0] == b[0];
      forall x
        ensures x in a[1..] <==> x in b[1..]
      {
        if x in a[1..] {
          assert x in a && x != a[0];
        }
        if x in b[1..] {
          assert x in b && x != b[0];
        }
      }
      AscendingUnique(a[1..], b[1..]);
      assert a == [a[0]] + a[1..];
      assert b == [b[0]] + b[1..];
    }
  }

  /** Sorting a list that is already strictly ascending and positive changes nothing. */
  lemma SortedVersionsOfSorted(s: seq<int>)
    requires StrictlyAscending(s)
    requires forall v :: v in s ==> v > 0
    ensures SortedVersions(s) == s
  {
    AscendingUnique(SortedVersions(s), s);
  }

  lemma {:induction false} MinimumExists(s: set<int>, x: int)
    requires x in s
    ensures exists m :: m in s && forall y :: y in s ==> m <= y
    decreases |s|
  {
    var rest := s - {x};
    var least := x;
    if exists z :: z in rest {
      var z :| z in rest;
      MinimumExists(rest, z);
      var m :| m in rest && forall y :: y in rest ==> m <= y;
      least := if x < m then x else m;
      forall y | y in s
        ensures least <= y
      {
        if y != x {
          assert y in rest;
        }
      }
    } else {
      forall y | y in s
        ensures x <= y
      {
        assert y !in rest;
      }
    }
    assert least in s && forall y :: y in s ==> least <= y;
  }

  /** The least element of a non-empty finite set. */
  function Least(s: set<int>): (m: int)
    requires exists x :: x in s
    ensures m in s && forall y :: y in s ==> m <= y
  {
    var x :| x in s;
    MinimumExists(s, x);
    var m :| m in s && forall y :: y in s ==> m <= y;
    m
  }

  /** The elements of a finite set in strictly ascending order. */
  function SortedSet(s: set<int>): (r: seq<int>)
    ensures StrictlyAscending(r)
    ensures forall v :: v in r <==> v in s
    decreases |s|
  {
    if exists x :: x in s then
      var m := Least(s);
      var rest := SortedSet(s - {m});
      AscendingCons(m, rest);
      [m] + rest
    else []
  }

  /** `sortedTrackingVersionsFromMap`: the positive versions that have a key, ascending. */
  function SortedVersionsFromMap(keys: map<int, string>): (r: seq<int>)
    ensures StrictlyAscending(r)
    ensures forall v :: v in r <==> v in keys && v > 0
  {
    SortedSet(set v | v in keys && v > 0)
  }

  /** `containsTrackingVersion`. */
  function ContainsVersion(versions: seq<int>, version: int): (r: bool)
    ensures r <==> version in versions
  {
    if |versions| == 0 then false
    else versions[0] == version || ContainsVersion(versions[1..], version)
  }

  /** `trackingKeyName`: the keyring item holding the key of one version. */
  function TrackingKeyName(version: int): string {
    VersionSlotPrefix + Decimal.Itoa(version)
  }

  /** Different versions live in different keyring items. */
  lemma SlotNamesDiffer(a: int, b: int)
    requires a != b
    ensures TrackingKeyName(a) != TrackingKeyName(b)
  {
    if TrackingKeyName(a) == TrackingKeyName(b) {
      assert Decimal.Itoa(a) == TrackingKeyName(a)[|VersionSlotPrefix|..];
      assert Decimal.Itoa(b) == TrackingKeyName(b)[|VersionSlotPrefix|..];
      Decimal.ItoaInjective(a, b);
    }
  }

  /** No version item collides with the legacy, pointer or admin items. */
  lemma SlotNameIsNotFixed(version: int)
    ensures TrackingKeyName(version) != LegacySlot
    ensures TrackingKeyName(version) != AdminSlot
    ensures TrackingKeyName(version) != CurrentVersionSlot
  {
    var n := TrackingKeyName(version);
    assert n[13] == 'v' && CurrentVersionSlot[13] == 'c';
    assert n[0] == 't' && AdminSlot[0] == 'a';
    assert |n| > |LegacySlot|;
  }

  datatype Keyring = Keyring(items: map<string, string>, readFaults: set<string>, writeFaults: set<string>)

  /** The outcome of opening the keyring: it does not exist, it fails otherwise,
      or it is open. */
  datatype Ring = Missing | Broken | Open(keyring: Keyring)

  datatype Read = Found(data: string) | NotFound | ReadFault

  function Get(k: Keyring, name: string): Read {
    if name in k.readFaults then ReadFault
    else if name in k.items then Found(k.items[name])
    else NotFound
  }

  function Put(k: Keyring, name: string, data: string): Option<Keyring> {
    if name in k.writeFaults then None else Some(k.(items := k.items[name := data]))
  }

  datatype StoreError =
    | MissingAdminKey
    | MissingTrackingKey
    | OpenKeyring
    | StoreVersionKey(version: int)
    | StoreLegacyKey
    | StoreCurrentVersion
    | StoreAdminKey
    | ReadVersionKey(version: int)
    | ReadLegacyKey
    | ReadCurrentVersion
    | ReadAdminKey

  /** The outcome of a save, with the keyring as the writes left it (writes made
      before a failing one stay). */
  datatype Saved = Saved(outcome: Outcome<StoreError>, ring: Ring)

  /** Names of the items a save writes for the given versions: blank keys are skipped. */
  function WrittenNames(keys: map<int, string>, versions: seq<int>): set<string> {
    set v | v in versions && v in keys && !IsBlank(keys[v]) :: TrackingKeyName(v)
  }

  /** Write the non-blank key of every listed version, in order, stopping at the
      first failing write. */
  function WriteVersionKeys(k: Keyring, keys: map<int, string>, versions: seq<int>): (r: Saved)
    ensures r.ring.Open?
    ensures r.ring.keyring.readFaults == k.readFaults && r.ring.keyring.writeFaults == k.writeFaults
    ensures forall n :: n !in WrittenNames(keys, versions) ==>
      (n in r.ring.keyring.items <==> n in k.items) &&
      (n in k.items ==> r.ring.keyring.items[n] == k.items[n])
    decreases |versions|
  {
    if |versions| == 0 then Saved(Pass, Open(k))
    else
      var v := versions[0];
      assert WrittenNames(keys, versions[1..]) <= WrittenNames(keys, versions);
      if v !in keys || IsBlank(keys[v]) then WriteVersionKeys(k, keys, versions[1..])
      else
        match Put(k, TrackingKeyName(v), keys[v])
        case None => Saved(Fail(StoreVersionKey(v)), Open(k))
        case Some(k') => WriteVersionKeys(k', keys, versions[1..])
  }

  /** A failing write pass names the version whose write failed. */
  lemma {:induction false} WriteVersionKeysFailure(k: Keyring, keys: map<int, string>, versions: seq<int>)
    ensures WriteVersionKeys(k, keys, versions).outcome.Fail? ==>
      WriteVersionKeys(k, keys, versions).outcome.error.StoreVersionKey?
    decreases |versions|
  {
    if |versions| > 0 {
      var v := versions[0];
      if v !in keys || IsBlank(keys[v]) {
        WriteVersionKeysFailure(k, keys, versions[1..]);
      } else if TrackingKeyName(v) !in k.writeFaults {
        WriteVersionKeysFailure(Put(k, TrackingKeyName(v), keys[v]).value, keys, versions[1..]);
      }
    }
  }

  /** `SaveTrackingKeys`. Guards first (admin key, then the key of the normalised
      current version), then every non-blank key under its version item, the
      current key under the legacy item, the current version in decimal, and the
      admin key. */
  function SaveTrackingKeys(ring: Ring, keys: map<int, string>, adminKey: string, currentVersion: int)
    : (r: Saved)
    ensures adminKey == "" ==> r == Saved(Fail(MissingAdminKey), ring)
    ensures adminKey != "" && (NormalizeVersion(currentVersion) !in keys || IsBlank(keys[NormalizeVersion(currentVersion)]))
            ==> r == Saved(Fail(MissingTrackingKey), ring)
    ensures r.outcome.Fail? && adminKey != "" && NormalizeVersion(currentVersion) in keys &&
            !IsBlank(keys[NormalizeVersion(currentVersion)]) ==>
      r.outcome.error.OpenKeyring? || r.outcome.error.StoreVersionKey? || r.outcome.error.StoreLegacyKey? ||
      r.outcome.error.StoreCurrentVersion? || r.outcome.error.StoreAdminKey?
    ensures r.outcome.Pass? ==>
      && ring.Open? && r.ring.Open?
      && adminKey != ""
      && NormalizeVersion(currentVersion) in keys && !IsBlank(keys[NormalizeVersion(currentVersion)])
  {
    if adminKey == "" then Saved(Fail(MissingAdminKey), ring)
    else
      var current := NormalizeVersion(currentVersion);
      // The source re-checks `current <= 0` here; normalisation makes that unreachable.
      if current !in keys || IsBlank(keys[current]) then Saved(Fail(MissingTrackingKey), ring)
      else
        match ring
        case Missing => Saved(Fail(OpenKeyring), ring)
        case Broken => Saved(Fail(OpenKeyring), ring)
        case Open(k) => SaveInto(k, keys, adminKey, current)
  }

  /** The writes of a save into an open keyring. The version list holds `current`,
      so the source's empty-list check cannot fire. */
  function SaveInto(k: Keyring, keys: map<int, string>, adminKey: string, current: int): (r: Saved)
    requires current in keys
    ensures r.ring.Open?
    ensures r.outcome.Fail? ==> (r.outcome.error.StoreVersionKey? || r.outcome.error.StoreLegacyKey? ||
                                 r.outcome.error.StoreCurrentVersion? || r.outcome.error.StoreAdminKey?)
    ensures r.ring.keyring.readFaults == k.readFaults && r.ring.keyring.writeFaults == k.writeFaults
  {
    var written := WriteVersionKeys(k, keys, SortedVersionsFromMap(keys));
    WriteVersionKeysFailure(k, keys, SortedVersionsFromMap(keys));
    if written.outcome.Fail? then written
    else WriteFixedItems(written.ring.keyring, keys[current], current, adminKey)
  }

  /** The legacy item, the current-version pointer and the admin key, in that order. */
  function WriteFixedItems(k: Keyring, currentKey: string, current: int, adminKey: string): (r: Saved)
    ensures r.ring.Open?
    ensures r.outcome.Fail? ==> r.outcome.error.StoreLegacyKey? || r.outcome.error.StoreCurrentVersion? || r.outcome.error.StoreAdminKey?
    ensures r.ring.keyring.readFaults == k.readFaults && r.ring.keyring.writeFaults == k.writeFaults
    ensures r.outcome.Pass? ==>
      && LegacySlot in r.ring.keyring.items && r.ring.keyring.items[LegacySlot] == currentKey
      && CurrentVersionSlot in r.ring.keyring.items && r.ring.keyring.items[CurrentVersionSlot] == Decimal.Itoa(current)
      && AdminSlot in r.ring.keyring.items && r.ring.keyring.items[AdminSlot] == adminKey
    ensures forall n :: n != LegacySlot && n != CurrentVersionSlot && n != AdminSlot ==>
      (n in r.ring.keyring.items <==> n in k.items) && (n in k.items ==> r.ring.keyring.items[n] == k.items[n])
  {
    match Put(k, LegacySlot, currentKey)
    case None => Saved(Fail(StoreLegacyKey), Open(k))
    case Some(k2) =>
      match Put(k2, CurrentVersionSlot, Decimal.Itoa(current))
      case None => Saved(Fail(StoreCurrentVersion), Open(k2))
      case Some(k3) =>
        match Put(k3, AdminSlot, adminKey)
        case None => Saved(Fail(StoreAdminKey), Open(k3))
        case Some(k4) => Saved(Pass, Open(k4))
  }

  /** `SaveSecrets`: a single version-1 key. */
  function SaveSecrets(ring: Ring, trackingKey: string, adminKey: string): Saved {
    SaveTrackingKeys(ring, map[DefaultVersion := trackingKey], adminKey, DefaultVersion)
  }

  /** `loadTrackingKeyForVersion`: a missing item reads as "", other read errors abort. */
  function LoadSlot(k: Keyring, version: int): (r: Result<string, StoreError>)
    ensures r.Failure? <==> TrackingKeyName(version) in k.readFaults
    ensures r.Success? ==>
      r.value == (if TrackingKeyName(version) in k.items then TrimSpace(k.items[TrackingKeyName(version)]) else "")
  {
    match Get(k, TrackingKeyName(version))
    case ReadFault => Failure(ReadVersionKey(version))
    case NotFound => Success("")
    case Found(data) => Success(TrimSpace(data))
  }

  /** The key a version item yields when loaded: its trimmed text, if not blank. */
  function StoredKey(k: Keyring, version: int): Option<string> {
    var name := TrackingKeyName(version);
    if name in k.items && TrimSpace(k.items[name]) != "" then Some(TrimSpace(k.items[name])) else None
  }

  /** Load the listed versions in order: a missing or blank item is skipped, any
      other read error aborts the whole load. */
  function LoadVersionKeys(k: Keyring, versions: seq<int>): (r: Result<map<int, string>, StoreError>)
    ensures r.Success? <==> forall v :: v in versions ==> TrackingKeyName(v) !in k.readFaults
    ensures r.Success? ==> forall v ::
      (v in r.value <==> v in versions && StoredKey(k, v).Some?) &&
      (v in r.value ==> r.value[v] == StoredKey(k, v).value)
    decreases |versions|
  {
    if |versions| == 0 then Success(map[])
    else
      var v := versions[0];
      assert versions == [v] + versions[1..];
      var key :- LoadSlot(k, v);
      var rest :- LoadVersionKeys(k, versions[1..]);
      if key == "" then Success(rest) else Success(rest[v := key])
  }

  /** The versions a load reads: the requested ones (or just the current one if
      none are requested), positive, de-duplicated and ascending, with the current
      version put in front when it is not among them. */
  function LoadOrder(versions: seq<int>, current: int): (r: seq<int>)
    requires current >= 1
    ensures current in r
    ensures forall v :: v in r <==> v == current || (v in versions && v > 0)
  {
    var sorted := SortedVersions(if |versions| == 0 then [current] else versions);
    if ContainsVersion(sorted, current) then sorted else [current] + sorted
  }

  /** The legacy item is read only when the current version is 1 and no version-1
      key was loaded; its trimmed text is kept even when empty. */
  function LoadLegacy(k: Keyring, keys: map<int, string>, current: int): (r: Result<map<int, string>, StoreError>)
    ensures r.Success? ==> forall v :: v in r.value ==> v in keys || v == DefaultVersion
    ensures r.Success? ==> forall v :: v in keys ==> v in r.value && r.value[v] == keys[v]
    ensures r.Failure? ==> LegacySlot in k.readFaults
  {
    if current == DefaultVersion && DefaultVersion !in keys then
      match Get(k, LegacySlot)
      case Found(data) => Success(keys[DefaultVersion := TrimSpace(data)])
      case NotFound => Success(keys)
      case ReadFault => Failure(ReadLegacyKey)
    else Success(keys)
  }

  /** The stored current-version pointer: when it parses and names a version that
      was not read yet, that version's item is read too. */
  function LoadPointed(k: Keyring, keys: map<int, string>, order: seq<int>, current: int)
    : (r: Result<map<int, string>, StoreError>)
    ensures r.Success? ==> forall v :: v in r.value ==> v in keys || v >= 1
    ensures r.Success? ==> forall v :: v in keys && (v == current || v in order) ==> v in r.value && r.value[v] == keys[v]
    ensures k.readFaults == {} ==> r.Success?
  {
    match Get(k, CurrentVersionSlot)
    case ReadFault => Failure(ReadCurrentVersion)
    case NotFound => Success(keys)
    case Found(data) =>
      match Decimal.Atoi(TrimSpace(data))
      case Failure(_) => Success(keys)
      case Success(parsed) =>
        var pointed := NormalizeVersion(parsed);
        if pointed == current || ContainsVersion(order, pointed) then Success(keys)
        else AddPointed(k, keys, pointed)
  }

  /** Read the item of the version named by the stored current-version item, and add its key, if any. */
  function AddPointed(k: Keyring, keys: map<int, string>, pointed: int): (r: Result<map<int, string>, StoreError>)
    ensures r.Success? ==> forall v :: v in r.value ==> v in keys || v == pointed
    ensures r.Success? ==> forall v :: v in keys && v != pointed ==> v in r.value && r.value[v] == keys[v]
    ensures k.readFaults == {} ==> r.Success?
  {
    var key :- LoadSlot(k, pointed);
    if key == "" then Success(keys) else Success(keys[pointed := key])
  }

  datatype Loaded = Loaded(keys: map<int, string>, adminKey: string)

  /** `LoadTrackingKeys`. A keyring that does not exist yields no keys at all. */
  function LoadTrackingKeys(ring: Ring, versions: seq<int>, currentVersion: int): (r: Result<Loaded, StoreError>)
    ensures ring.Missing? ==> r == Success(Loaded(map[], ""))
    ensures ring.Broken? ==> r == Failure(OpenKeyring)
  {
    match ring
    case Missing => Success(Loaded(map[], ""))
    case Broken => Failure(OpenKeyring)
    case Open(k) =>
      var keys :- LoadKeys(k, versions, NormalizeVersion(currentVersion));
      match Get(k, AdminSlot)
      case ReadFault => Failure(ReadAdminKey)
      case NotFound => Success(Loaded(keys, ""))
      case Found(data) => Success(Loaded(keys, TrimSpace(data)))
  }

  /** Every loaded version is positive, and the admin key is the trimmed admin
      item, or "" when there is none. */
  lemma LoadedShape(ring: Ring, versions: seq<int>, currentVersion: int)
    requires LoadTrackingKeys(ring, versions, currentVersion).Success?
    ensures forall v :: v in LoadTrackingKeys(ring, versions, currentVersion).value.keys ==> v >= 1
    ensures ring.Open? ==>
      (LoadTrackingKeys(ring, versions, currentVersion).value.adminKey ==
        if AdminSlot in ring.keyring.items then TrimSpace(ring.keyring.items[AdminSlot]) else "")
  {
    if ring.Open? {
      var k := ring.keyring;
      LoadFromOpen(k, versions, currentVersion);
      assert LoadKeys(k, versions, NormalizeVersion(currentVersion)).Success?;
    }
  }

  /** Loading from an open keyring is its version keys plus its admin item. */
  lemma LoadFromOpen(k: Keyring, versions: seq<int>, currentVersion: int)
    ensures LoadTrackingKeys(Open(k), versions, currentVersion) ==
      WithAdmin(LoadKeys(k, versions, NormalizeVersion(currentVersion)), Get(k, AdminSlot))
  {
  }

  function WithAdmin(keys: Result<map<int, string>, StoreError>, admin: Read): Result<Loaded, StoreError> {
    match keys
    case Failure(e) => Failure(e)
    case Success(keys) =>
      match admin
      case ReadFault => Failure(ReadAdminKey)
      case NotFound => Success(Loaded(keys, ""))
      case Found(data) => Success(Loaded(keys, TrimSpace(data)))
  }

  /** The version keys of an open keyring: the listed versions, then the legacy
      item, then the version the stored pointer names. */
  function LoadKeys(k: Keyring, versions: seq<int>, current: int): (r: Result<map<int, string>, StoreError>)
    requires current >= 1
    ensures r.Success? ==> forall v :: v in r.value ==> v >= 1
  {
    var order := LoadOrder(versions, current);
    var keys :- LoadVersionKeys(k, order);
    var withLegacy :- LoadLegacy(k, keys, current);
    LoadPointed(k, withLegacy, order, current)
  }

  /** Position of the highest of the first `n` listed versions whose key is not
      blank, or -1: the source walks the ascending list from the end. */
  function HighestNonBlank(keys: map<int, string>, ordered: seq<int>, n: nat): (r: int)
    requires n <= |ordered|
    requires forall i :: 0 <= i < |ordered| ==> ordered[i] in keys
    ensures -1 <= r < n
    ensures r >= 0 ==> !IsBlank(keys[ordered[r]])
    ensures forall j :: r < j < n ==> IsBlank(keys[ordered[j]])
    decreases n
  {
    if n == 0 then -1
    else if !IsBlank(keys[ordered[n - 1]]) then n - 1
    else HighestNonBlank(keys, ordered, n - 1)
  }

  /** `key` is the key of the greatest positive version with a non-blank key, or ""
      when every positive version's key is blank. */
  ghost predicate NewestKey(keys: map<int, string>, key: string) {
    || (key == "" && forall v :: v in keys && v > 0 ==> IsBlank(keys[v]))
    || (exists v :: v in keys && v > 0 && keys[v] == key && !IsBlank(key) &&
          forall w :: w in keys && w > v ==> IsBlank(keys[w]))
  }

  /** The key `LoadSecrets` reports: the current version's, else the newest
      non-blank one. */
  function CurrentKey(keys: map<int, string>, current: int): (key: string)
    ensures current in keys ==> key == keys[current]
    ensures current !in keys ==> NewestKey(keys, key)
  {
    if current in keys then keys[current]
    else
      var ordered := SortedVersionsFromMap(keys);
      var i := HighestNonBlank(keys, ordered, |ordered|);
      HighestIsMaximal(keys, ordered, i);
      if i >= 0 then keys[ordered[i]] else ""
  }

  /** `LoadSecrets`: the tracking key `CurrentKey` picks among the loaded keys, and
      the admin key. */
  function LoadSecrets(ring: Ring, versions: seq<int>, currentVersion: int): (r: Result<(string, string), StoreError>)
    ensures r.Success? <==> LoadTrackingKeys(ring, versions, currentVersion).Success?
    ensures r.Success? ==>
      var loaded := LoadTrackingKeys(ring, versions, currentVersion).value;
      r.value == (CurrentKey(loaded.keys, NormalizeVersion(currentVersion)), loaded.adminKey)
  {
    var loaded :- LoadTrackingKeys(ring, versions, currentVersion);
    Success((CurrentKey(loaded.keys, NormalizeVersion(currentVersion)), loaded.adminKey))
  }

  /** Reading the ascending list from the end finds the greatest version with a
      non-blank key. */
  lemma HighestIsMaximal(keys: map<int, string>, ordered: seq<int>, i: int)
    requires StrictlyAscending(ordered)
    requires forall v :: v in ordered <==> v in keys && v > 0
    requires forall k :: 0 <= k < |ordered| ==> ordered[k] in keys
    requires i == HighestNonBlank(keys, ordered, |ordered|)
    ensures i < 0 ==> forall v :: v in keys && v > 0 ==> IsBlank(keys[v])
    ensures i >= 0 ==> forall w :: w in keys && w > ordered[i] ==> IsBlank(keys[w])
  {
    if i < 0 {
      forall w | w in keys && w > 0
        ensures IsBlank(keys[w])
      {
        assert w in ordered;
        var j :| 0 <= j < |ordered| && ordered[j] == w;
      }
    } else {
      forall w | w in keys && w > ordered[i]
        ensures IsBlank(keys[w])
      {
        assert w in ordered;
        var j :| 0 <= j < |ordered| && ordered[j] == w;
        AscendingIndex(ordered, i, j);
      }
    }
  }

  /** In a strictly ascending list a smaller element stands earlier. */
  lemma AscendingIndex(s: seq<int>, a: int, b: int)
    requires StrictlyAscending(s)
    requires 0 <= a < |s| && 0 <= b < |s| && s[a] < s[b]
    ensures a < b
  {
  }

  /** With no failing writes, every write of a save goes through. */
  lemma {:induction false} WriteVersionKeysWithoutFaults(k: Keyring, keys: map<int, string>, versions: seq<int>)
    requires k.writeFaults == {}
    ensures WriteVersionKeys(k, keys, versions).outcome.Pass?
    decreases |versions|
  {
    if |versions| > 0 {
      var v := versions[0];
      if v !in keys || IsBlank(keys[v]) {
        WriteVersionKeysWithoutFaults(k, keys, versions[1..]);
      } else {
        WriteVersionKeysWithoutFaults(Put(k, TrackingKeyName(v), keys[v]).value, keys, versions[1..]);
      }
    }
  }

  /** A completed write pass leaves every listed non-blank key in its version item. */
  lemma WriteVersionKeysStores(k: Keyring, keys: map<int, string>, versions: seq<int>)
    requires WriteVersionKeys(k, keys, versions).outcome.Pass?
    ensures forall v :: v in versions && v in keys && !IsBlank(keys[v]) ==>
      TrackingKeyName(v) in WriteVersionKeys(k, keys, versions).ring.keyring.items &&
      WriteVersionKeys(k, keys, versions).ring.keyring.items[TrackingKeyName(v)] == keys[v]
  {
    forall v | v in versions && v in keys && !IsBlank(keys[v]) {
      WriteVersionKeysStoresOne(k, keys, versions, v);
    }
  }

  lemma {:induction false} WriteVersionKeysStoresOne(k: Keyring, keys: map<int, string>, versions: seq<int>, w: int)
    requires WriteVersionKeys(k, keys, versions).outcome.Pass?
    requires w in versions && w in keys && !IsBlank(keys[w])
    ensures TrackingKeyName(w) in WriteVersionKeys(k, keys, versions).ring.keyring.items
    ensures WriteVersionKeys(k, keys, versions).ring.keyring.items[TrackingKeyName(w)] == keys[w]
    decreases |versions|
  {
    var v := versions[0];
    var rest := versions[1..];
    assert w == v || w in rest;
    WriteVersionKeysStep(k, keys, versions);
    if v !in keys || IsBlank(keys[v]) {
      WriteVersionKeysStoresOne(k, keys, rest, w);
    } else {
      var k' := Put(k, TrackingKeyName(v), keys[v]).value;
      if w in rest {
        WriteVersionKeysStoresOne(k', keys, rest, w);
      } else {
        NotListedNotWritten(keys, rest, w);
      }
    }
  }

  /** One step of a write pass: a blank key is skipped, a non-blank one is put. */
  lemma WriteVersionKeysStep(k: Keyring, keys: map<int, string>, versions: seq<int>)
    requires |versions| > 0
    ensures var v := versions[0];
      v !in keys || IsBlank(keys[v]) ==>
        WriteVersionKeys(k, keys, versions) == WriteVersionKeys(k, keys, versions[1..])
    ensures var v := versions[0];
      v in keys && !IsBlank(keys[v]) && WriteVersionKeys(k, keys, versions).outcome.Pass? ==>
        && Put(k, TrackingKeyName(v), keys[v]).Some?
        && WriteVersionKeys(k, keys, versions) == WriteVersionKeys(Put(k, TrackingKeyName(v), keys[v]).value, keys, versions[1..])
  {
  }

  /** The item of a version that is not listed is not written. */
  lemma NotListedNotWritten(keys: map<int, string>, versions: seq<int>, w: int)
    requires w !in versions
    ensures TrackingKeyName(w) !in WrittenNames(keys, versions)
  {
    if TrackingKeyName(w) in WrittenNames(keys, versions) {
      var u :| u in versions && u in keys && !IsBlank(keys[u]) && TrackingKeyName(u) == TrackingKeyName(w);
      SlotNamesDiffer(u, w);
    }
  }

  /** What a successful save leaves in the keyring: each non-blank key of a positive
      version in its version item, the current key in the legacy item, the current
      version in decimal, the admin key; every other item as it was. */
  lemma SaveStores(ring: Ring, keys: map<int, string>, adminKey: string, currentVersion: int)
    requires SaveTrackingKeys(ring, keys, adminKey, currentVersion).outcome.Pass?
    ensures ring.Open? && SaveTrackingKeys(ring, keys, adminKey, currentVersion).ring.Open?
    ensures
      var before := ring.keyring;
      var after := SaveTrackingKeys(ring, keys, adminKey, currentVersion).ring.keyring;
      var current := NormalizeVersion(currentVersion);
      && after.readFaults == before.readFaults && after.writeFaults == before.writeFaults
      && (forall v :: v in keys && v > 0 && !IsBlank(keys[v]) ==>
            TrackingKeyName(v) in after.items && after.items[TrackingKeyName(v)] == keys[v])
      && LegacySlot in after.items && after.items[LegacySlot] == keys[current]
      && CurrentVersionSlot in after.items && after.items[CurrentVersionSlot] == Decimal.Itoa(current)
      && AdminSlot in after.items && after.items[AdminSlot] == adminKey
      && (forall n :: n in after.items && n !in before.items ==>
            n in WrittenNames(keys, SortedVersionsFromMap(keys)) || n in {LegacySlot, CurrentVersionSlot, AdminSlot})
      && (forall n ::
            (n in before.items && n !in WrittenNames(keys, SortedVersionsFromMap(keys)) &&
             n != LegacySlot && n != CurrentVersionSlot && n != AdminSlot) ==>
            n in after.items && after.items[n] == before.items[n])
  {
    var current := NormalizeVersion(currentVersion);
    var k := ring.keyring;
    assert SaveTrackingKeys(ring, keys, adminKey, currentVersion) == SaveInto(k, keys, adminKey, current);
    SaveIntoStores(k, keys, adminKey, current);
  }

  lemma SaveIntoStores(k: Keyring, keys: map<int, string>, adminKey: string, current: int)
    requires current in keys
    requires SaveInto(k, keys, adminKey, current).outcome.Pass?
    ensures
      var after := SaveInto(k, keys, adminKey, current).ring.keyring;
      && (forall v :: v in keys && v > 0 && !IsBlank(keys[v]) ==>
            TrackingKeyName(v) in after.items && after.items[TrackingKeyName(v)] == keys[v])
      && LegacySlot in after.items && after.items[LegacySlot] == keys[current]
      && CurrentVersionSlot in after.items && after.items[CurrentVersionSlot] == Decimal.Itoa(current)
      && AdminSlot in after.items && after.items[AdminSlot] == adminKey
      && (forall n :: n in after.items && n !in k.items ==>
            n in WrittenNames(keys, SortedVersionsFromMap(keys)) || n in {LegacySlot, CurrentVersionSlot, AdminSlot})
      && (forall n ::
            (n in k.items && n !in WrittenNames(keys, SortedVersionsFromMap(keys)) &&
             n != LegacySlot && n != CurrentVersionSlot && n != AdminSlot) ==>
            n in after.items && after.items[n] == k.items[n])
  {
    var versions := SortedVersionsFromMap(keys);
    var written := WriteVersionKeys(k, keys, versions);
    WriteVersionKeysStores(k, keys, versions);
    var k1 := written.ring.keyring;
    var after := SaveInto(k, keys, adminKey, current).ring.keyring;
    forall v | v in keys && v > 0 && !IsBlank(keys[v])
      ensures TrackingKeyName(v) in after.items && after.items[TrackingKeyName(v)] == keys[v]
    {
      var name := TrackingKeyName(v);
      assert v in versions;
      assert name in k1.items && k1.items[name] == keys[v];
      SlotNameIsNotFixed(v);
    }
  }

  /** Loading with the same keyring reads gives the same keys. */
  lemma {:induction false} LoadVersionKeysAgree(k1: Keyring, k2: Keyring, versions: seq<int>)
    requires forall v :: Get(k1, TrackingKeyName(v)) == Get(k2, TrackingKeyName(v))
    ensures LoadVersionKeys(k1, versions) == LoadVersionKeys(k2, versions)
    decreases |versions|
  {
    if |versions| > 0 {
      LoadVersionKeysAgree(k1, k2, versions[1..]);
      assert LoadSlot(k1, versions[0]) == LoadSlot(k2, versions[0]);
    }
  }

  /** The legacy item is consulted only for version 1, and only while no
      non-blank version-1 item exists: otherwise changing it changes nothing. */
  lemma LegacyIgnoredUnlessNeeded(k1: Keyring, k2: Keyring, versions: seq<int>, currentVersion: int)
    requires forall n :: n != LegacySlot ==> Get(k1, n) == Get(k2, n)
    requires NormalizeVersion(currentVersion) != DefaultVersion || StoredKey(k1, DefaultVersion).Some?
    ensures LoadTrackingKeys(Open(k1), versions, currentVersion) == LoadTrackingKeys(Open(k2), versions, currentVersion)
  {
    var current := NormalizeVersion(currentVersion);
    LoadKeysIgnoreLegacy(k1, k2, versions, current);
    assert Get(k1, AdminSlot) == Get(k2, AdminSlot);
    LoadFromOpen(k1, versions, currentVersion);
    LoadFromOpen(k2, versions, currentVersion);
  }

  /** A pre-versioning keyring: when the current version is 1 and its version item
      holds no key, the legacy item is loaded as version 1, trimmed, even if blank. */
  lemma LegacyLoadedWhenNeeded(k: Keyring, versions: seq<int>, currentVersion: int)
    requires k.readFaults == {}
    requires NormalizeVersion(currentVersion) == DefaultVersion
    requires StoredKey(k, DefaultVersion).None?
    requires LegacySlot in k.items
    ensures LoadTrackingKeys(Open(k), versions, currentVersion).Success?
    ensures DefaultVersion in LoadTrackingKeys(Open(k), versions, currentVersion).value.keys
    ensures LoadTrackingKeys(Open(k), versions, currentVersion).value.keys[DefaultVersion] == TrimSpace(k.items[LegacySlot])
  {
    var order := LoadOrder(versions, DefaultVersion);
    var keys := LoadVersionKeys(k, order);
    assert keys.Success?;
    assert DefaultVersion !in keys.value;
    var withLegacy := LoadLegacy(k, keys.value, DefaultVersion);
    assert withLegacy == Success(keys.value[DefaultVersion := TrimSpace(k.items[LegacySlot])]);
    LoadFromOpen(k, versions, currentVersion);
  }

  lemma LoadKeysIgnoreLegacy(k1: Keyring, k2: Keyring, versions: seq<int>, current: int)
    requires current >= 1
    requires forall n :: n != LegacySlot ==> Get(k1, n) == Get(k2, n)
    requires current != DefaultVersion || StoredKey(k1, DefaultVersion).Some?
    ensures LoadKeys(k1, versions, current) == LoadKeys(k2, versions, current)
  {
    forall v
      ensures Get(k1, TrackingKeyName(v)) == Get(k2, TrackingKeyName(v))
      ensures LoadSlot(k1, v) == LoadSlot(k2, v)
    {
      SlotNameIsNotFixed(v);
    }
    assert Get(k1, CurrentVersionSlot) == Get(k2, CurrentVersionSlot);
    var order := LoadOrder(versions, current);
    LoadVersionKeysAgree(k1, k2, order);
    var loaded := LoadVersionKeys(k1, order);
    if loaded.Success? {
      assert current in order;
      var keys := loaded.value;
      assert LoadLegacy(k1, keys, current) == Success(keys) == LoadLegacy(k2, keys, current);
      LoadPointedAgree(k1, k2, keys, order, current);
    }
  }

  lemma LoadPointedAgree(k1: Keyring, k2: Keyring, keys: map<int, string>, order: seq<int>, current: int)
    requires Get(k1, CurrentVersionSlot) == Get(k2, CurrentVersionSlot)
    requires forall v :: LoadSlot(k1, v) == LoadSlot(k2, v)
    ensures LoadPointed(k1, keys, order, current) == LoadPointed(k2, keys, order, current)
  {
  }

  lemma PointerIsTrimmed(current: int)
    requires current >= 1
    ensures TrimSpace(Decimal.Itoa(current)) == Decimal.Itoa(current)
  {
    var pointer := Decimal.Itoa(current);
    Decimal.ItoaLayout(current);
    assert Decimal.IsDigit(pointer[0]) && Decimal.IsDigit(pointer[|pointer| - 1]);
    TrimSpaceOfTrimmed(pointer);
  }

  /** A pointer naming the current version adds nothing. */
  lemma PointerToCurrentIgnored(k: Keyring, keys: map<int, string>, order: seq<int>, current: int)
    requires current >= 1
    requires Get(k, CurrentVersionSlot) == Found(Decimal.Itoa(current))
    ensures LoadPointed(k, keys, order, current) == Success(keys)
  {
    PointerIsTrimmed(current);
    Decimal.AtoiOfItoa(current);
  }

  /** Loading from a keyring that holds what a save wrote. */
  lemma LoadSavedKeys(after: Keyring, keys: map<int, string>, current: int)
    requires after.readFaults == {}
    requires current >= 1 && current in keys && !IsBlank(keys[current])
    requires forall v :: v in keys && v > 0 && !IsBlank(keys[v]) ==>
      TrackingKeyName(v) in after.items && after.items[TrackingKeyName(v)] == keys[v]
    requires CurrentVersionSlot in after.items && after.items[CurrentVersionSlot] == Decimal.Itoa(current)
    ensures
      var r := LoadKeys(after, SortedVersionsFromMap(keys), current);
      && r.Success?
      && (forall v :: v in keys && v > 0 && !IsBlank(keys[v]) ==> v in r.value && r.value[v] == TrimSpace(keys[v]))
      && (forall v :: v in r.value ==> v in keys && v > 0 && TrackingKeyName(v) in after.items)
  {
    var versions := SortedVersionsFromMap(keys);
    var order := LoadOrder(versions, current);
    var loaded := LoadVersionKeys(after, order);
    assert loaded.Success?;
    forall v | v in keys && v > 0 && !IsBlank(keys[v])
      ensures v in loaded.value && loaded.value[v] == TrimSpace(keys[v])
    {
      assert v in order;
    }
    assert LoadLegacy(after, loaded.value, current) == Success(loaded.value);
    PointerToCurrentIgnored(after, loaded.value, order, current);
  }

  /** Saving keys into a keyring whose reads and writes all work, then loading the
      saved versions, gives back every non-blank key (trimmed) and the admin key;
      starting from an empty keyring, nothing else comes back. */
  lemma SaveThenLoad(k: Keyring, keys: map<int, string>, adminKey: string, currentVersion: int)
    requires k.readFaults == {} && k.writeFaults == {}
    requires adminKey != ""
    requires NormalizeVersion(currentVersion) in keys && !IsBlank(keys[NormalizeVersion(currentVersion)])
    ensures SaveTrackingKeys(Open(k), keys, adminKey, currentVersion).outcome.Pass?
    ensures
      var saved := SaveTrackingKeys(Open(k), keys, adminKey, currentVersion).ring;
      var loaded := LoadTrackingKeys(saved, SortedVersionsFromMap(keys), currentVersion);
      && loaded.Success?
      && loaded.value.adminKey == TrimSpace(adminKey)
      && (forall v :: v in keys && v > 0 && !IsBlank(keys[v]) ==>
            v in loaded.value.keys && loaded.value.keys[v] == TrimSpace(keys[v]))
      && (k.items == map[] ==> forall v :: v in loaded.value.keys ==> v in keys && v > 0 && !IsBlank(keys[v]))
  {
    SaveWithoutFaultsPasses(k, keys, adminKey, currentVersion);
    SaveStores(Open(k), keys, adminKey, currentVersion);
    var after := SaveTrackingKeys(Open(k), keys, adminKey, currentVersion).ring.keyring;
    LoadAfterSave(k, after, keys, adminKey, currentVersion);
  }

  /** With no failing writes, a save whose guards hold goes through. */
  lemma SaveWithoutFaultsPasses(k: Keyring, keys: map<int, string>, adminKey: string, currentVersion: int)
    requires k.writeFaults == {}
    requires adminKey != ""
    requires NormalizeVersion(currentVersion) in keys && !IsBlank(keys[NormalizeVersion(currentVersion)])
    ensures SaveTrackingKeys(Open(k), keys, adminKey, currentVersion).outcome.Pass?
  {
    WriteVersionKeysWithoutFaults(k, keys, SortedVersionsFromMap(keys));
    assert SaveTrackingKeys(Open(k), keys, adminKey, currentVersion)
      == SaveInto(k, keys, adminKey, NormalizeVersion(currentVersion));
  }

  /** Loading from a keyring that holds what a save into `before` wrote. */
  lemma LoadAfterSave(before: Keyring, after: Keyring, keys: map<int, string>, adminKey: string, currentVersion: int)
    requires after.readFaults == {}
    requires NormalizeVersion(currentVersion) in keys && !IsBlank(keys[NormalizeVersion(currentVersion)])
    requires forall v :: v in keys && v > 0 && !IsBlank(keys[v]) ==>
      TrackingKeyName(v) in after.items && after.items[TrackingKeyName(v)] == keys[v]
    requires CurrentVersionSlot in after.items && after.items[CurrentVersionSlot] == Decimal.Itoa(NormalizeVersion(currentVersion))
    requires AdminSlot in after.items && after.items[AdminSlot] == adminKey
    requires forall n :: n in after.items && n !in before.items ==>
      n in WrittenNames(keys, SortedVersionsFromMap(keys)) || n in {LegacySlot, CurrentVersionSlot, AdminSlot}
    ensures
      var loaded := LoadTrackingKeys(Open(after), SortedVersionsFromMap(keys), currentVersion);
      && loaded.Success?
      && loaded.value.adminKey == TrimSpace(adminKey)
      && (forall v :: v in keys && v > 0 && !IsBlank(keys[v]) ==>
            v in loaded.value.keys && loaded.value.keys[v] == TrimSpace(keys[v]))
      && (before.items == map[] ==> forall v :: v in loaded.value.keys ==> v in keys && v > 0 && !IsBlank(keys[v]))
  {
    var current := NormalizeVersion(currentVersion);
    var versions := SortedVersionsFromMap(keys);
    LoadSavedKeys(after, keys, current);
    LoadFromOpen(after, versions, currentVersion);
    assert Get(after, AdminSlot) == Found(adminKey);
    if before.items == map[] {
      OnlyWrittenVersionsLoad(after, keys, LoadKeys(after, versions, current).value);
    }
  }

  /** Versions whose items exist only because a save wrote them are versions
      with a non-blank key. */
  lemma OnlyWrittenVersionsLoad(after: Keyring, keys: map<int, string>, loaded: map<int, string>)
    requires forall n :: n in after.items ==>
      n in WrittenNames(keys, SortedVersionsFromMap(keys)) || n in {LegacySlot, CurrentVersionSlot, AdminSlot}
    requires forall v :: v in loaded ==> TrackingKeyName(v) in after.items
    ensures forall v :: v in loaded ==> v in keys && v > 0 && !IsBlank(keys[v])
  {
    var versions := SortedVersionsFromMap(keys);
    forall v | v in loaded
      ensures v in keys && v > 0 && !IsBlank(keys[v])
    {
      SlotNameIsNotFixed(v);
      assert TrackingKeyName(v) in WrittenNames(keys, versions);
      WrittenVersion(keys, versions, v);
    }
  }

  /** A version whose item a save wrote is a version with a non-blank key. */
  lemma WrittenVersion(keys: map<int, string>, versions: seq<int>, v: int)
    requires forall w :: w in versions ==> w > 0
    requires TrackingKeyName(v) in WrittenNames(keys, versions)
    ensures v in keys && v > 0 && !IsBlank(keys[v])
  {
    var w :| w in versions && w in keys && !IsBlank(keys[w]) && TrackingKeyName(w) == TrackingKeyName(v);
    if w != v {
      SlotNamesDiffer(w, v);
    }
  }
}

=== FILE: text.dfy ===
/** The slices of Go's `strings` and `unicode` packages the model relies on:
    whitespace (`unicode.IsSpace`), `strings.TrimSpace`, `strings.Fields`,
    `strings.Contains`, `strings.HasPrefix` and an ASCII `strings.ToLower`.
    Strings are sequences of Unicode scalar values, i.e. Go runes. */
module Text {

  /** `unicode.IsSpace`: the Latin-1 spaces (tab, LF, VT, FF, CR, space, NEL, NBSP)
      and the remaining characters with the Unicode White_Space property. */
  predicate IsSpace(c: char) {
    || c == ' ' || c == '\t' || c == '\n' || c == '\r' || c == '\U{0B}' || c == '\U{0C}'
    || c == '\U{85}' || c == '\U{A0}' || c == '\U{1680}'
    || ('\U{2000}' <= c <= '\U{200A}')
    || c == '\U{2028}' || c == '\U{2029}' || c == '\U{202F}' || c == '\U{205F}' || c == '\U{3000}'
  }

  predicate NoSpace(s: string) {
    forall i :: 0 <= i < |s| ==> !IsSpace(s[i])
  }

  predicate AllSpace(s: string) {
    forall i :: 0 <= i < |s| ==> IsSpace(s[i])
  }

  /** Leading whitespace removed. */
  function TrimLeft(s: string): (r: string)
    ensures |r| <= |s| && r == s[|s| - |r|..]
    ensures forall i :: 0 <= i < |s| - |r| ==> IsSpace(s[i])
    ensures r == [] || !IsSpace(r[0])
  {
    if |s| > 0 && IsSpace(s[0]) then
      var r := TrimLeft(s[1..]);
      assert forall i :: 1 <= i < |s| ==> s[i] == s[1..][i - 1];
      r
    else s
  }

  /** Trailing whitespace removed. */
  function TrimRight(s: string): (r: string)
    ensures |r| <= |s| && r == s[..|r|]
    ensures forall i :: |r| <= i < |s| ==> IsSpace(s[i])
    ensures r == [] || !IsSpace(r[|r| - 1])
  {
    if |s| > 0 && IsSpace(s[|s| - 1]) then
      var r := TrimRight(s[..|s| - 1]);
      assert forall i :: 0 <= i < |s| - 1 ==> s[i] == s[..|s| - 1][i];
      r
    else s
  }

  /** `strings.TrimSpace`. */
  function TrimSpace(s: string): (r: string)
    ensures |r| <= |s|
    ensures r == [] || (!IsSpace(r[0]) && !IsSpace(r[|r| - 1]))
  {
    TrimRight(TrimLeft(s))
  }

  /** The Go idiom `strings.TrimSpace(s) == ""`. */
  predicate IsBlank(s: string) {
    TrimSpace(s) == ""
  }

  lemma TrimLeftOfNoLeadingSpace(s: string)
    requires s == [] || !IsSpace(s[0])
    ensures TrimLeft(s) == s
  {
  }

  lemma TrimRightOfNoTrailingSpace(s: string)
    requires s == [] || !IsSpace(s[|s| - 1])
    ensures TrimRight(s) == s
  {
  }

  /** Trimming twice is trimming once. */
  lemma TrimSpaceIdempotent(s: string)
    ensures TrimSpace(TrimSpace(s)) == TrimSpace(s)
  {
    var t := TrimSpace(s);
    TrimLeftOfNoLeadingSpace(t);
    TrimRightOfNoTrailingSpace(t);
  }

  /** A string without surrounding whitespace is left as it is. */
  lemma TrimSpaceOfTrimmed(s: string)
    requires s == [] || (!IsSpace(s[0]) && !IsSpace(s[|s| - 1]))
    ensures TrimSpace(s) == s
  {
    TrimLeftOfNoLeadingSpace(s);
    TrimRightOfNoTrailingSpace(s);
  }

  /** A string is blank exactly when every character in it is whitespace. */
  lemma BlankIffAllSpace(s: string)
    ensures IsBlank(s) <==> AllSpace(s)
  {
    var l := TrimLeft(s);
    var k := |s| - |l|;
    var r := TrimRight(l);
    if r != [] {
      assert l[|r| - 1] == r[|r| - 1];
      assert s[k + |r| - 1] == l[|r| - 1];
    }
  }

  /** The longest prefix of `s` that contains no whitespace. */
  function Word(s: string): (w: string)
    ensures |w| <= |s| && w == s[..|w|] && NoSpace(w)
    ensures |w| == |s| || IsSpace(s[|w|])
    ensures |s| > 0 && !IsSpace(s[0]) ==> |w| > 0
  {
    if |s| == 0 || IsSpace(s[0]) then [] else [s[0]] + Word(s[1..])
  }

  /** `strings.Fields`: the maximal runs of non-whitespace characters, in order. */
  function Fields(s: string): (r: seq<string>)
    ensures forall i :: 0 <= i < |r| ==> |r[i]| > 0 && NoSpace(r[i])
    decreases |s|
  {
    var t := TrimLeft(s);
    if |t| == 0 then [] else FieldsOfTrimmed(t)
  }

  function FieldsOfTrimmed(t: string): (r: seq<string>)
    requires |t| > 0 && !IsSpace(t[0])
    ensures forall i :: 0 <= i < |r| ==> |r[i]| > 0 && NoSpace(r[i])
    decreases |t|, 0
  {
    var w := Word(t);
    var f := Fields(t[|w|..]);
    var r := [w] + f;
    assert forall i :: 1 <= i < |r| ==> r[i] == f[i - 1];
    r
  }

  /** `s` with every whitespace character deleted. */
  function RemoveSpace(s: string): string {
    if |s| == 0 then [] else (if IsSpace(s[0]) then [] else [s[0]]) + RemoveSpace(s[1..])
  }

  /** Concatenation of a sequence of sequences. */
  function Flatten<T>(ss: seq<seq<T>>): seq<T> {
    if |ss| == 0 then [] else ss[0] + Flatten(ss[1..])
  }

  lemma {:induction false} FlattenAppend<T>(a: seq<seq<T>>, b: seq<seq<T>>)
    ensures Flatten(a + b) == Flatten(a) + Flatten(b)
    decreases |a|
  {
    if |a| == 0 {
      assert a + b == b;
    } else {
      assert (a + b)[1..] == a[1..] + b;
      FlattenAppend(a[1..], b);
    }
  }

  lemma {:induction false} RemoveSpaceAppend(a: string, b: string)
    ensures RemoveSpace(a + b) == RemoveSpace(a) + RemoveSpace(b)
    decreases |a|
  {
    if |a| == 0 {
      assert a + b == b;
    } else {
      assert (a + b)[1..] == a[1..] + b;
      RemoveSpaceAppend(a[1..], b);
    }
  }

  lemma {:induction false} RemoveSpaceOfAllSpace(s: string)
    requires AllSpace(s)
    ensures RemoveSpace(s) == []
    decreases |s|
  {
    if |s| > 0 {
      RemoveSpaceOfAllSpace(s[1..]);
    }
  }

  lemma {:induction false} RemoveSpaceOfNoSpace(s: string)
    requires NoSpace(s)
    ensures RemoveSpace(s) == s
    decreases |s|
  {
    if |s| > 0 {
      RemoveSpaceOfNoSpace(s[1..]);
    }
  }

  /** Fields loses exactly the whitespace: gluing the fields back together gives
      the input with its whitespace deleted, so no other character is dropped,
      added or reordered. */
  lemma {:induction false} FieldsKeepNonSpace(s: string)
    ensures Flatten(Fields(s)) == RemoveSpace(s)
    decreases |s|
  {
    var t := TrimLeft(s);
    RemoveSpaceOfTrimLeft(s);
    if |t| > 0 {
      var w := Word(t);
      var rest := t[|w|..];
      RemoveSpaceOfWord(t);
      FieldsKeepNonSpace(rest);
      FlattenCons(w, Fields(rest));
    }
  }

  lemma RemoveSpaceOfTrimLeft(s: string)
    ensures RemoveSpace(TrimLeft(s)) == RemoveSpace(s)
  {
    var t := TrimLeft(s);
    var k := |s| - |t|;
    var lead := s[..k];
    assert s == lead + t;
    assert AllSpace(lead) by {
      forall i | 0 <= i < k
        ensures IsSpace(lead[i])
      {
        assert lead[i] == s[i];
      }
    }
    RemoveSpaceAppend(lead, t);
    RemoveSpaceOfAllSpace(lead);
  }

  lemma RemoveSpaceOfTrimRight(s: string)
    ensures RemoveSpace(TrimRight(s)) == RemoveSpace(s)
  {
    var t := TrimRight(s);
    assert s == t + s[|t|..];
    RemoveSpaceAppend(t, s[|t|..]);
    RemoveSpaceOfAllSpace(s[|t|..]);
  }

  /** Trimming deletes only whitespace. */
  lemma RemoveSpaceOfTrimSpace(s: string)
    ensures RemoveSpace(TrimSpace(s)) == RemoveSpace(s)
  {
    RemoveSpaceOfTrimLeft(s);
    RemoveSpaceOfTrimRight(TrimLeft(s));
  }

  lemma RemoveSpaceOfWord(t: string)
    ensures RemoveSpace(t) == Word(t) + RemoveSpace(t[|Word(t)|..])
  {
    var w := Word(t);
    assert t == w + t[|w|..];
    RemoveSpaceAppend(w, t[|w|..]);
    RemoveSpaceOfNoSpace(w);
  }

  lemma FlattenCons<T>(x: seq<T>, xs: seq<seq<T>>)
    ensures Flatten([x] + xs) == x + Flatten(xs)
  {
    assert ([x] + xs)[1..] == xs;
  }

  /** A string made only of whitespace has no fields. */
  lemma FieldsOfBlank(s: string)
    requires AllSpace(s)
    ensures Fields(s) == []
  {
  }

  /** `sub` occurs in `s` at position `i`. */
  predicate OccursAt(s: string, sub: string, i: nat) {
    i + |sub| <= |s| && s[i..i + |sub|] == sub
  }

  /** `s` contains `sub` starting at or after position `from`. */
  function ContainsFrom(s: string, sub: string, from: nat): (r: bool)
    ensures r <==> exists i: nat :: from <= i && OccursAt(s, sub, i)
    decreases |s| - from
  {
    if from + |sub| > |s| then false
    else OccursAt(s, sub, from) || ContainsFrom(s, sub, from + 1)
  }

  /** `strings.Contains`. */
  function Contains(s: string, sub: string): (r: bool)
    ensures r <==> exists i: nat :: OccursAt(s, sub, i)
  {
    ContainsFrom(s, sub, 0)
  }

  /** `strings.HasPrefix`. */
  predicate HasPrefix(s: string, prefix: string) {
    |prefix| <= |s| && s[..|prefix|] == prefix
  }

  /** Lower-casing of one character, restricted to ASCII letters. */
  function LowerChar(c: char): char {
    if 'A' <= c <= 'Z' then (c as int + 32) as char else c
  }

  /** `strings.ToLower`, restricted to ASCII letters. */
  function ToLower(s: string): (r: string)
    ensures |r| == |s|
    ensures forall i :: 0 <= i < |s| ==> r[i] == LowerChar(s[i])
  {
    seq(|s|, i requires 0 <= i < |s| => LowerChar(s[i]))
  }

  lemma ToLowerIdempotent(s: string)
    ensures ToLower(ToLower(s)) == ToLower(s)
  {
  }

  /** Lower-casing neither makes nor removes whitespace. */
  lemma LowerCharKeepsSpace(c: char)
    ensures IsSpace(LowerChar(c)) <==> IsSpace(c)
  {
  }

  lemma {:induction false} TrimLeftOfLower(s: string)
    ensures TrimLeft(ToLower(s)) == ToLower(TrimLeft(s))
  {
    if |s| > 0 {
      LowerCharKeepsSpace(s[0]);
      if IsSpace(s[0]) {
        assert ToLower(s)[1..] == ToLower(s[1..]);
        TrimLeftOfLower(s[1..]);
      }
    }
  }

  lemma {:induction false} TrimRightOfLower(s: string)
    ensures TrimRight(ToLower(s)) == ToLower(TrimRight(s))
  {
    if |s| > 0 {
      var l, t := ToLower(s), s[..|s| - 1];
      LowerCharKeepsSpace(s[|s| - 1]);
      if IsSpace(s[|s| - 1]) {
        assert l[..|s| - 1] == ToLower(t);
        assert TrimRight(l) == TrimRight(ToLower(t));
        TrimRightOfLower(t);
      }
    }
  }

  /** Trimming and lower-casing commute. */
  lemma TrimSpaceOfLower(s: string)
    ensures TrimSpace(ToLower(s)) == ToLower(TrimSpace(s))
  {
    TrimLeftOfLower(s);
    TrimRightOfLower(TrimLeft(s));
  }

  // ---------------------------------------------------------------------------
  // Generic sequence facts, proved where no string facts are in scope
  // ---------------------------------------------------------------------------

  lemma AppendAssoc<T>(a: seq<T>, b: seq<T>, c: seq<T>)
    ensures a + (b + c) == (a + b) + c
  {
  }

  /** A non-empty sequence is its front followed by its last element. */
  lemma SplitLast<T>(s: seq<T>)
    requires |s| > 0
    ensures s == s[..|s| - 1] + [s[|s| - 1]]
  {
  }

  lemma AppendEmpty<T>(a: seq<T>)
    ensures a + [] == a
  {
  }

  lemma SliceOfSuffix<T>(s: seq<T>, k: nat, a: nat, b: nat)
    requires k <= |s| && a <= b <= |s| - k
    ensures s[k..][a..b] == s[k + a..k + b]
  {
  }
}

=== FILE: tracking_config.dfy ===
/** The tracking configuration file (internal/tracking/config.go).

    Reading the file and decoding its JSON are parameters: the file is missing,
    unreadable, not valid JSON, or decodes to a `Config`. */
module TrackingConfig {
  import opened Wrappers
  import opened Text
  import opened Secrets

  datatype Config = Config(
    enabled: bool,
    workerUrl: string,
    secretsInKeyring: bool,
    keyVersions: seq<int>,
    currentVersion: int,
    trackingKey: string,
    adminKey: string)

  /** What reading and decoding the config file produced. */
  datatype ConfigFile = NoFile | Unreadable | Malformed | Stored(config: Config)

  datatype ConfigError = ReadConfig | ParseConfig | SecretsFailed(cause: StoreError)

  /** The configuration of a machine with no config file: tracking disabled. */
  const Unconfigured: Config := Config(false, "", false, [], 0, "", "")

  /** `normalizeTrackingMetadata`: the current version is positive and the version
      list is positive, de-duplicated, ascending and holds the current version. */
  function Normalize(c: Config): (r: Config)
    ensures r.currentVersion == NormalizeVersion(c.currentVersion)
    ensures StrictlyAscending(r.keyVersions)
    ensures forall v :: v in r.keyVersions <==> v == r.currentVersion || (v in c.keyVersions && v > 0)
    ensures r == c.(keyVersions := r.keyVersions, currentVersion := r.currentVersion)
  {
    var current := NormalizeVersion(c.currentVersion);
    if |c.keyVersions| == 0 then c.(currentVersion := current, keyVersions := [current])
    else
      var sorted := SortedVersions(c.keyVersions);
      if ContainsVersion(sorted, current) then c.(currentVersion := current, keyVersions := sorted)
      else c.(currentVersion := current, keyVersions := SortedVersions([current] + sorted))
  }

  predicate Normalized(c: Config) {
    && c.currentVersion >= 1
    && StrictlyAscending(c.keyVersions)
    && (forall v :: v in c.keyVersions ==> v > 0)
    && c.currentVersion in c.keyVersions
  }

  /** A normalised configuration is left as it is. */
  lemma NormalizeOfNormalized(c: Config)
    requires Normalized(c)
    ensures Normalize(c) == c
  {
    assert c.keyVersions[0] in c.keyVersions;
    SortedVersionsOfSorted(c.keyVersions);
  }

  /** Normalising twice is normalising once. */
  lemma NormalizeIdempotent(c: Config)
    ensures Normalized(Normalize(c))
    ensures Normalize(Normalize(c)) == Normalize(c)
  {
    NormalizeOfNormalized(Normalize(c));
  }

  /** `IsConfigured`. */
  predicate IsConfigured(c: Config) {
    c.enabled && c.workerUrl != "" && c.trackingKey != ""
  }

  /** The keyring is consulted when either key is blank or the secrets live there. */
  predicate NeedsKeyring(c: Config) {
    IsBlank(c.trackingKey) || IsBlank(c.adminKey) || c.secretsInKeyring
  }

  /** `LoadConfig`. A missing file means tracking is off; otherwise the metadata is
      normalised and blank keys are filled in from the keyring. */
  function LoadConfig(file: ConfigFile, ring: Ring): (r: Result<Config, ConfigError>)
    ensures file.NoFile? ==> r == Success(Unconfigured)
    ensures file.Unreadable? ==> r == Failure(ReadConfig)
    ensures file.Malformed? ==> r == Failure(ParseConfig)
    ensures r.Success? && file.Stored? ==>
      && r.value == Normalize(file.config).(trackingKey := r.value.trackingKey, adminKey := r.value.adminKey)
      && (!IsBlank(file.config.trackingKey) ==> r.value.trackingKey == file.config.trackingKey)
      && (!IsBlank(file.config.adminKey) ==> r.value.adminKey == file.config.adminKey)
    ensures r.Failure? && file.Stored? ==> NeedsKeyring(file.config) && r.error.SecretsFailed?
    ensures file.Stored? && NeedsKeyring(file.config) ==>
      var n := Normalize(file.config);
      LoadSecrets(ring, n.keyVersions, n.currentVersion).Failure? ==>
        r == Failure(SecretsFailed(LoadSecrets(ring, n.keyVersions, n.currentVersion).error))
  {
    match file
    case NoFile => Success(Unconfigured)
    case Unreadable => Failure(ReadConfig)
    case Malformed => Failure(ParseConfig)
    case Stored(stored) =>
      var c := Normalize(stored);
      if !NeedsKeyring(c) then Success(c)
      else
        match LoadSecrets(ring, c.keyVersions, c.currentVersion)
        case Failure(e) => Failure(SecretsFailed(e))
        case Success(secrets) =>
          var trackingKey := if IsBlank(c.trackingKey) then secrets.0 else c.trackingKey;
          var adminKey := if IsBlank(c.adminKey) then secrets.1 else c.adminKey;
          Success(c.(trackingKey := trackingKey, adminKey := adminKey))
  }

  /** A configuration with both keys inline and not marked as keyring-backed never
      touches the keyring: any keyring gives the same result. */
  lemma InlineKeysIgnoreKeyring(c: Config, ring1: Ring, ring2: Ring)
    requires !NeedsKeyring(c)
    ensures LoadConfig(Stored(c), ring1) == LoadConfig(Stored(c), ring2) == Success(Normalize(c))
  {
  }

  /** A machine without a config file is not configured for tracking. */
  lemma MissingFileNotConfigured(ring: Ring)
    ensures LoadConfig(NoFile, ring).Success? && !IsConfigured(LoadConfig(NoFile, ring).value)
  {
  }

  /** With its keys inline, a configuration counts as set up exactly when tracking
      is enabled and a worker URL is given, whatever the keyring holds. */
  lemma InlineConfigured(c: Config, ring: Ring)
    requires !NeedsKeyring(c)
    ensures LoadConfig(Stored(c), ring).Success?
    ensures IsConfigured(LoadConfig(Stored(c), ring).value) <==> c.enabled && c.workerUrl != ""
  {
    InlineKeysIgnoreKeyring(c, ring, ring);
    assert !IsBlank(c.trackingKey);
  }

  /** `SaveConfig`: what is written to disk. Keyring-backed configurations are
      written without their keys. */
  function PersistedCopy(c: Config): (r: Config)
    ensures c.secretsInKeyring ==> r.trackingKey == "" && r.adminKey == ""
    ensures r == c.(trackingKey := r.trackingKey, adminKey := r.adminKey)
    ensures !c.secretsInKeyring ==> r == c
  {
    if c.secretsInKeyring then c.(trackingKey := "", adminKey := "") else c
  }

  /** Normalising reads the version fields only: the keys pass through. */
  lemma NormalizeKeepsKeys(c: Config, trackingKey: string, adminKey: string)
    ensures Normalize(c.(trackingKey := trackingKey, adminKey := adminKey))
      == Normalize(c).(trackingKey := trackingKey, adminKey := adminKey)
  {
  }

  /** A stored configuration that needs the keyring, read with a keyring that
      serves its secrets, has its blank keys filled in from them. */
  lemma LoadFromKeyring(stored: Config, ring: Ring)
    requires NeedsKeyring(Normalize(stored))
    requires LoadSecrets(ring, Normalize(stored).keyVersions, Normalize(stored).currentVersion).Success?
    ensures
      var n := Normalize(stored);
      var secrets := LoadSecrets(ring, n.keyVersions, n.currentVersion).value;
      LoadConfig(Stored(stored), ring) == Success(n.(
        trackingKey := if IsBlank(n.trackingKey) then secrets.0 else n.trackingKey,
        adminKey := if IsBlank(n.adminKey) then secrets.1 else n.adminKey))
  {
  }

  /** Writing a keyring-backed configuration and reading it back restores its keys
      from the keyring: the file plus the keyring hold the whole configuration. */
  lemma PersistThenLoad(c: Config, ring: Ring)
    requires c.secretsInKeyring
    requires LoadSecrets(ring, Normalize(c).keyVersions, Normalize(c).currentVersion) == Success((c.trackingKey, c.adminKey))
    ensures LoadConfig(Stored(PersistedCopy(c)), ring) == Success(Normalize(c))
  {
    var n := Normalize(c);
    NormalizeKeepsKeys(c, "", "");
    assert Normalize(PersistedCopy(c)) == n.(trackingKey := "", adminKey := "");
    assert IsBlank("");
    LoadFromKeyring(PersistedCopy(c), ring);
  }

  /** A normalised configuration saved without its tracking key is read back with
      the key the keyring holds for its current version. */
  lemma LoadTakesCurrentKey(c: Config, ring: Ring)
    requires Normalized(c) && c.trackingKey == ""
    requires LoadTrackingKeys(ring, c.keyVersions, c.currentVersion).Success?
    requires c.currentVersion in LoadTrackingKeys(ring, c.keyVersions, c.currentVersion).value.keys
    ensures
      var r := LoadConfig(Stored(PersistedCopy(c)), ring);
      && r.Success?
      && r.value.currentVersion == c.currentVersion
      && r.value.keyVersions == c.keyVersions
      && r.value.trackingKey == LoadTrackingKeys(ring, c.keyVersions, c.currentVersion).value.keys[c.currentVersion]
  {
    var persisted := PersistedCopy(c);
    assert Normalized(persisted);
    NormalizeOfNormalized(persisted);
    assert IsBlank(persisted.trackingKey);
    LoadFromKeyring(persisted, ring);
  }
}

=== FILE: wrappers.dfy ===
/** Failure-compatible result types shared by every module of the model.
    Go's `(value, error)` pairs become `Result`, a lone `error` becomes `Outcome`,
    and a nil-able pointer or an optional map lookup becomes `Option`. */
module Wrappers {

  datatype Option<+T> = None | Some(value: T) {
    predicate IsFailure() { None? }

    function PropagateFailure<U>(): Option<U>
      requires None?
    {
      None
    }

    function Extract(): T
      requires Some?
    {
      value
    }

    function GetOr(default: T): T {
      if Some? then value else default
    }
  }

  datatype Result<+T, +E> = Success(value: T) | Failure(error: E) {
    predicate IsFailure() { Failure? }

    function PropagateFailure<U>(): Result<U, E>
      requires Failure?
    {
      Failure(error)
    }

    function Extract(): T
      requires Success?
    {
      value
    }
  }

  datatype Outcome<+E> = Pass | Fail(error: E) {
    predicate IsFailure() { Fail? }

    function PropagateFailure<U>(): Result<U, E>
      requires Fail?
    {
      Failure(error)
    }
  }
}
